=== FILE: README.md ===
# Dark-pattern recognition extension: a Dafny model

This project models the decision logic of a browser extension that flags
manipulative page design ("dark patterns"), and it proves properties of that
model. The model covers these parts of the extension:

- **Content script.** It scrapes the text of page elements, sends the texts to
  a classification service and highlights the elements the service labels. It
  also runs local detectors:
  - hidden or camouflaged cancel buttons;
  - de-emphasised cancel buttons in subscription flows;
  - pre-checked consent boxes;
  - forced-continuity notices in small print or footers.
  The detectors attach alert tooltips and click listeners. `clearHighlights`
  removes the highlights again.
- **Classification service** (`main` in the Flask app). It labels every token
  with two classifiers and builds the response:
  - the dark-pattern list;
  - the count per category;
  - a transparency score;
  - a risk level and colour.
- **Background script.** It keeps a per-tab toolbar badge.
- **Popup.** It builds the suggested-actions panel and the pattern breakdown,
  shows the three most recent achievements, and checks whether a tab can be
  analysed.
- **Gamification system.** It tracks points, experience levels, achievements,
  day streaks and unique sites.

The page is a snapshot: a sequence of element records in document order
(`Dom.Page`). Each record holds the tag, attributes, computed style, layout
values and children the detectors read. An element's parent and offset parent
come before it. CSS selectors become predicates on these records, and element
handles become indices. The two trained classifiers, the URL parser, the clock
and the browser APIs are parameters or are left out.

Modules:

| module | models |
|---|---|
| `Common` | optional values; index lists in document order (`querySelectorAll` plus `filter`) |
| `Text` | `trim`, ASCII `toLowerCase`, `includes`, `startsWith`, `join`, string `>` |
| `Decimal` | `Number.prototype.toString` and `parseInt` on digit strings |
| `Gamification` | `GamificationSystem` as pure state transitions |
| `Labels`, `Report` | the service's labelling loop and its JSON response |
| `Contrast` | `getRGB` (the `rgba?\(` regular expression) and `isLowContrast` |
| `Dom` | the page snapshot; `findParentWithText`, `getElementPosition`, `closest` |
| `Detectors` | `scanForHiddenButtons`, `checkForBuriedCancelButton`, `scanForCancellationFlows`, `detectPrecheckedOptions`, `detectForcedContinuity` |
| `Extraction` | the text scrape and how alert tooltips enter it |
| `Annotation` | `highlight`, `createDarkPatternAlert`'s class and listener, clicks, `clearHighlights` and its `querySelector` over the element tree, the result loop |
| `Badge` | `updateBadge`, the message gate and the reset on loading |
| `Popup` | `generateSuggestedActions`, `updatePatternBreakdown`, `updateRecentAchievements`, the analysable-tab check |

Notes on the code:

- `findParentWithText(el, 5)` examines the element itself and four
  ancestors.
- The hidden-button scan uses twenty cancel phrases, including "no, thanks".
- The fourth de-emphasis clause compares a sibling's colour with that
  sibling's own background colour.
- `getExperienceForNextLevel` returns the current level's own threshold, so
  the level progress is always 100 (see Findings).

## Model

| member | source | states |
|---|---|---|
| Text.Trim | dark-patterns-recognition-master/app/js/content.js:720 | the trimmed text is empty exactly when the text is all white space, and otherwise starts and ends with a non-space |
| Text.TrimUnpads | dark-patterns-recognition-master/app/js/content.js:720 | the trimmed text is the text with a run of white space removed at each end, and nothing else removed |
| Text.TrimIdempotent | dark-patterns-recognition-master/app/js/content.js:378 | trimming an already trimmed text changes nothing |
| Text.ContainsIff | dark-patterns-recognition-master/app/js/content.js:409 | `includes` holds exactly when the phrase occurs at some position |
| Text.StringGreaterAsymmetric | dark-patterns-recognition-master/app/js/content.js:531 | the string comparison of `fontWeight` values is irreflexive and asymmetric |
| Decimal.NatToStringRoundTrip | dark-patterns-recognition-master/app/js/background.js:22 | the badge's decimal text reads back as the pattern count |
| Decimal.NatToStringInjective | dark-patterns-recognition-master/app/js/background.js:22 | different counts give different badge texts |
| Gamification.ThresholdsIncreasing | dark-patterns-recognition-master/app/js/gamification.js:104-107 | the twenty level thresholds start at 0 and strictly increase |
| Gamification.CheckLevelUp | dark-patterns-recognition-master/app/js/gamification.js:178-186 | the level never drops and never passes 20; it stops at the first threshold not reached, and every threshold it passed was reached |
| Gamification.LevelForCharacterised | dark-patterns-recognition-master/app/js/gamification.js:178-186 | the level an experience is worth is the number of thresholds reached, and non-negative experience is worth level 1 or more |
| Gamification.LevelUpMatchesLevelFor | dark-patterns-recognition-master/app/js/gamification.js:170-186 | after a gain, `checkLevelUp` from the old level lands exactly on the level the new experience is worth |
| Gamification.ProgressAlwaysFull | dark-patterns-recognition-master/app/js/gamification.js:147-167 | as written, the progress is 100 at every level, whatever the experience |
| Gamification.IntendedLevelProgress | dark-patterns-recognition-master/app/js/gamification.js:156-167 | the corrected progress stays within 0..100. It is 100 at the top level, below 100 while the next threshold is not reached, and 0 up to the current threshold |
| Gamification.IntendedProgressExample | dark-patterns-recognition-master/app/js/gamification.js:156-167 | half way from level 1 to level 2 the corrected progress is 50; as written it is 100 |
| Gamification.AddPoints | dark-patterns-recognition-master/app/js/gamification.js:170-175 | points and experience rise by the same amount; the level passes only thresholds the new experience has reached and stops at the first it has not, so a level that matched the old experience matches the new one after a gain; statistics and achievements are unchanged |
| Gamification.NewlyMet | dark-patterns-recognition-master/app/js/gamification.js:192-209 | the achievements picked are exactly the locked ones whose requirement is met, in table order |
| Gamification.CheckAchievements | dark-patterns-recognition-master/app/js/gamification.js:189-217 | it unlocks exactly the locked achievements whose requirement is met, appends them in table order without repeats, credits no reward points and changes nothing else |
| Gamification.CheckAchievementsTwice | dark-patterns-recognition-master/app/js/gamification.js:189-217 | a second check with unchanged statistics unlocks nothing |
| Gamification.AvailableAchievements | dark-patterns-recognition-master/app/js/gamification.js:320-324 | the available achievements are exactly the locked ones, in table order |
| Gamification.UpdateStreak | dark-patterns-recognition-master/app/js/gamification.js:220-242 | a first visit starts a streak of 1; the same day changes nothing; the next day extends the streak; any other gap restarts it; today becomes the last active day |
| Gamification.StreakCountsConsecutiveDays | dark-patterns-recognition-master/app/js/gamification.js:220-242 | activity on n consecutive days from a fresh start gives a streak of n |
| Gamification.OnSiteAnalyzed | dark-patterns-recognition-master/app/js/gamification.js:245-289 | the handler first advances the day streak as `updateStreak` does, earns 5 + 2 per pattern and counts a site only when its domain is new and non-empty. It adds the patterns, counts a High risk site and unlocks what is now met |
| Gamification.OnScreenshotTaken | dark-patterns-recognition-master/app/js/gamification.js:291-302 | one more screenshot and exactly 10 points; unlocks what is now met |
| Gamification.InitialValid | dark-patterns-recognition-master/app/js/gamification.js:4-20 | the initial state keeps the bookkeeping invariant |
| Gamification.ValidLevelBounds | dark-patterns-recognition-master/app/js/gamification.js:178-186 | in a valid state the level is between 1 and 20 and the next threshold is not reached |
| Gamification.OnSiteAnalyzedPreservesValid | dark-patterns-recognition-master/app/js/gamification.js:245-289 | analysing a site keeps the invariant: points track experience, the level matches the experience, no achievement repeats, and sites are counted once |
| Gamification.OnScreenshotTakenPreservesValid | dark-patterns-recognition-master/app/js/gamification.js:291-302 | taking a screenshot keeps the invariant |
| Gamification.SiteCounterTracksUniqueSites | dark-patterns-recognition-master/app/js/gamification.js:259-263 | analysing a site changes the site counter and the number of unique sites by the same amount |
| Gamification.UnlockedOnlyGrows | dark-patterns-recognition-master/app/js/gamification.js:189-217 | neither event loses an unlocked achievement |
| Labels.CountDark | dark-patterns-recognition-master/api/app.py:33 | at most one dark label per token |
| Report.Classify | dark-patterns-recognition-master/api/app.py:20-30 | one label per token, in order: the category when the presence classifier says Dark, otherwise the presence label |
| Report.DarkPrefix | dark-patterns-recognition-master/api/app.py:55-61 | one entry per dark label among the first n, in token order, with its text, name and position |
| Report.DarkPrefixCovers | dark-patterns-recognition-master/api/app.py:55-61 | every dark token among the first n has an entry |
| Report.DarkPatterns | dark-patterns-recognition-master/api/app.py:55-61 | `dark_patterns` has one entry per dark label, in token order, and every dark token has one |
| Report.InitialCountsValid | dark-patterns-recognition-master/api/app.py:44-52 | the seven category keys start at zero, once each |
| Report.SumOverZeroEach | dark-patterns-recognition-master/api/app.py:44-52 | a zero sum of counts means every listed count is zero |
| Report.SumOverUpdate | dark-patterns-recognition-master/api/app.py:62 | changing the count of a key listed once moves the sum by the same amount |
| Report.Bump | dark-patterns-recognition-master/api/app.py:62 | the key gains one: an existing key keeps its place, a new key is appended, other counts and the key order stay, and the total rises by one |
| Report.BumpExisting | dark-patterns-recognition-master/api/app.py:62 | bumping a present key keeps the dict valid and adds one to the total |
| Report.BumpNew | dark-patterns-recognition-master/api/app.py:62 | bumping a new key appends it, keeps the dict valid and adds one to the total |
| Report.Tally | dark-patterns-recognition-master/api/app.py:54-63 | the counting loop keeps the dict valid |
| Report.TallyCounts | dark-patterns-recognition-master/api/app.py:54-63 | the counts grow by the number of dark labels, each name by its occurrences; "Not Dark" is never counted; the existing keys keep their places |
| Report.TallyKeys | dark-patterns-recognition-master/api/app.py:54-63 | every key is a starting key or a dark name that occurred |
| Report.Entries | dark-patterns-recognition-master/api/app.py:85 | what the client reads from `pattern_counts`: every name and count of the dict exactly once, in ascending key order, since `jsonify` writes sorted keys |
| Report.Items | dark-patterns-recognition-master/api/app.py:44-63 | the dict's pairs in insertion order, each key with its count |
| Report.SortByKey | dark-patterns-recognition-master/api/app.py:85 | a permutation of its input, sorted by Python string order |
| Report.InsertByKey | dark-patterns-recognition-master/api/app.py:85 | inserting one pair into a sorted list adds exactly that pair and keeps the list sorted |
| Report.TransparencyScore | dark-patterns-recognition-master/api/app.py:66 | the score is between 0 and 100: 100 less 5 per pattern, or 0 from 20 patterns on |
| Report.ScoreNonIncreasing | dark-patterns-recognition-master/api/app.py:66 | more patterns never raise the score |
| Report.RiskBandsByTotal | dark-patterns-recognition-master/api/app.py:69-77 | Low with green for at most 4 patterns, Medium with orange for 5 to 10, High with red from 11 |
| Report.BuildResponse | dark-patterns-recognition-master/api/app.py:79-87 | the response echoes the labels, and `dark_patterns` is the dark list of the tokens and labels. Its total equals the number of dark entries and the sum of the counts, and each dark name is counted by its occurrences. The score is the score of that total, and the risk follows the score |
| Report.HandleRequest | dark-patterns-recognition-master/api/app.py:15-89 | the whole endpoint: the labels per token, and the response is the one built from the tokens and those labels |
| Contrast.DigitRun | dark-patterns-recognition-master/app/js/content.js:697 | the greedy `\d+` run: all digits, and stops at a non-digit |
| Contrast.FirstSomeIsLeftmost | dark-patterns-recognition-master/app/js/content.js:697 | the regular-expression scan finds nothing exactly when no position matches, otherwise the leftmost match |
| Contrast.GetRGBFallback | dark-patterns-recognition-master/app/js/content.js:698 | with no match the colour reads as black |
| Contrast.GetRGBLeftmost | dark-patterns-recognition-master/app/js/content.js:697-698 | with a match somewhere, `getRGB` returns the triple captured at a matching position |
| Contrast.MatchRendered | dark-patterns-recognition-master/app/js/content.js:697 | the pattern matches a rendered `rgb(` or `rgba(` colour at its start and captures its channels |
| Contrast.GetRGBRoundTrip | dark-patterns-recognition-master/app/js/content.js:696-699 | a rendered colour parses back to its own channels |
| Contrast.LowContrastIff | dark-patterns-recognition-master/app/js/content.js:701-711 | low contrast means the weighted grey levels differ by less than 50 |
| Contrast.LowContrastSymmetric | dark-patterns-recognition-master/app/js/content.js:709 | the test does not depend on which colour is text and which is background |
| Contrast.LowContrastReflexive | dark-patterns-recognition-master/app/js/content.js:709-711 | a colour against itself is low contrast |
| Contrast.AlphaIgnored | dark-patterns-recognition-master/app/js/content.js:697 | the alpha channel is ignored: a colour against the same colour in `rgba` form, any alpha, is low contrast |
| Contrast.GreysLowContrastIff | dark-patterns-recognition-master/app/js/content.js:705-711 | two greys are low contrast exactly when their levels differ by less than 50 |
| Contrast.NoTripleReadsAsBlack | dark-patterns-recognition-master/app/js/content.js:698 | a colour string without an `rg` pair, such as a colour name, reads as black |
| Badge.UpdateBadge | dark-patterns-recognition-master/app/js/background.js:17-39 | with no pattern the badge is empty and green. Otherwise it shows the count in decimal without leading zeros, as `toString` writes it, and the colour is orange exactly for a Medium risk, red exactly for High, and green for any other risk text |
| Badge.BadgeTextIff | dark-patterns-recognition-master/app/js/background.js:21-22 | the badge text is empty exactly when the count is at most 0; different counts give different texts |
| Badge.BadgeForResponse | dark-patterns-recognition-master/app/js/background.js:17-39 | for a service response the badge shows the total in the response's own risk colour; it is red from 11 patterns and orange for 5 to 10 |
| Badge.OnMessage | dark-patterns-recognition-master/app/js/background.js:10-15 | only a detailed-analysis message from a tab updates a badge, and only that tab's |
| Badge.OnTabUpdated | dark-patterns-recognition-master/app/js/background.js:42-46 | a tab that starts loading loses its badge text and keeps its colour; nothing else changes |
| Badge.ReloadClearsCount | dark-patterns-recognition-master/app/js/background.js:42-46 | after a reload the badge text is blank whatever it showed; loading twice is loading once |
| Dom.DocumentHeight | dark-patterns-recognition-master/app/js/content.js:546-551 | the document height is the largest of the four heights |
| Dom.WalkForText | dark-patterns-recognition-master/app/js/content.js:719-725 | what the walk returns has non-empty trimmed text |
| Dom.FindParentWithText | dark-patterns-recognition-master/app/js/content.js:715-728 | the result is the element or an ancestor, and it has text |
| Dom.WalkForTextSpec | dark-patterns-recognition-master/app/js/content.js:719-727 | the walk returns the first ancestor with text within the depth, or nothing when there is none |
| Dom.FindParentWithTextSpec | dark-patterns-recognition-master/app/js/content.js:715-728 | `findParentWithText(el, d)` returns the nearest of the element and its first d - 1 ancestors with text, and `null` when none has any |
| Dom.GetElementPosition | dark-patterns-recognition-master/app/js/content.js:577-587 | the loop returns the sum of `offsetTop` along the offset-parent chain |
| Dom.ClosestWithTag | dark-patterns-recognition-master/app/js/content.js:630 | `closest` returns the element itself when it has the tag, otherwise an ancestor with the tag |
| Dom.ClosestWithTagIff | dark-patterns-recognition-master/app/js/content.js:630 | `closest` finds an element exactly when the element or some ancestor has the tag |
| Dom.InsideAfter | dark-patterns-recognition-master/app/js/content.js:481 | an element inside a container comes after it in document order |
| Dom.ElementChildren | dark-patterns-recognition-master/app/js/content.js:510 | the element children of a parent are exactly its child elements, all after it |
| Detectors.ButtonSiblings | dark-patterns-recognition-master/app/js/content.js:510-515 | the siblings compared are exactly the button-like children of the parent |
| Detectors.CheckForDeemphasizedButton | dark-patterns-recognition-master/app/js/content.js:505-539 | the sibling loop, skipping the element and stopping at the first sibling that out-emphasises it, returns true exactly when the element is de-emphasised |
| Detectors.EarlyReturns | dark-patterns-recognition-master/app/js/content.js:493-517 | an element without a parent is neither at the bottom of its container nor de-emphasised; with at most one button-like child under the parent it is never de-emphasised |
| Detectors.DeemphasizedIff | dark-patterns-recognition-master/app/js/content.js:510-535 | de-emphasised exactly when the parent has at least two button-like children and one of them, other than the element, has a background where it has none, a larger parsed font, a greater `fontWeight` string or colour equal to its own background |
| Detectors.AtBottomBounds | dark-patterns-recognition-master/app/js/content.js:493-502 | for a parent of non-negative height, an element reaching past the parent's bottom edge is at the bottom and one ending above the parent's top is not |
| Detectors.AnyBenefitAbove | dark-patterns-recognition-master/app/js/content.js:561-571 | the loop finds a benefit container above the element exactly when one exists |
| Detectors.CheckForBuriedCancelButton | dark-patterns-recognition-master/app/js/content.js:542-574 | buried exactly when the element is in the bottom 30% of the document and there are several forms or a benefit container above it |
| Detectors.BenefitContainers | dark-patterns-recognition-master/app/js/content.js:562 | the benefit containers are exactly the lists and the benefit, feature and offer divs |
| Detectors.ScanForHiddenButtons | dark-patterns-recognition-master/app/js/content.js:363-428 | the alerted elements are exactly the sized candidates that pass the hidden-button test, in document order |
| Detectors.HiddenButtonIff | dark-patterns-recognition-master/app/js/content.js:421-423 | an element is flagged exactly when it has a cancel phrase and either a visual signal or a buried position; without a cancel phrase it never is |
| Detectors.TinyCancelLinkFlagged | dark-patterns-recognition-master/app/js/content.js:386 | a sized candidate with a cancel phrase and a font below 12px is flagged |
| Detectors.ButtonsWhere | dark-patterns-recognition-master/app/js/content.js:444-465 | the filtered buttons are exactly the button-like elements passing the filter, in document order |
| Detectors.UnemphasisedCancelButtons | dark-patterns-recognition-master/app/js/content.js:467-476 | when the page has both primary and cancel buttons, the flagged ones are exactly the cancel buttons that are not primary |
| Detectors.LastButtonIn | dark-patterns-recognition-master/app/js/content.js:481-483 | the result is the last button-like element inside the container, and none exists when it is absent |
| Detectors.LastButtonAlerts | dark-patterns-recognition-master/app/js/content.js:479-489 | one alert per alerting flow container, in document order, each the alert of that container: the last button of a flow container whose text mentions cancelling |
| Detectors.AlertingContainers | dark-patterns-recognition-master/app/js/content.js:479-489 | the containers that raise an alert, in document order: exactly the flow containers whose last button mentions cancelling |
| Detectors.ScanForCancellationFlows | dark-patterns-recognition-master/app/js/content.js:431-490 | nothing off a subscription page; otherwise the unemphasised cancel buttons, then the container alerts |
| Detectors.CancellationFlowFacts | dark-patterns-recognition-master/app/js/content.js:472-487 | a primary button is never flagged by the first part; a container's last button is flagged exactly when it mentions cancelling |
| Detectors.PrecheckedAlert | dark-patterns-recognition-master/app/js/content.js:596-605 | an alert is raised only for a checked input, at the input or an ancestor |
| Detectors.DetectPrecheckedOptions | dark-patterns-recognition-master/app/js/content.js:590-610 | one alert per alerting input, in document order, each that input's alert; two inputs alerting at the same ancestor both appear |
| Detectors.AlertingInputs | dark-patterns-recognition-master/app/js/content.js:590-610 | the inputs that raise an alert, in document order: exactly the checkable inputs whose alert exists |
| Detectors.PrecheckedAlertSpec | dark-patterns-recognition-master/app/js/content.js:596-606 | the alerted element is the nearest of the input and its four closest ancestors with text, and its text mentions consent; an unchecked input raises nothing |
| Detectors.FooterContextIsClosest | dark-patterns-recognition-master/app/js/content.js:629-631 | the three footer clauses agree with `closest('footer')`; the test throws only for a non-footer without a parent |
| Detectors.ScanForcedContinuity | dark-patterns-recognition-master/app/js/content.js:613-639 | the scan completes exactly when no examined element throws, and then alerts exactly the forced-continuity elements in order |
| Detectors.ForcedContinuityComplete | dark-patterns-recognition-master/app/js/content.js:613-639 | when every element has a parent or is a footer, the scan completes and alerts exactly the trial-and-billing texts in small print or in a footer |
| Extraction.Extract | dark-patterns-recognition-master/app/js/content.js:42-63 | the loop collects exactly the kept elements and their own texts |
| Extraction.ExtractOne | dark-patterns-recognition-master/app/js/content.js:49-62 | one turn of the loop extends the kept positions and texts from the first i elements to the first i + 1 |
| Extraction.ExtractStep | dark-patterns-recognition-master/app/js/content.js:49-62 | one more element extends the kept positions and texts by itself and its own text exactly when it is kept |
| Extraction.KeptTextsAtIndices | dark-patterns-recognition-master/app/js/content.js:60-61 | the highlighted elements and the texts sent line up position by position |
| Extraction.KeptTextsLong | dark-patterns-recognition-master/app/js/content.js:58 | every text sent is longer than five characters |
| Extraction.KeptTextsAppend | dark-patterns-recognition-master/app/js/content.js:49-63 | the scrape works element by element: concatenated pages give concatenated texts |
| Extraction.AlertNodesTexts | dark-patterns-recognition-master/app/js/content.js:647-649 | the only text the scrape reads from one alert is its caption |
| Extraction.AppendAlertTexts | dark-patterns-recognition-master/app/js/content.js:665 | one more alert adds its caption to the texts sent |
| Extraction.AlertCaptionsAreSent | dark-patterns-recognition-master/app/js/content.js:32-44 | as written, the scrape sends the page's own texts followed by the caption of every alert just raised |
| Extraction.PageTexts | dark-patterns-recognition-master/app/js/content.js:42-63 | the corrected scrape has at most one text per element |
| Extraction.PageTextsWithoutAlerts | dark-patterns-recognition-master/app/js/content.js:42-63 | on a page without alerts the corrected scrape is the scrape |
| Extraction.AlertsAddNoPageText | dark-patterns-recognition-master/app/js/content.js:32-63 | the corrected scrape sends the page's own texts and nothing from the alerts, however many were raised |
| Annotation.Highlight | dark-patterns-recognition-master/app/js/content.js:167-189 | the element gains the class, the pattern type and one tooltip body; nothing else changes |
| Annotation.Alert | dark-patterns-recognition-master/app/js/content.js:642-691 | the element gains the class and one click listener for the type; no body and no type attribute |
| Annotation.FirstBody | dark-patterns-recognition-master/app/js/content.js:197 | `querySelector` finds a tooltip body held by the element or by an element inside it, or finds none |
| Annotation.BodyInsideIff | dark-patterns-recognition-master/app/js/content.js:197 | the search finds a body exactly when some element within the element holds one, its descendants included |
| Annotation.FirstBodyOwn | dark-patterns-recognition-master/app/js/content.js:197 | when nothing strictly inside the element holds a body, the search finds the element's own body if it has one |
| Annotation.RunListenersGuard | dark-patterns-recognition-master/app/js/content.js:684-690 | the listeners add a body only to an element with no body anywhere inside it, at most one body, with the first listener's type |
| Annotation.ClickGuard | dark-patterns-recognition-master/app/js/content.js:686-688 | a click on an element holding a body anywhere inside it, or without listeners, changes nothing; otherwise it highlights with the first alert's type |
| Annotation.NestedClickBlocked | dark-patterns-recognition-master/app/js/content.js:686-688 | a click on an element whose child holds a body adds nothing, even though the element holds no body itself |
| Annotation.ClickIdempotent | dark-patterns-recognition-master/app/js/content.js:686-688 | clicking twice is clicking once |
| Annotation.ClearStep | dark-patterns-recognition-master/app/js/content.js:193-201 | one turn drops the element's class and removes at most one body, from the element or an element inside it; types and listeners stay |
| Annotation.ClearFromSpec | dark-patterns-recognition-master/app/js/content.js:191-202 | the turns from an element on drop exactly those elements' classes and remove bodies only within the elements that were highlighted |
| Annotation.ClearHighlightsSpec | dark-patterns-recognition-master/app/js/content.js:190-202 | nothing stays highlighted, types and listeners stay, no element gains a body, bodies go only from within highlighted elements, and clearing twice is clearing once |
| Annotation.ClearHighlightsUnnested | dark-patterns-recognition-master/app/js/content.js:190-202 | when no highlighted element holds a body strictly inside it, each highlighted element loses one body of its own and nothing else changes |
| Annotation.StaleBodyAfterClear | dark-patterns-recognition-master/app/js/content.js:190-202 | as written, alert, click, result highlight and clear leave a body on an element that is no longer highlighted, and a further clear does not remove it |
| Annotation.NestedStaleBody | dark-patterns-recognition-master/app/js/content.js:190-202 | as written, highlighting an element and then its child and clearing removes the child's body and leaves the parent's, unhighlighted |
| Annotation.ClearAllSpec | dark-patterns-recognition-master/app/js/content.js:190-202 | the corrected clear removes every highlight and body and keeps types and listeners; on tidy unnested marks it agrees with `clearHighlights` |
| Annotation.NoStaleBodyAfterClearAll | dark-patterns-recognition-master/app/js/content.js:190-202 | with the corrected clear, neither sequence that leaves a stale body leaves any |
| Annotation.TidyPreserved | dark-patterns-recognition-master/app/js/content.js:642-691 | alerts, clicks and highlights of elements without a body keep marks tidy |
| Annotation.ApplyResults | dark-patterns-recognition-master/app/js/content.js:74-84 | the loop completes exactly when no dark label lies past the extracted elements, and then counts the dark labels |
| Annotation.ApplyResultsFrame | dark-patterns-recognition-master/app/js/content.js:77-84 | an element extracted at none of the positions keeps its marks |
| Annotation.ApplyResultsMarks | dark-patterns-recognition-master/app/js/content.js:77-84 | after a completed loop an element changes exactly when its label is dark: it is highlighted once with that label |
| Annotation.ApplyResultsLast | dark-patterns-recognition-master/app/js/content.js:77-84 | the last step changes only the element extracted at the last position |
| Annotation.ResponseCountMatches | dark-patterns-recognition-master/app/js/content.js:74-84 | with one label per extracted element the loop completes, and its count equals the response's `total_patterns` |
| Popup.NumericValue | dark-patterns-recognition-master/app/js/popup.js:178 | a number is compared as itself, a digit string by its value, a blank string as 0, anything else as NaN |
| Popup.FirstAlternative | dark-patterns-recognition-master/app/js/popup.js:190-198 | the first table key the host name contains, or none exactly when it contains no key |
| Popup.TipsForSpec | dark-patterns-recognition-master/app/js/popup.js:183-187 | the tips are those of the entries that have one, in entry order |
| Popup.TipEmittedIff | dark-patterns-recognition-master/app/js/popup.js:183-187 | a tip is emitted for a name exactly when the table has it and some entry names it |
| Popup.FixEmittedIff | dark-patterns-recognition-master/app/js/popup.js:183-187 | a tip is emitted for a pattern exactly when some entry names it and it has a tip, whatever the count |
| Popup.PanelShape | dark-patterns-recognition-master/app/js/popup.js:177-199 | feedback first, then tips, then at most one alternatives section |
| Popup.SuggestedActionsSpec | dark-patterns-recognition-master/app/js/popup.js:171-201 | the panel is empty for a placeholder score or when there is nothing to say. The feedback comes first exactly for a score of at least 80, the perfect text exactly for 100, and at most one alternatives section follows |
| Popup.FixPatternsAreCategories | dark-patterns-recognition-master/app/js/popup.js:99-107 | the tips table covers exactly the service's seven categories |
| Popup.EveryTipForEveryPage | dark-patterns-recognition-master/app/js/popup.js:183-187 | as written, every service response yields all seven tips, even when every count is zero |
| Popup.CategoryTips | dark-patterns-recognition-master/app/js/popup.js:183-187 | a dict that lists the seven categories yields all seven tips, whatever the counts |
| Popup.ZeroTotalZeroEntries | dark-patterns-recognition-master/app/js/popup.js:183-187 | a dict whose total is zero has only zero counts |
| Popup.FoundFixBlocks | dark-patterns-recognition-master/app/js/popup.js:183-187 | the corrected tips are exactly those of entries with a tip and a count above zero |
| Popup.IntendedSuggestedActions | dark-patterns-recognition-master/app/js/popup.js:171-201 | the corrected panel tips exactly the found patterns and is empty for a placeholder score |
| Popup.NoTipForCleanPage | dark-patterns-recognition-master/app/js/popup.js:183-187 | with the corrected panel a clean page gets no tip |
| Popup.BreakdownSpec | dark-patterns-recognition-master/app/js/popup.js:68-69 | the breakdown lists the entries with a count above zero, in order |
| Popup.BreakdownShownIff | dark-patterns-recognition-master/app/js/popup.js:87-91 | the breakdown is shown exactly when some count is above zero |
| Popup.BreakdownSum | dark-patterns-recognition-master/app/js/popup.js:68-85 | dropping zero counts keeps the sum |
| Popup.BreakdownOfCounts | dark-patterns-recognition-master/app/js/popup.js:63-93 | for any dict the listed counts add up to its total, and the list is shown exactly when the total is positive |
| Popup.EntriesSum | dark-patterns-recognition-master/app/js/popup.js:68 | the counts the popup iterates over, in the order the response lists them, add up to the dict's total |
| Popup.BreakdownOfResponse | dark-patterns-recognition-master/app/js/popup.js:63-93 | for a service response the listed counts add up to `total_patterns`, shown exactly when a pattern was found |
| Popup.RecentAchievements | dark-patterns-recognition-master/app/js/popup.js:555 | the last three achievements (or fewer), most recent first |
| Popup.RecentAfterUnlock | dark-patterns-recognition-master/app/js/popup.js:555 | a new achievement comes first, followed by the previous two |
| Popup.AnalyzableIff | dark-patterns-recognition-master/app/js/popup.js:625 | a tab is analysed exactly when it has a non-zero id and an http or https URL; internal pages never are |

## Left out

- Storage and messaging are not modelled: `chrome.storage`, `chrome.tabs`, `chrome.runtime` and `chrome.action`. Badges and states are values.
- Gamification `loadData`/`saveData` and `getStatus` are not modelled. They only move data.
- The network call to the service is not modelled. The scrape and the response are connected through `Annotation.ResponseCountMatches`.
- The two trained classifiers are parameters. Their `predict` is not modelled.
- The service's debug printing is not modelled.
- The URL parser is a parameter (`host`) of `Popup.Hostname`. `Gamification.OnSiteAnalyzed` takes the lower-cased host name it yields as `domain`.
- A URL that does not parse is modelled as an empty domain.
- `new Date()` is a day-number parameter of `Gamification.UpdateStreak`. Date strings and time zones are not modelled.
- Floating-point values (opacity, rectangles, level progress) are reals. Rounding is not modelled.
- Luminance is scaled by 1000 so that it stays an integer.
- Text lengths count characters, not UTF-16 code units.
- `toLowerCase` covers only the ASCII letters.
- Report.Entries: `Object.entries` puts integer-like keys first. Every key here is a category name, so the order `jsonify` writes is kept.
- Popup.NumericValue: only digit strings, blank strings and numbers are modelled. Signs, decimals and exponents read as NaN.
- The HTML that `highlight` and `generateSuggestedActions` write is not reproduced. The model keeps only its blocks and whether it is empty.
- The tooltip and overlay that `createDarkPatternAlert` appends to `document.body` are modelled only as nodes the scrape reads. Nothing removes them: the model does not claim that `clearHighlights` cleans the page up.
- Tooltip positioning and styling are not modelled.
- Annotation.Click: the click is delivered to the element that holds the listeners. Bubbling from a descendant and `stopPropagation` are not modelled.
- `detectHiddenButtons` is the two scans in sequence. Alerts on the same element add listeners in scan order.
- A second `scrape` racing a pending one is not modelled. Timers and `setTimeout` notifications are not modelled either.
- Commented-out code is not modelled.
- `popup.js:770` passes the URL where `updateSuggestedActions` expects the score. The popup's panel is modelled for the score and URL it was meant to receive. With the URL as score, `score >= 80` is false and the host name is empty, so only the tips appear.
- `captureHighlightedElements`, screenshots, canvas drawing and the report download are not modelled.
- `fontWeight` is compared as a string, as the code does. Numeric weights of different lengths compare in string order.
- `Below`/`Greater` treat a NaN from `parseInt` as making every comparison false.

## Findings

| source | as written | input that shows it | evidently intended | confidence | as-written member | corrected member |
|---|---|---|---|---|---|---|
| dark-patterns-recognition-master/app/js/gamification.js:147-153 | `getExperienceForNextLevel` returns `levelThresholds[level - 1]`, the current level's own threshold, so `getLevelProgress` always returns 100 | level 1 with 50 experience: progress 100 | the next level's threshold `levelThresholds[level]`, giving 50 | high; not executed | Gamification.ProgressAlwaysFull | Gamification.IntendedLevelProgress |
| dark-patterns-recognition-master/app/js/popup.js:183-187 | tips are emitted for every key of `pattern_counts`; the service always sends all seven categories, so every page gets all seven tips | a page where nothing was found: all counts 0, seven tips | a tip only for a pattern with a count above zero | high; not executed | Popup.EveryTipForEveryPage | Popup.IntendedSuggestedActions |
| dark-patterns-recognition-master/app/js/content.js:190-202 | `clearHighlights` removes one tooltip body per highlighted element. A click before the result arrives, followed by the result's highlight, leaves two bodies on one element, and the one left behind sits on an element that is no longer highlighted | alert, click, highlight by the result, `clearHighlights`: one body left on an unhighlighted element | remove every tooltip body | medium; not executed | Annotation.StaleBodyAfterClear | Annotation.ClearAllSpec |
| dark-patterns-recognition-master/app/js/content.js:197 | the body removed for a highlighted element is the first `.insite-highlight-body` in its subtree, which belongs to a highlighted descendant when there is one; the descendant's own turn then finds nothing, and the outer element keeps its body without its highlight | a highlighted `<p>` with a highlighted `<strong>` child, then `clearHighlights`: the `<p>` keeps one body, unhighlighted | remove every tooltip body | medium; not executed | Annotation.NestedStaleBody | Annotation.ClearAllSpec |
| dark-patterns-recognition-master/app/js/content.js:32-44 | the detectors append alert tooltips to the body before the text scrape. The tooltip's `<strong>` caption ("Hidden Button Detected") is selected and sent to the classifier | a page with one tiny cancel link: the caption is among the texts sent | leave out the extension's own nodes | high; not executed | Extraction.AlertCaptionsAreSent | Extraction.AlertsAddNoPageText |

=== FILE: annotation.dfy ===
/** What the content script attaches to page elements: the highlight class, the
    pattern-type attribute, tooltip bodies and click listeners; how the scrape's
    result loop, alerts, clicks and `clearHighlights` change them. Elements are
    identified by their index in document order, and their nesting is the page's
    parent relation. */
module Annotation {
  import opened Common
  import opened Labels
  import opened Dom
  import Report

  /** The extension's marks on one element: whether it carries the highlight class,
      its `data-pattern-type`, how many tooltip bodies were appended inside it,
      and the pattern types of its click listeners in registration order. */
  datatype Mark = Mark(highlighted: bool, patternType: Option<string>, bodies: nat, listeners: seq<string>)

  const Unmarked: Mark := Mark(false, None, 0, [])

  /** One mark per element of a well-formed page. */
  predicate Fits(page: Page, ms: seq<Mark>) {
    WellFormed(page) && |ms| == |page.nodes|
  }

  /** `highlight(element, type)` on element `i`: the class, the type attribute, and
      one more tooltip body; nothing else on the page changes. */
  function Highlight(ms: seq<Mark>, i: nat, t: string): (r: seq<Mark>)
    requires i < |ms|
    ensures |r| == |ms|
    ensures r[i].highlighted && r[i].patternType == Some(t)
    ensures r[i].bodies == ms[i].bodies + 1 && r[i].listeners == ms[i].listeners
    ensures forall j :: 0 <= j < |ms| && j != i ==> r[j] == ms[j]
  {
    ms[i := ms[i].(highlighted := true, patternType := Some(t), bodies := ms[i].bodies + 1)]
  }

  /** `createDarkPatternAlert(element, type)` on element `i`: the class and one more
      click listener remembering `t`; no body and no type attribute. The tooltip
      and overlay it appends to the body are not marks on the element. */
  function Alert(ms: seq<Mark>, i: nat, t: string): (r: seq<Mark>)
    requires i < |ms|
    ensures |r| == |ms|
    ensures r[i].highlighted && r[i].listeners == ms[i].listeners + [t]
    ensures r[i].bodies == ms[i].bodies && r[i].patternType == ms[i].patternType
    ensures forall j :: 0 <= j < |ms| && j != i ==> r[j] == ms[j]
  {
    ms[i := ms[i].(highlighted := true, listeners := ms[i].listeners + [t])]
  }

  // ---------------------------------------------------------------------------
  // Finding a tooltip body inside an element

  /** `d` is the element `e` itself or lies inside it. */
  predicate Within(page: Page, d: nat, e: nat)
    requires WellFormed(page) && d < |page.nodes|
  {
    d == e || Inside(page, d, e)
  }

  /** `e.querySelector('.insite-highlight-body')`: the element holding the first
      tooltip body in document order inside `e`. A body is appended as the last
      child of its element, so the bodies inside the children's subtrees come
      first, child by child, and `e`'s own bodies after them. */
  function FirstBody(page: Page, ms: seq<Mark>, e: nat): (r: Option<nat>)
    requires Fits(page, ms) && e < |ms|
    ensures r.Some? ==> r.value < |ms| && Within(page, r.value, e) && ms[r.value].bodies > 0
    decreases |ms| - e, 1, 0
  {
    match FirstBodyAmong(page, ms, e, e + 1)
      case Some(d) => Some(d)
      case None => if ms[e].bodies > 0 then Some(e) else None
  }

  /** The first body inside the subtrees of the children of `e` from index `j` on. */
  function FirstBodyAmong(page: Page, ms: seq<Mark>, e: nat, j: nat): (r: Option<nat>)
    requires Fits(page, ms) && e < j <= |ms|
    ensures r.Some? ==> r.value < |ms| && Inside(page, r.value, e) && ms[r.value].bodies > 0
    decreases |ms| - e, 0, |ms| - j
  {
    if j == |ms| then None
    else if page.nodes[j].parent == Some(e) then
      match FirstBody(page, ms, j)
        case Some(d) => InsideThroughChild(page, d, j, e); Some(d)
        case None => FirstBodyAmong(page, ms, e, j + 1)
    else FirstBodyAmong(page, ms, e, j + 1)
  }

  /** What lies within a child of `e` lies inside `e`. */
  lemma {:induction false} InsideThroughChild(page: Page, d: nat, c: nat, e: nat)
    requires WellFormed(page) && d < |page.nodes| && c < |page.nodes|
    requires Within(page, d, c) && page.nodes[c].parent == Some(e)
    ensures Inside(page, d, e)
    decreases d
  {
    if d != c {
      var p := page.nodes[d].parent.value;
      if p != c {
        InsideThroughChild(page, p, c, e);
      }
    }
  }

  /** The child of `e` on the way up from an element inside `e`. */
  lemma {:induction false} ChildOnPath(page: Page, d: nat, e: nat) returns (c: nat)
    requires WellFormed(page) && d < |page.nodes| && Inside(page, d, e)
    ensures c < |page.nodes| && page.nodes[c].parent == Some(e) && Within(page, d, c)
    decreases d
  {
    var p := page.nodes[d].parent.value;
    if p == e {
      c := d;
    } else {
      c := ChildOnPath(page, p, e);
    }
  }

  /** An element never lies inside a later one. */
  lemma InsideOrder(page: Page, d: nat, e: nat)
    requires WellFormed(page) && d < |page.nodes|
    ensures Inside(page, d, e) ==> e < d
  {
    if Inside(page, d, e) {
      InsideAfter(page, d, e);
    }
  }

  /** No child subtree from `j` on has a body when the search among them finds none. */
  lemma {:induction false} AmongNone(page: Page, ms: seq<Mark>, e: nat, j: nat)
    requires Fits(page, ms) && e < j <= |ms|
    requires FirstBodyAmong(page, ms, e, j).None?
    ensures forall c :: j <= c < |ms| && page.nodes[c].parent == Some(e) ==> FirstBody(page, ms, c).None?
    decreases |ms| - j
  {
    if j < |ms| {
      AmongNone(page, ms, e, j + 1);
    }
  }

  /** When the search finds nothing, nothing within `e` holds a body. */
  lemma {:induction false} NoBodyWhenNone(page: Page, ms: seq<Mark>, e: nat)
    requires Fits(page, ms) && e < |ms|
    requires FirstBody(page, ms, e).None?
    ensures forall d :: 0 <= d < |ms| && Within(page, d, e) ==> ms[d].bodies == 0
    decreases |ms| - e
  {
    AmongNone(page, ms, e, e + 1);
    forall d | 0 <= d < |ms| && Within(page, d, e)
      ensures ms[d].bodies == 0
    {
      if d != e {
        var c := ChildOnPath(page, d, e);
        NoBodyWhenNone(page, ms, c);
      }
    }
  }

  /** The search inside `e` finds a body exactly when some element within `e`
      holds one: the click guard and `clearHighlights` see bodies appended to
      descendants too. */
  lemma BodyInsideIff(page: Page, ms: seq<Mark>, e: nat)
    requires Fits(page, ms) && e < |ms|
    ensures FirstBody(page, ms, e).Some? <==> exists d :: 0 <= d < |ms| && Within(page, d, e) && ms[d].bodies > 0
  {
    if FirstBody(page, ms, e).None? {
      NoBodyWhenNone(page, ms, e);
    }
  }

  /** Children whose subtrees hold no body are skipped. */
  lemma {:induction false} AmongBare(page: Page, ms: seq<Mark>, e: nat, j: nat)
    requires Fits(page, ms) && e < j <= |ms|
    requires forall d :: 0 <= d < |ms| && Inside(page, d, e) ==> ms[d].bodies == 0
    ensures FirstBodyAmong(page, ms, e, j).None?
    decreases |ms| - j
  {
    if j < |ms| {
      if page.nodes[j].parent == Some(e) {
        forall d | 0 <= d < |ms| && Within(page, d, j)
          ensures Inside(page, d, e)
        {
          InsideThroughChild(page, d, j, e);
        }
      }
      AmongBare(page, ms, e, j + 1);
    }
  }

  /** With no body strictly inside `e`, the search finds `e`'s own body, if any. */
  lemma FirstBodyOwn(page: Page, ms: seq<Mark>, e: nat)
    requires Fits(page, ms) && e < |ms|
    requires forall d :: 0 <= d < |ms| && Inside(page, d, e) ==> ms[d].bodies == 0
    ensures FirstBody(page, ms, e) == if ms[e].bodies > 0 then Some(e) else None
  {
    AmongBare(page, ms, e, e + 1);
  }

  /** The search among the children from `j` on reaches the child `s` when the
      children before it hold nothing and `s`'s own search finds `s`. */
  lemma {:induction false} AmongReaches(page: Page, ms: seq<Mark>, e: nat, j: nat, s: nat)
    requires Fits(page, ms) && e < j <= s < |ms|
    requires page.nodes[s].parent == Some(e) && FirstBody(page, ms, s) == Some(s)
    requires forall c :: j <= c < s && page.nodes[c].parent == Some(e) ==> FirstBody(page, ms, c).None?
    ensures FirstBodyAmong(page, ms, e, j) == Some(s)
    decreases s - j
  {
    if j < s {
      AmongReaches(page, ms, e, j + 1, s);
    }
  }

  // ---------------------------------------------------------------------------
  // Clicks

  /** The listeners of one element run in registration order; each highlights the
      element with its own type unless a tooltip body is found inside it. */
  function RunListeners(page: Page, ms: seq<Mark>, i: nat, ls: seq<string>): (r: seq<Mark>)
    requires Fits(page, ms) && i < |ms|
    ensures |r| == |ms|
    decreases |ls|
  {
    if |ls| == 0 then ms
    else
      var next := if FirstBody(page, ms, i).None? then Highlight(ms, i, ls[0]) else ms;
      RunListeners(page, next, i, ls[1..])
  }

  /** A click on element `i`. */
  function Click(page: Page, ms: seq<Mark>, i: nat): (r: seq<Mark>)
    requires Fits(page, ms) && i < |ms|
    ensures |r| == |ms|
  {
    RunListeners(page, ms, i, ms[i].listeners)
  }

  /** Some element within `i` holds a tooltip body. */
  predicate HoldsBody(page: Page, ms: seq<Mark>, i: nat)
    requires Fits(page, ms) && i < |ms|
  {
    exists d :: 0 <= d < |ms| && Within(page, d, i) && ms[d].bodies > 0
  }

  /** The guard in the listener: a click adds a body only to an element with no
      body anywhere inside it, adds at most one, and uses the first listener's type. */
  lemma {:induction false} RunListenersGuard(page: Page, ms: seq<Mark>, i: nat, ls: seq<string>)
    requires Fits(page, ms) && i < |ms|
    ensures RunListeners(page, ms, i, ls) == if !HoldsBody(page, ms, i) && |ls| > 0 then Highlight(ms, i, ls[0]) else ms
    decreases |ls|
  {
    BodyInsideIff(page, ms, i);
    if |ls| > 0 {
      var next := if FirstBody(page, ms, i).None? then Highlight(ms, i, ls[0]) else ms;
      BodyInsideIff(page, next, i);
      assert HoldsBody(page, next, i) by {
        if next != ms {
          assert Within(page, i, i) && next[i].bodies > 0;
        }
      }
      RunListenersGuard(page, next, i, ls[1..]);
    }
  }

  /** A click on an element holding a body anywhere inside it, or without
      listeners, changes nothing; otherwise it highlights the element with its
      first alert's type. */
  lemma ClickGuard(page: Page, ms: seq<Mark>, i: nat)
    requires Fits(page, ms) && i < |ms|
    ensures HoldsBody(page, ms, i) || |ms[i].listeners| == 0 ==> Click(page, ms, i) == ms
    ensures !HoldsBody(page, ms, i) && |ms[i].listeners| > 0 ==> Click(page, ms, i) == Highlight(ms, i, ms[i].listeners[0])
  {
    RunListenersGuard(page, ms, i, ms[i].listeners);
  }

  /** A click on an alerted element whose child holds a body adds nothing, even
      though the element itself holds none. */
  lemma NestedClickBlocked(page: Page, ms: seq<Mark>, p: nat, s: nat)
    requires Fits(page, ms) && p < |ms| && s < |ms|
    requires page.nodes[s].parent == Some(p) && ms[s].bodies > 0
    ensures Click(page, ms, p) == ms
  {
    assert Within(page, s, p);
    ClickGuard(page, ms, p);
  }

  /** Clicking twice is clicking once. */
  lemma ClickIdempotent(page: Page, ms: seq<Mark>, i: nat)
    requires Fits(page, ms) && i < |ms|
    ensures Click(page, Click(page, ms, i), i) == Click(page, ms, i)
  {
    ClickGuard(page, ms, i);
    var once := Click(page, ms, i);
    if once != ms {
      assert Within(page, i, i) && once[i].bodies > 0;
    }
    ClickGuard(page, once, i);
  }

  // ---------------------------------------------------------------------------
  // clearHighlights

  /** One turn of the loop in `clearHighlights`, on the element `j`: drop its class,
      then remove the first tooltip body found inside it. */
  function ClearStep(page: Page, ms: seq<Mark>, j: nat): (r: seq<Mark>)
    requires Fits(page, ms) && j < |ms|
    ensures |r| == |ms|
    ensures forall k :: 0 <= k < |ms| ==> ClearedBy(page, ms, r, j, k)
  {
    if !ms[j].highlighted then ms
    else
      var m1 := ms[j := ms[j].(highlighted := false)];
      match FirstBody(page, m1, j)
        case None => m1
        case Some(d) => m1[d := m1[d].(bodies := m1[d].bodies - 1)]
  }

  /** What the turns on the elements `lo` to `hi - 1` may do to element `k`: drop
      its class if it is one of them, keep its type and listeners, and remove
      bodies from it only when it lies within one of them that was highlighted. */
  predicate Cleared(page: Page, before: seq<Mark>, after: seq<Mark>, lo: nat, hi: nat, k: nat)
    requires Fits(page, before) && |after| == |before| && k < |before|
  {
    && after[k].highlighted == (before[k].highlighted && !(lo <= k < hi))
    && after[k].patternType == before[k].patternType
    && after[k].listeners == before[k].listeners
    && after[k].bodies <= before[k].bodies
    && (after[k].bodies < before[k].bodies ==>
          exists e :: lo <= e < hi && e < |before| && before[e].highlighted && Within(page, k, e))
  }

  /** What the turn on element `j` alone may do to element `k`. */
  predicate ClearedBy(page: Page, before: seq<Mark>, after: seq<Mark>, j: nat, k: nat)
    requires Fits(page, before) && |after| == |before| && k < |before|
  {
    Cleared(page, before, after, j, j + 1, k)
  }

  /** The loop of `clearHighlights` from the element `j` on. The elements come from
      `querySelectorAll`, a static list in document order; an element is still
      highlighted at its turn exactly when it was at the start, since earlier turns
      remove only their own class. */
  function ClearFrom(page: Page, ms: seq<Mark>, j: nat): (r: seq<Mark>)
    requires Fits(page, ms) && j <= |ms|
    ensures |r| == |ms|
    decreases |ms| - j
  {
    if j == |ms| then ms else ClearFrom(page, ClearStep(page, ms, j), j + 1)
  }

  /** `clearHighlights`. */
  function ClearHighlights(page: Page, ms: seq<Mark>): (r: seq<Mark>)
    requires Fits(page, ms)
    ensures |r| == |ms|
  {
    ClearFrom(page, ms, 0)
  }

  /** The loop from `j` on does to each element what `Cleared` allows for the
      turns `j` to the end. */
  lemma {:induction false} ClearFromSpec(page: Page, ms: seq<Mark>, j: nat)
    requires Fits(page, ms) && j <= |ms|
    ensures forall k :: 0 <= k < |ms| ==> Cleared(page, ms, ClearFrom(page, ms, j), j, |ms|, k)
    decreases |ms| - j
  {
    if j < |ms| {
      var next := ClearStep(page, ms, j);
      ClearFromSpec(page, next, j + 1);
      var r := ClearFrom(page, ms, j);
      assert r == ClearFrom(page, next, j + 1) && |next| == |ms|;
      forall k | 0 <= k < |ms|
        ensures Cleared(page, ms, r, j, |ms|, k)
      {
        assert ClearedBy(page, ms, next, j, k);
        assert Cleared(page, next, r, j + 1, |ms|, k);
        if r[k].bodies < next[k].bodies {
          var e :| j + 1 <= e < |ms| && next[e].highlighted && Within(page, k, e);
          assert ClearedBy(page, ms, next, j, e);
        }
      }
    }
  }

  /** The loop from `j` on changes nothing when no element from `j` on is
      highlighted. */
  lemma {:induction false} ClearFromIdle(page: Page, ms: seq<Mark>, j: nat)
    requires Fits(page, ms) && j <= |ms|
    requires forall k :: j <= k < |ms| ==> !ms[k].highlighted
    ensures ClearFrom(page, ms, j) == ms
    decreases |ms| - j
  {
    if j < |ms| {
      ClearFromIdle(page, ms, j + 1);
    }
  }

  /** Elements that are not highlighted are passed over. */
  lemma {:induction false} ClearFromSkip(page: Page, ms: seq<Mark>, j: nat, k: nat)
    requires Fits(page, ms) && j <= k <= |ms|
    requires forall i :: j <= i < k ==> !ms[i].highlighted
    ensures ClearFrom(page, ms, j) == ClearFrom(page, ms, k)
    decreases k - j
  {
    if j < k {
      ClearFromSkip(page, ms, j + 1, k);
    }
  }

  /** After `clearHighlights` no element is highlighted, types and listeners stay,
      no element gains a body, an element loses bodies only when it lies within an
      element that was highlighted, and a second `clearHighlights` changes
      nothing. */
  lemma ClearHighlightsSpec(page: Page, ms: seq<Mark>)
    requires Fits(page, ms)
    ensures forall k :: 0 <= k < |ms| ==>
      && !ClearHighlights(page, ms)[k].highlighted
      && ClearHighlights(page, ms)[k].patternType == ms[k].patternType
      && ClearHighlights(page, ms)[k].listeners == ms[k].listeners
      && ClearHighlights(page, ms)[k].bodies <= ms[k].bodies
    ensures forall k :: 0 <= k < |ms| && ClearHighlights(page, ms)[k].bodies < ms[k].bodies ==>
      exists e :: 0 <= e < |ms| && ms[e].highlighted && Within(page, k, e)
    ensures ClearHighlights(page, ClearHighlights(page, ms)) == ClearHighlights(page, ms)
  {
    ClearFromSpec(page, ms, 0);
    var r := ClearHighlights(page, ms);
    forall k | 0 <= k < |ms|
      ensures !r[k].highlighted && r[k].patternType == ms[k].patternType
      ensures r[k].listeners == ms[k].listeners && r[k].bodies <= ms[k].bodies
      ensures r[k].bodies < ms[k].bodies ==> exists e :: 0 <= e < |ms| && ms[e].highlighted && Within(page, k, e)
    {
      assert Cleared(page, ms, r, 0, |ms|, k);
    }
    ClearFromIdle(page, r, 0);
  }

  /** No highlighted element holds a body strictly inside it: `clearHighlights`
      then removes each element's own body. */
  predicate Unnested(page: Page, ms: seq<Mark>)
    requires Fits(page, ms)
  {
    forall e, d :: 0 <= e < |ms| && 0 <= d < |ms| && ms[e].highlighted && Inside(page, d, e) ==> ms[d].bodies == 0
  }

  /** An element after its own turn of `clearHighlights` on unnested marks. */
  function Unhighlighted(m: Mark): (r: Mark)
    ensures !r.highlighted && r.patternType == m.patternType && r.listeners == m.listeners
    ensures r.bodies == if m.bodies > 0 then m.bodies - 1 else 0
  {
    m.(highlighted := false, bodies := if m.bodies > 0 then m.bodies - 1 else 0)
  }

  /** One turn on unnested marks removes the element's own body, if any. */
  lemma ClearStepUnnested(page: Page, ms: seq<Mark>, j: nat)
    requires Fits(page, ms) && j < |ms| && Unnested(page, ms)
    ensures ClearStep(page, ms, j) == if ms[j].highlighted then ms[j := Unhighlighted(ms[j])] else ms
    ensures Unnested(page, ClearStep(page, ms, j))
  {
    if ms[j].highlighted {
      var m1 := ms[j := ms[j].(highlighted := false)];
      forall d | 0 <= d < |ms| && Inside(page, d, j)
        ensures m1[d].bodies == 0
      {
        InsideAfter(page, d, j);
      }
      FirstBodyOwn(page, m1, j);
    }
  }

  /** The loop from `j` on, on unnested marks, treats each highlighted element on
      its own. */
  lemma {:induction false} ClearFromUnnested(page: Page, ms: seq<Mark>, j: nat)
    requires Fits(page, ms) && j <= |ms| && Unnested(page, ms)
    ensures forall k :: 0 <= k < |ms| ==>
      ClearFrom(page, ms, j)[k] == if j <= k && ms[k].highlighted then Unhighlighted(ms[k]) else ms[k]
    decreases |ms| - j
  {
    if j < |ms| {
      ClearStepUnnested(page, ms, j);
      ClearFromUnnested(page, ClearStep(page, ms, j), j + 1);
    }
  }

  /** On unnested marks `clearHighlights` removes one body from each highlighted
      element (none if it has none) and touches nothing else. */
  lemma ClearHighlightsUnnested(page: Page, ms: seq<Mark>)
    requires Fits(page, ms) && Unnested(page, ms)
    ensures forall k :: 0 <= k < |ms| ==>
      ClearHighlights(page, ms)[k] == if ms[k].highlighted then Unhighlighted(ms[k]) else ms[k]
  {
    ClearFromUnnested(page, ms, 0);
  }

  // ---------------------------------------------------------------------------
  // Leftover tooltip bodies

  /** Every tooltip body sits on a highlighted element, at most one per element:
      what `clearHighlights` can fully undo. */
  predicate Tidy(ms: seq<Mark>) {
    forall j :: 0 <= j < |ms| ==> ms[j].bodies <= if ms[j].highlighted then 1 else 0
  }

  /** Every element unmarked. */
  predicate Pristine(ms: seq<Mark>) {
    forall j :: 0 <= j < |ms| ==> ms[j] == Unmarked
  }

  /** As written, an alert, a click on it before the classification result arrives,
      the result loop highlighting the same element and a later `clearHighlights`
      leave a tooltip body on an element that is no longer highlighted, and no
      later `clearHighlights` reaches it. */
  lemma StaleBodyAfterClear(page: Page, ms: seq<Mark>, i: nat, alertType: string, resultType: string)
    requires Fits(page, ms) && i < |ms| && Pristine(ms)
    ensures var cleared := ClearHighlights(page, Highlight(Click(page, Alert(ms, i, alertType), i), i, resultType));
      && !cleared[i].highlighted && cleared[i].bodies == 1
      && ClearHighlights(page, cleared) == cleared
      && !Tidy(cleared)
  {
    var alerted := Alert(ms, i, alertType);
    ClickGuard(page, alerted, i);
    var marks := Highlight(Click(page, alerted, i), i, resultType);
    forall e, d | 0 <= e < |ms| && 0 <= d < |ms| && marks[e].highlighted && Inside(page, d, e)
      ensures marks[d].bodies == 0
    {
      InsideAfter(page, d, e);
    }
    ClearHighlightsUnnested(page, marks);
    ClearHighlightsSpec(page, marks);
  }

  /** As written, highlighting an element and then a child of it leaves a tooltip
      body behind too: the parent's turn of `clearHighlights` removes the child's
      body, found first in document order, and the child's turn then finds none,
      so the parent keeps its own body without its highlight. */
  lemma NestedStaleBody(page: Page, ms: seq<Mark>, p: nat, s: nat, outerType: string, innerType: string)
    requires Fits(page, ms) && Pristine(ms) && s < |ms| && page.nodes[s].parent == Some(p)
    ensures p < s
    ensures var cleared := ClearHighlights(page, Highlight(Highlight(ms, p, outerType), s, innerType));
      && !cleared[p].highlighted && cleared[p].bodies == 1
      && !cleared[s].highlighted && cleared[s].bodies == 0
      && !Tidy(cleared)
  {
    var marks := Highlight(Highlight(ms, p, outerType), s, innerType);
    assert NestedShape(marks, p, s);
    NestedClear(page, marks, p, s);
  }

  /** `clearHighlights` on an element and its child, each highlighted once. */
  lemma NestedClear(page: Page, marks: seq<Mark>, p: nat, s: nat)
    requires Fits(page, marks) && NestedShape(marks, p, s) && page.nodes[s].parent == Some(p)
    ensures var cleared := ClearHighlights(page, marks);
      && !cleared[p].highlighted && cleared[p].bodies == 1
      && !cleared[s].highlighted && cleared[s].bodies == 0
  {
    ClearFromSkip(page, marks, 0, p);
    var m2 := NestedParentTurn(page, marks, p, s);
    ClearFromSkip(page, m2, p + 1, s);
    var m3 := NestedChildTurn(page, m2, p, s);
    ClearFromIdle(page, m3, s + 1);
  }

  /** Element `p` and its child `s` each highlighted once, nothing else marked. */
  predicate NestedShape(marks: seq<Mark>, p: nat, s: nat) {
    && p < s < |marks|
    && marks[p].highlighted && marks[p].bodies == 1
    && marks[s].highlighted && marks[s].bodies == 1
    && forall j :: 0 <= j < |marks| && j != p && j != s ==> marks[j] == Unmarked
  }

  /** The parent's turn drops its class and removes the child's body. */
  lemma NestedParentTurn(page: Page, marks: seq<Mark>, p: nat, s: nat) returns (next: seq<Mark>)
    requires Fits(page, marks) && NestedShape(marks, p, s) && page.nodes[s].parent == Some(p)
    ensures |next| == |marks| && ClearFrom(page, marks, p) == ClearFrom(page, next, p + 1)
    ensures !next[p].highlighted && next[p].bodies == 1
    ensures next[s].highlighted && next[s].bodies == 0
    ensures forall j :: 0 <= j < |marks| && j != p && j != s ==> next[j] == Unmarked
    ensures forall j :: p + 1 <= j < s ==> !next[j].highlighted
  {
    var m1 := marks[p := marks[p].(highlighted := false)];
    NestedFirstBody(page, marks, m1, p, s);
    next := ClearStep(page, marks, p);
    assert next == m1[s := m1[s].(bodies := 0)];
  }

  /** The child's turn then drops its class and finds no body. */
  lemma NestedChildTurn(page: Page, m2: seq<Mark>, p: nat, s: nat) returns (next: seq<Mark>)
    requires Fits(page, m2) && p < s < |m2|
    requires !m2[p].highlighted && m2[s].highlighted && m2[s].bodies == 0
    requires forall j :: 0 <= j < |m2| && j != p && j != s ==> m2[j] == Unmarked
    ensures |next| == |m2| && ClearFrom(page, m2, s) == ClearFrom(page, next, s + 1)
    ensures next == m2[s := m2[s].(highlighted := false)]
    ensures forall k :: s + 1 <= k < |next| ==> !next[k].highlighted
  {
    var m3 := m2[s := m2[s].(highlighted := false)];
    forall d | 0 <= d < |m3| && Inside(page, d, s)
      ensures m3[d].bodies == 0
    {
      InsideAfter(page, d, s);
    }
    FirstBodyOwn(page, m3, s);
    next := ClearStep(page, m2, s);
  }

  /** In the nested case, the parent's turn finds the child's body first. */
  lemma NestedFirstBody(page: Page, marks: seq<Mark>, m1: seq<Mark>, p: nat, s: nat)
    requires Fits(page, marks) && s < |marks| && page.nodes[s].parent == Some(p)
    requires forall j :: 0 <= j < |marks| && j != p && j != s ==> marks[j].bodies == 0
    requires marks[s].bodies == 1
    requires |m1| == |marks| && forall j :: 0 <= j < |marks| ==> m1[j].bodies == marks[j].bodies
    ensures p < s && FirstBody(page, m1, p) == Some(s)
  {
    forall d | 0 <= d < |m1| && Inside(page, d, s)
      ensures m1[d].bodies == 0
    {
      InsideAfter(page, d, s);
    }
    FirstBodyOwn(page, m1, s);
    forall c | p + 1 <= c < s && page.nodes[c].parent == Some(p)
      ensures FirstBody(page, m1, c).None?
    {
      EarlierSiblingBare(page, m1, p, s, c);
    }
    AmongReaches(page, m1, p, p + 1, s);
  }

  /** A child of `p` before `s` holds no body when only `p` and `s` hold one. */
  lemma EarlierSiblingBare(page: Page, m1: seq<Mark>, p: nat, s: nat, c: nat)
    requires Fits(page, m1) && p < c < s < |m1| && page.nodes[s].parent == Some(p)
    requires forall j :: 0 <= j < |m1| && j != p && j != s ==> m1[j].bodies == 0
    ensures FirstBody(page, m1, c).None?
  {
    InsideOrder(page, p, c);
    assert !Inside(page, s, c);
    forall d | 0 <= d < |m1| && Inside(page, d, c)
      ensures m1[d].bodies == 0
    {
      InsideAfter(page, d, c);
    }
    FirstBodyOwn(page, m1, c);
  }

  /** `clearHighlights` with every tooltip body removed, wherever it sits. */
  function ClearAll(ms: seq<Mark>): (r: seq<Mark>)
    ensures |r| == |ms|
  {
    seq(|ms|, j requires 0 <= j < |ms| => ms[j].(highlighted := false, bodies := 0))
  }

  /** The corrected clear leaves no highlight and no body, keeps types and
      listeners, and on tidy unnested marks agrees with `clearHighlights`. */
  lemma ClearAllSpec(page: Page, ms: seq<Mark>)
    requires Fits(page, ms)
    ensures forall j :: 0 <= j < |ms| ==>
      && !ClearAll(ms)[j].highlighted && ClearAll(ms)[j].bodies == 0
      && ClearAll(ms)[j].patternType == ms[j].patternType && ClearAll(ms)[j].listeners == ms[j].listeners
    ensures Tidy(ClearAll(ms)) && ClearAll(ClearAll(ms)) == ClearAll(ms)
    ensures Tidy(ms) && Unnested(page, ms) ==> ClearAll(ms) == ClearHighlights(page, ms)
  {
    if Tidy(ms) && Unnested(page, ms) {
      ClearHighlightsUnnested(page, ms);
    }
  }

  /** With the corrected clear, the two sequences that leave a stale body above
      leave none. */
  lemma NoStaleBodyAfterClearAll(page: Page, ms: seq<Mark>, i: nat, p: nat, s: nat, t1: string, t2: string)
    requires Fits(page, ms) && i < |ms| && p < |ms| && s < |ms|
    ensures var cleared := ClearAll(Highlight(Click(page, Alert(ms, i, t1), i), i, t2));
      forall j :: 0 <= j < |ms| ==> !cleared[j].highlighted && cleared[j].bodies == 0
    ensures var cleared := ClearAll(Highlight(Highlight(ms, p, t1), s, t2));
      forall j :: 0 <= j < |ms| ==> !cleared[j].highlighted && cleared[j].bodies == 0
  {
  }

  /** Alerts, clicks and highlights of elements without a body keep marks tidy. */
  lemma TidyPreserved(page: Page, ms: seq<Mark>, i: nat, t: string)
    requires Fits(page, ms) && Tidy(ms) && i < |ms|
    ensures Tidy(Alert(ms, i, t))
    ensures Tidy(Click(page, ms, i))
    ensures ms[i].bodies == 0 ==> Tidy(Highlight(ms, i, t))
  {
    ClickGuard(page, ms, i);
    if !HoldsBody(page, ms, i) {
      assert Within(page, i, i);
    }
  }

  // ---------------------------------------------------------------------------
  // The result loop of the scrape

  /** The outcome of the result loop: the marks, the count of dark labels, and
      whether it ran to the end. */
  datatype Outcome = Outcome(marks: seq<Mark>, darkCount: nat, completed: bool)

  /** The result loop over the first `n` labels: each dark label highlights the
      element extracted at the same position. A dark label past the extracted
      elements highlights `undefined`, which throws and ends the handler. */
  function ApplyResults(ms: seq<Mark>, elements: seq<nat>, result: seq<string>, n: nat): (o: Outcome)
    requires n <= |result|
    requires forall k :: 0 <= k < |elements| ==> elements[k] < |ms|
    ensures |o.marks| == |ms|
    ensures o.completed <==> forall k :: 0 <= k < n && IsDark(result[k]) ==> k < |elements|
    ensures o.completed ==> o.darkCount == CountDark(result[..n])
  {
    if n == 0 then Outcome(ms, 0, true)
    else
      var prev := ApplyResults(ms, elements, result, n - 1);
      assert result[..n][..n - 1] == result[..n - 1];
      if !prev.completed || !IsDark(result[n - 1]) then
        Outcome(prev.marks, prev.darkCount, prev.completed)
      else if n - 1 < |elements| then
        Outcome(Highlight(prev.marks, elements[n - 1], result[n - 1]), prev.darkCount + 1, true)
      else Outcome(prev.marks, prev.darkCount, false)
  }

  /** An element extracted at none of the first `n` positions keeps its marks. */
  lemma {:induction false} ApplyResultsFrame(ms: seq<Mark>, elements: seq<nat>, result: seq<string>, n: nat, j: nat)
    requires n <= |result|
    requires forall k :: 0 <= k < |elements| ==> elements[k] < |ms|
    requires j < |ms| && forall k :: 0 <= k < n && k < |elements| ==> elements[k] != j
    ensures ApplyResults(ms, elements, result, n).marks[j] == ms[j]
  {
    if n > 0 {
      ApplyResultsFrame(ms, elements, result, n - 1, j);
    }
  }

  /** With distinct extracted elements and a completed loop, an element's marks
      change exactly when its label is dark: it is highlighted with that label and
      holds one more body. */
  lemma {:induction false} ApplyResultsMarks(ms: seq<Mark>, elements: seq<nat>, result: seq<string>, n: nat)
    requires n <= |result|
    requires forall k :: 0 <= k < |elements| ==> elements[k] < |ms|
    requires Increasing(elements)
    requires ApplyResults(ms, elements, result, n).completed
    ensures forall k :: 0 <= k < n && k < |elements| && IsDark(result[k]) ==>
      MarkedWith(ApplyResults(ms, elements, result, n).marks[elements[k]], ms[elements[k]], result[k])
    ensures forall k :: 0 <= k < n && k < |elements| && !IsDark(result[k]) ==>
      ApplyResults(ms, elements, result, n).marks[elements[k]] == ms[elements[k]]
  {
    if n > 0 {
      ApplyResultsLast(ms, elements, result, n);
      ApplyResultsMarks(ms, elements, result, n - 1);
      var marks := ApplyResults(ms, elements, result, n).marks;
      var prev := ApplyResults(ms, elements, result, n - 1).marks;
      forall k | 0 <= k < n && k < |elements|
        ensures IsDark(result[k]) ==> MarkedWith(marks[elements[k]], ms[elements[k]], result[k])
        ensures !IsDark(result[k]) ==> marks[elements[k]] == ms[elements[k]]
      {
        if k < n - 1 {
          assert marks[elements[k]] == prev[elements[k]];
        }
      }
    }
  }

  /** `after` is `before` highlighted once with type `t`. */
  predicate MarkedWith(after: Mark, before: Mark, t: string) {
    && after.highlighted && after.patternType == Some(t)
    && after.bodies == before.bodies + 1 && after.listeners == before.listeners
  }

  /** The last step of a completed loop changes only the element extracted at the
      last position, which no earlier step touched. */
  lemma ApplyResultsLast(ms: seq<Mark>, elements: seq<nat>, result: seq<string>, n: nat)
    requires 0 < n <= |result|
    requires forall k :: 0 <= k < |elements| ==> elements[k] < |ms|
    requires Increasing(elements)
    requires ApplyResults(ms, elements, result, n).completed
    ensures ApplyResults(ms, elements, result, n - 1).completed
    ensures forall k :: 0 <= k < n - 1 && k < |elements| ==>
      ApplyResults(ms, elements, result, n).marks[elements[k]] == ApplyResults(ms, elements, result, n - 1).marks[elements[k]]
    ensures n - 1 < |elements| && IsDark(result[n - 1]) ==>
      MarkedWith(ApplyResults(ms, elements, result, n).marks[elements[n - 1]], ms[elements[n - 1]], result[n - 1])
    ensures n - 1 < |elements| && !IsDark(result[n - 1]) ==>
      ApplyResults(ms, elements, result, n).marks[elements[n - 1]] == ms[elements[n - 1]]
  {
    if n - 1 < |elements| {
      assert forall k :: 0 <= k < n - 1 && k < |elements| ==> elements[k] < elements[n - 1];
      ApplyResultsFrame(ms, elements, result, n - 1, elements[n - 1]);
    }
  }

  /** End to end: when the service answers with one label per extracted element,
      the loop completes and its count equals the response's `total_patterns`. */
  lemma ResponseCountMatches(ms: seq<Mark>, elements: seq<nat>, tokens: seq<string>, output: seq<string>)
    requires forall k :: 0 <= k < |elements| ==> elements[k] < |ms|
    requires |output| == |tokens| == |elements|
    ensures var response := Report.BuildResponse(tokens, output);
      var o := ApplyResults(ms, elements, response.result, |response.result|);
      o.completed && o.darkCount == response.totalPatterns
  {
    var response := Report.BuildResponse(tokens, output);
    assert response.result[..|response.result|] == response.result;
  }
}

=== FILE: badge.dfy ===
/** The background script: the toolbar badge per tab, set from analysis messages
    and cleared when a tab starts loading. */
module Badge {
  import opened Common
  import opened Decimal
  import Report

  const Green: string := "#4BE680"
  const Orange: string := "#FFA500"
  const Red: string := "#FF4444"

  /** What a tab's badge shows: its text and its background colour. */
  datatype Badge = Badge(text: string, color: string)

  /** The badge set on installation, and the one a tab shows until it is set. */
  const DefaultBadge: Badge := Badge("", Green)

  /** `updateBadge`: the count as decimal text, coloured by risk level, when there
      is at least one pattern; otherwise an empty green badge. An unknown level
      keeps the default green. */
  function UpdateBadge(riskLevel: string, totalPatterns: int): (b: Badge)
    ensures totalPatterns <= 0 ==> b == DefaultBadge
    ensures totalPatterns > 0 ==> AllDigits(b.text) && |b.text| >= 1 && DigitsValue(b.text) == totalPatterns
    ensures totalPatterns > 0 ==> b.text[0] != '0' && b.text == NatToString(totalPatterns)
    ensures b.color in {Green, Orange, Red}
    ensures totalPatterns > 0 ==> (b.color == Orange <==> riskLevel == "Medium")
    ensures totalPatterns > 0 ==> (b.color == Red <==> riskLevel == "High")
    ensures totalPatterns > 0 ==> (b.color == Green <==> riskLevel != "Medium" && riskLevel != "High")
  {
    if totalPatterns > 0 then
      NatToStringRoundTrip(totalPatterns);
      var color :=
        if riskLevel == "Low" then Green
        else if riskLevel == "Medium" then Orange
        else if riskLevel == "High" then Red
        else Green;
      Badge(NatToString(totalPatterns), color)
    else DefaultBadge
  }

  /** The badge text is empty exactly when there is nothing to report, and
      different counts give different texts. */
  lemma BadgeTextIff(level: string, m: int, n: int)
    ensures UpdateBadge(level, n).text == "" <==> n <= 0
    ensures m > 0 && n > 0 && m != n ==> UpdateBadge(level, m).text != UpdateBadge(level, n).text
  {
    if m > 0 && n > 0 && m != n {
      NatToStringRoundTrip(m);
      NatToStringRoundTrip(n);
    }
  }

  /** For a response of the classification service, the badge shows the number of
      patterns in the service's own risk colour: none for a clean page, red from
      eleven patterns on, orange from five, green below. */
  lemma BadgeForResponse(tokens: seq<string>, output: seq<string>)
    requires |output| == |tokens|
    ensures var r := Report.BuildResponse(tokens, output);
      var b := UpdateBadge(r.riskLevel, r.totalPatterns);
      && (r.totalPatterns > 0 ==> b.color == r.riskColor && DigitsValue(b.text) == r.totalPatterns)
      && (r.totalPatterns == 0 ==> b == DefaultBadge)
      && (b.color == Red <==> r.totalPatterns >= 11)
      && (b.color == Orange <==> 5 <= r.totalPatterns <= 10)
  {
    var r := Report.BuildResponse(tokens, output);
    Report.RiskBandsByTotal(r.totalPatterns);
  }

  // ---------------------------------------------------------------------------
  // Per-tab state

  /** The badges of the tabs that have one set, by tab id. */
  type Badges = map<nat, Badge>

  function BadgeOf(badges: Badges, tab: nat): Badge {
    if tab in badges then badges[tab] else DefaultBadge
  }

  /** The fields of a runtime message the listener reads. */
  datatype Message = Message(message: string, riskLevel: string, totalPatterns: int)

  /** The message listener: only a detailed analysis sent from a tab updates a
      badge, that tab's; anything else is ignored. */
  function OnMessage(badges: Badges, request: Message, senderTab: Option<nat>): (r: Badges)
    ensures forall t: nat :: (senderTab != Some(t) || request.message != "update_detailed_analysis") ==>
      BadgeOf(r, t) == BadgeOf(badges, t)
    ensures request.message == "update_detailed_analysis" && senderTab.Some? ==>
      BadgeOf(r, senderTab.value) == UpdateBadge(request.riskLevel, request.totalPatterns)
  {
    if request.message == "update_detailed_analysis" && senderTab.Some? then
      badges[senderTab.value := UpdateBadge(request.riskLevel, request.totalPatterns)]
    else badges
  }

  /** `tabs.onUpdated`: a tab that starts loading loses its badge text and keeps
      its colour; other tabs and other status changes leave badges alone. */
  function OnTabUpdated(badges: Badges, tab: nat, status: Option<string>): (r: Badges)
    ensures status == Some("loading") ==>
      BadgeOf(r, tab).text == "" && BadgeOf(r, tab).color == BadgeOf(badges, tab).color
    ensures forall t: nat :: t != tab || status != Some("loading") ==> BadgeOf(r, t) == BadgeOf(badges, t)
  {
    if status == Some("loading") then badges[tab := BadgeOf(badges, tab).(text := "")]
    else badges
  }

  /** A badge that was set for a page's analysis is blank again after the tab
      reloads, whatever it showed, and loading twice is loading once. */
  lemma ReloadClearsCount(badges: Badges, tab: nat, request: Message)
    requires request.message == "update_detailed_analysis"
    ensures BadgeOf(OnTabUpdated(OnMessage(badges, request, Some(tab)), tab, Some("loading")), tab).text == ""
    ensures var once := OnTabUpdated(badges, tab, Some("loading"));
      OnTabUpdated(once, tab, Some("loading")) == once
  {
  }
}

=== FILE: common.dfy ===
/** Small shared vocabulary: optional values and document-ordered index lists. */
module Common {

  /** A value that may be absent: JavaScript's `null`/`undefined`, or a `parseInt` that yields NaN. */
  datatype Option<+T> = None | Some(value: T)

  /** Strictly increasing indices: a list in document order without repeats. */
  predicate Increasing(s: seq<nat>) {
    forall i, j :: 0 <= i < j < |s| ==> s[i] < s[j]
  }

  /** The indices below `n` at which `p` holds, in increasing order: what filtering a
      document-ordered element list (a `querySelectorAll` result) keeps. */
  function IndicesWhere(n: nat, p: nat -> bool): (r: seq<nat>)
    ensures forall x: nat :: x in r <==> x < n && p(x)
    ensures Increasing(r)
    ensures |r| <= n
  {
    if n == 0 then []
    else
      var rest := IndicesWhere(n - 1, p);
      if p(n - 1) then
        assert forall i :: 0 <= i < |rest| ==> rest[i] in rest;
        rest + [n - 1]
      else rest
  }

  /** One more position is selected exactly when `p` holds there. */
  lemma IndicesWhereNext(n: nat, p: nat -> bool)
    ensures IndicesWhere(n + 1, p) == IndicesWhere(n, p) + if p(n) then [n] else []
  {
  }

  /** Filters that agree below `n` select the same positions below `n`. */
  lemma {:induction false} SameFilter(n: nat, p: nat -> bool, q: nat -> bool)
    requires forall i: nat :: i < n ==> p(i) == q(i)
    ensures IndicesWhere(n, p) == IndicesWhere(n, q)
  {
    if n > 0 {
      SameFilter(n - 1, p, q);
    }
  }

  /** No element occurs twice. */
  predicate NoDuplicates<T(==)>(s: seq<T>) {
    forall i, j :: 0 <= i < j < |s| ==> s[i] != s[j]
  }
}

=== FILE: contrast.dfy ===
/** The colour-contrast heuristic of the page scanner: `getRGB` pulls the first
    `rgb(...)`/`rgba(...)` triple out of a computed colour string, and
    `isLowContrast` compares the grey levels of two colours. */
module Contrast {
  import opened Common
  import opened Text
  import opened Decimal

  datatype Rgb = Rgb(r: nat, g: nat, b: nat)

  /** Length of the run of ASCII digits that starts `t` (`\d+` is greedy). */
  function DigitRun(t: string): (k: nat)
    ensures k <= |t|
    ensures forall j :: 0 <= j < k ==> IsDigit(t[j])
    ensures k == |t| || !IsDigit(t[k])
  {
    if |t| == 0 || !IsDigit(t[0]) then 0 else 1 + DigitRun(t[1..])
  }

  /** Length of the run of white space that starts `t` (`\s*` is greedy). */
  function SpaceRun(t: string): (k: nat)
    ensures k <= |t|
    ensures forall j :: 0 <= j < k ==> IsSpace(t[j])
    ensures k == |t| || !IsSpace(t[k])
  {
    if |t| == 0 || !IsSpace(t[0]) then 0 else 1 + SpaceRun(t[1..])
  }

  /** `t[i]` exists and is `c` up to ASCII case (the `i` flag). */
  predicate CharIs(t: string, i: nat, c: char) {
    i < |t| && LowerChar(t[i]) == c
  }

  /** `(\d+)` at the start of `t`: the captured number and what follows it. */
  function Number(t: string): Option<(nat, string)> {
    var k := DigitRun(t);
    if k == 0 then None
    else
      assert AllDigits(t[..k]) by {
        forall j | 0 <= j < k ensures IsDigit(t[..k][j]) {
          assert t[..k][j] == t[j];
        }
      }
      Some((DigitsValue(t[..k]), t[k..]))
  }

  /** `,\s*` at the start of `t`: what follows the comma and the white space. */
  function Separator(t: string): Option<string> {
    if |t| > 0 && t[0] == ',' then Some(t[1..][SpaceRun(t[1..])..]) else None
  }

  /** `rgba?\(` (case-insensitive) at the start of `t`: what follows the
      parenthesis. `a?` can only be skipped when the next character is `(`, so
      there is at most one way to match. */
  function Opening(t: string): Option<string> {
    if !(CharIs(t, 0, 'r') && CharIs(t, 1, 'g') && CharIs(t, 2, 'b')) then None
    else
      var u := if CharIs(t, 3, 'a') then t[4..] else t[3..];
      if |u| > 0 && u[0] == '(' then Some(u[1..]) else None
  }

  /** `(\d+),\s*(\d+),\s*(\d+)` at the start of `t`, as three channels. Each greedy
      run is followed by a character it cannot consume, so backtracking never
      finds a second way to match. */
  function Triple(t: string): Option<Rgb> {
    match Number(t)
      case None => None
      case Some((r, u1)) =>
        match Separator(u1)
          case None => None
          case Some(u2) =>
            match Number(u2)
              case None => None
              case Some((g, u3)) =>
                match Separator(u3)
                  case None => None
                  case Some(u4) =>
                    match Number(u4)
                      case None => None
                      case Some((b, _)) => Some(Rgb(r, g, b))
  }

  /** The pattern `rgba?\((\d+),\s*(\d+),\s*(\d+)` (case-insensitive) tried at the
      start of `t`, with the three captured numbers. */
  function MatchHere(t: string): Option<Rgb> {
    match Opening(t)
      case None => None
      case Some(u) => Triple(u)
  }

  /** The pattern tried at position `q` of `s`. */
  function MatchAt(s: string, q: nat): Option<Rgb> {
    if q <= |s| then MatchHere(s[q..]) else None
  }

  /** The first of `f(p)`, `f(p + 1)`, ..., `f(n - 1)` that holds a value: the
      left-to-right scan of a regular-expression search. */
  function FirstSome<T>(f: nat -> Option<T>, p: nat, n: nat): Option<T>
    decreases n - p
  {
    if p >= n then None
    else if f(p).Some? then f(p)
    else FirstSome(f, p + 1, n)
  }

  /** The scan finds nothing exactly when no position holds a value, and otherwise
      the value at the leftmost position that holds one. */
  lemma {:induction false} FirstSomeIsLeftmost<T>(f: nat -> Option<T>, p: nat, n: nat)
    ensures FirstSome(f, p, n).None? <==> forall q :: p <= q < n ==> f(q).None?
    ensures FirstSome(f, p, n).Some? ==>
      exists q :: p <= q < n && f(q) == FirstSome(f, p, n) && forall q' :: p <= q' < q ==> f(q').None?
    decreases n - p
  {
    if p < n && f(p).None? {
      FirstSomeIsLeftmost(f, p + 1, n);
    }
  }

  /** The pattern as a function of the position in `s`. */
  function Matcher(s: string): nat -> Option<Rgb> {
    (q: nat) => MatchAt(s, q)
  }

  /** `getRGB`: `String.prototype.match` without the `g` flag takes the leftmost
      match; with none, the colour is black. */
  function GetRGB(s: string): Rgb {
    match FirstSome(Matcher(s), 0, |s|)
      case None => Rgb(0, 0, 0)
      case Some(c) => c
  }

  /** `getRGB` falls back to black when no position matches. */
  lemma GetRGBFallback(s: string)
    ensures (forall q :: 0 <= q < |s| ==> MatchAt(s, q).None?) ==> GetRGB(s) == Rgb(0, 0, 0)
  {
    FirstSomeIsLeftmost(Matcher(s), 0, |s|);
  }

  /** When some position matches, `getRGB` returns the triple captured at the
      leftmost one. */
  lemma GetRGBLeftmost(s: string)
    requires exists q :: 0 <= q < |s| && Matcher(s)(q).Some?
    ensures exists q :: 0 <= q < |s| && Matcher(s)(q) == Some(GetRGB(s))
                        && forall q' :: 0 <= q' < q ==> Matcher(s)(q').None?
  {
    var f := Matcher(s);
    var r := FirstSome(f, 0, |s|);
    FirstSomeIsLeftmost(f, 0, |s|);
    assert r.Some?;
    var q :| 0 <= q < |s| && f(q) == r && forall q' :: 0 <= q' < q ==> f(q').None?;
    assert GetRGB(s) == r.value;
  }

  /** Grey level scaled by 1000: 299 r + 587 g + 114 b stands for
      0.299 r + 0.587 g + 0.114 b. */
  function Luminance(c: Rgb): int {
    299 * c.r + 587 * c.g + 114 * c.b
  }

  function Abs(x: int): nat {
    if x < 0 then -x else x
  }

  /** `isLowContrast`: the grey levels differ by less than 50 (50000 scaled). */
  predicate IsLowContrast(color: string, backgroundColor: string) {
    Abs(Luminance(GetRGB(color)) - Luminance(GetRGB(backgroundColor))) < 50000
  }

  /** Low contrast in terms of the parsed channels. */
  lemma LowContrastIff(color: string, backgroundColor: string)
    ensures IsLowContrast(color, backgroundColor) <==>
      var f := GetRGB(color);
      var g := GetRGB(backgroundColor);
      -50000 < 299 * (f.r - g.r) + 587 * (f.g - g.g) + 114 * (f.b - g.b) < 50000
  {
  }

  /** The test does not depend on which colour is the text and which the background. */
  lemma LowContrastSymmetric(a: string, b: string)
    ensures IsLowContrast(a, b) <==> IsLowContrast(b, a)
  {
  }

  /** A colour against itself always reads as low contrast. */
  lemma LowContrastReflexive(a: string)
    ensures IsLowContrast(a, a)
  {
  }

  /** The rendering of `n` followed by a non-digit reads back as `n`. */
  lemma NumberOfRendering(n: nat, rest: string)
    requires |rest| > 0 && !IsDigit(rest[0])
    ensures Number(NatToString(n) + rest) == Some((n, rest))
  {
    var d := NatToString(n);
    var t := d + rest;
    assert t[..|d|] == d && t[|d|..] == rest;
    assert DigitRun(t) == |d|;
    NatToStringRoundTrip(n);
  }

  /** `, ` followed by a non-space is one separator. */
  lemma SeparatorOfCommaSpace(rest: string)
    requires |rest| > 0 && !IsSpace(rest[0])
    ensures Separator(", " + rest) == Some(rest)
  {
    var t := ", " + rest;
    assert t[1..] == " " + rest;
    assert SpaceRun(t[1..]) == 1;
    assert t[1..][1..] == rest;
  }

  /** The computed-style form of a colour: `rgb(R, G, B` or `rgba(R, G, B`, then
      `tail`. */
  function Rendered(c: Rgb, alpha: bool, tail: string): string {
    (if alpha then "rgba(" else "rgb(")
      + (NatToString(c.r) + (", " + (NatToString(c.g) + (", " + (NatToString(c.b) + tail)))))
  }

  /** The opening of a rendered colour is consumed exactly. */
  lemma OpeningRendered(alpha: bool, rest: string)
    ensures Opening((if alpha then "rgba(" else "rgb(") + rest) == Some(rest)
  {
    var head := if alpha then "rgba(" else "rgb(";
    var s := head + rest;
    assert s[|head|..] == rest;
    assert CharIs(s, 0, 'r') && CharIs(s, 1, 'g') && CharIs(s, 2, 'b');
    assert CharIs(s, 3, 'a') <==> alpha;
    assert s[|head| - 1] == '(';
  }

  /** The three rendered channels are captured exactly. */
  lemma {:induction false} TripleRendered(c: Rgb, tail: string)
    requires |tail| > 0 && !IsDigit(tail[0])
    ensures Triple(NatToString(c.r) + (", " + (NatToString(c.g) + (", " + (NatToString(c.b) + tail))))) == Some(c)
  {
    var t4 := NatToString(c.b) + tail;
    var t2 := NatToString(c.g) + (", " + t4);
    NumberOfRendering(c.b, tail);
    SeparatorOfCommaSpace(t4);
    NumberOfRendering(c.g, ", " + t4);
    SeparatorOfCommaSpace(t2);
    NumberOfRendering(c.r, ", " + t2);
  }

  /** The pattern matches a rendered colour at its start, capturing its channels. */
  lemma MatchRendered(c: Rgb, alpha: bool, tail: string)
    requires |tail| > 0 && !IsDigit(tail[0])
    ensures MatchHere(Rendered(c, alpha, tail)) == Some(c)
  {
    OpeningRendered(alpha, NatToString(c.r) + (", " + (NatToString(c.g) + (", " + (NatToString(c.b) + tail)))));
    TripleRendered(c, tail);
  }

  /** A match at the very start is the one `getRGB` returns. */
  lemma GetRGBMatchAtStart(s: string)
    requires MatchHere(s).Some?
    ensures GetRGB(s) == MatchHere(s).value
  {
    assert s[0..] == s;
    assert |s| > 0;
  }

  /** A rendered colour parses back to itself, whatever non-digit follows the
      third number (`)` for `rgb`, `, A)` for `rgba`). */
  lemma GetRGBRoundTrip(c: Rgb, alpha: bool, tail: string)
    requires |tail| > 0 && !IsDigit(tail[0])
    ensures GetRGB(Rendered(c, alpha, tail)) == c
  {
    MatchRendered(c, alpha, tail);
    GetRGBMatchAtStart(Rendered(c, alpha, tail));
  }

  /** The alpha channel is ignored: a colour in `rgb` form against the same colour
      in `rgba` form, whatever its alpha, reads as low contrast. Black text on a
      transparent background (`rgba(0, 0, 0, 0)`) is the common case. */
  lemma AlphaIgnored(c: Rgb, rgbTail: string, rgbaTail: string)
    requires |rgbTail| > 0 && !IsDigit(rgbTail[0])
    requires |rgbaTail| > 0 && !IsDigit(rgbaTail[0])
    ensures IsLowContrast(Rendered(c, false, rgbTail), Rendered(c, true, rgbaTail))
  {
    GetRGBRoundTrip(c, false, rgbTail);
    GetRGBRoundTrip(c, true, rgbaTail);
  }

  /** On rendered colours the test is the grey-level comparison of the channels
      themselves. */
  lemma LowContrastOfRendered(c: Rgb, d: Rgb, t1: string, t2: string)
    requires |t1| > 0 && !IsDigit(t1[0]) && |t2| > 0 && !IsDigit(t2[0])
    ensures IsLowContrast(Rendered(c, false, t1), Rendered(d, false, t2))
      <==> Abs(Luminance(c) - Luminance(d)) < 50000
  {
    GetRGBRoundTrip(c, false, t1);
    GetRGBRoundTrip(d, false, t2);
  }

  /** Two greys `rgb(v, v, v)` and `rgb(w, w, w)` read as low contrast exactly when
      `v` and `w` differ by less than 50: black (0) on white (255) does not, grey
      128 on grey 130 does. */
  lemma GreysLowContrastIff(v: nat, w: nat, t1: string, t2: string)
    requires |t1| > 0 && !IsDigit(t1[0]) && |t2| > 0 && !IsDigit(t2[0])
    ensures IsLowContrast(Rendered(Rgb(v, v, v), false, t1), Rendered(Rgb(w, w, w), false, t2))
      <==> -50 < v - w < 50
  {
    assert Luminance(Rgb(v, v, v)) == 1000 * v;
    assert Luminance(Rgb(w, w, w)) == 1000 * w;
    LowContrastOfRendered(Rgb(v, v, v), Rgb(w, w, w), t1, t2);
  }

  /** A colour string in which `r` is never followed by `g` (any case), such as a
      named colour like `transparent`, reads as black. */
  lemma NoTripleReadsAsBlack(s: string)
    requires forall i :: 0 <= i < |s| - 1 ==> !(LowerChar(s[i]) == 'r' && LowerChar(s[i + 1]) == 'g')
    ensures GetRGB(s) == Rgb(0, 0, 0)
  {
    forall q | 0 <= q < |s| ensures MatchAt(s, q).None? {
      assert s[q..][0] == s[q];
    }
    GetRGBFallback(s);
  }
}

=== FILE: decimal.dfy ===
/** Decimal digit strings: `Number.prototype.toString` on non-negative integers and
    `parseInt` on a run of ASCII digits. */
module Decimal {

  predicate IsDigit(c: char) {
    '0' <= c <= '9'
  }

  predicate AllDigits(s: string) {
    forall i :: 0 <= i < |s| ==> IsDigit(s[i])
  }

  function DigitChar(d: nat): (c: char)
    requires d < 10
    ensures IsDigit(c)
  {
    ('0' as int + d) as char
  }

  function DigitValue(c: char): (d: nat)
    requires IsDigit(c)
    ensures d < 10
  {
    c as int - '0' as int
  }

  /** The value of a string of decimal digits, most significant first (`parseInt`
      of a digit run; the empty run reads as 0). */
  function DigitsValue(s: string): nat
    requires AllDigits(s)
  {
    if |s| == 0 then 0 else DigitsValue(s[..|s| - 1]) * 10 + DigitValue(s[|s| - 1])
  }

  /** The decimal rendering of `n`: at least one digit, and no leading zero. */
  function NatToString(n: nat): (s: string)
    ensures |s| >= 1
    ensures AllDigits(s)
    ensures s[0] == '0' ==> n == 0
  {
    if n < 10 then [DigitChar(n)] else NatToString(n / 10) + [DigitChar(n % 10)]
  }

  /** Reading back the rendering of `n` gives `n`. */
  lemma {:induction false} NatToStringRoundTrip(n: nat)
    ensures DigitsValue(NatToString(n)) == n
  {
    var s := NatToString(n);
    if n >= 10 {
      NatToStringRoundTrip(n / 10);
      assert s[..|s| - 1] == NatToString(n / 10);
      assert DigitValue(s[|s| - 1]) == n % 10;
    } else {
      assert DigitValue(s[0]) == n;
    }
  }

  /** Different numbers render differently. */
  lemma NatToStringInjective(m: nat, n: nat)
    requires NatToString(m) == NatToString(n)
    ensures m == n
  {
    NatToStringRoundTrip(m);
    NatToStringRoundTrip(n);
  }
}

=== FILE: detectors.dfy ===
/** The local detectors of the content script: hidden or camouflaged cancel
    buttons, cancellation flows, pre-checked consent boxes and forced-continuity
    notices. Each detector yields the indices of the elements it marks with an
    alert, in the order it marks them. */
module Detectors {
  import opened Common
  import opened Text
  import opened Contrast
  import opened Dom

  /** `element.textContent.trim().toLowerCase()`. */
  function ButtonText(n: Node): string {
    ToLower(Trim(n.textContent))
  }

  // ---------------------------------------------------------------------------
  // Hidden buttons

  /** The selector of the hidden-button scan: links, buttons, clickable spans and
      divs, `role="button"`, submit and button inputs, and anything whose class or
      id mentions `btn` or `button`. */
  predicate IsClickableCandidate(n: Node) {
    || n.tag == "A" || n.tag == "BUTTON"
    || (n.tag == "SPAN" && n.hasOnclick) || (n.tag == "DIV" && n.hasOnclick)
    || n.role == Some("button")
    || (n.tag == "INPUT" && (n.inputType == "submit" || n.inputType == "button"))
    || Contains(n.className, "btn") || Contains(n.className, "button")
    || Contains(n.id, "btn") || Contains(n.id, "button")
  }

  /** The twenty phrases that make an element a cancel/close/decline control. */
  const CancelKeywords: seq<string> := [
    "cancel", "close", "no thanks", "decline", "no, thanks", "skip",
    "not now", "later", "opt out", "unsubscribe", "end subscription",
    "stop subscription", "terminate", "quit", "exit", "leave",
    "no longer", "remove", "delete account", "continue cancelling"]

  predicate IsCancelLink(n: Node) {
    ContainsAny(ButtonText(n), CancelKeywords)
  }

  /** A parsed value that is a number below `bound` (NaN compares false). */
  predicate Below(v: Option<int>, bound: int) {
    v.Some? && v.value < bound
  }

  /** `parseInt(a) > parseInt(b)`, false when either is NaN. */
  predicate Greater(a: Option<int>, b: Option<int>) {
    a.Some? && b.Some? && a.value > b.value
  }

  /** The elements the de-emphasis check compares against: links, buttons,
      `role="button"`, and submit or button inputs. */
  predicate IsButtonLike(n: Node) {
    || n.tag == "A" || n.tag == "BUTTON" || n.role == Some("button")
    || (n.tag == "INPUT" && (n.inputType == "submit" || n.inputType == "button"))
  }

  /** The comparison in the sibling loop: the sibling is emphasised over the
      element by a background where the element has none, a larger font, a
      heavier `fontWeight` (compared as strings), or by the sibling's colour
      matching its own background while the element's does not. */
  predicate LessEmphasis(sibling: Style, element: Style) {
    || (sibling.backgroundColor != "transparent" && element.backgroundColor == "transparent")
    || Greater(sibling.fontSize, element.fontSize)
    || StringGreater(sibling.fontWeight, element.fontWeight)
    || (sibling.color == sibling.backgroundColor && element.color != element.backgroundColor)
  }

  /** The button-like children of `p`. */
  function ButtonSiblings(page: Page, p: nat): (r: seq<nat>)
    requires WellFormed(page) && p < |page.nodes|
    ensures forall j :: 0 <= j < |r| ==> r[j] < |page.nodes|
    ensures forall x :: x in r <==> x in ElementChildren(page, p) && IsButtonLike(page.nodes[x])
  {
    Filter(ElementChildren(page, p), (x: nat) => x < |page.nodes| && IsButtonLike(page.nodes[x]))
  }

  /** The elements of `s` that satisfy `f`, in order. */
  function Filter(s: seq<nat>, f: nat -> bool): (r: seq<nat>)
    ensures |r| <= |s|
    ensures forall x :: x in r <==> x in s && f(x)
    ensures forall j :: 0 <= j < |r| ==> r[j] in s
  {
    if |s| == 0 then []
    else
      var rest := Filter(s[..|s| - 1], f);
      assert s == s[..|s| - 1] + [s[|s| - 1]];
      if f(s[|s| - 1]) then rest + [s[|s| - 1]] else rest
  }

  /** `checkForDeemphasizedButton`: the element has a parent with at least two
      button-like children, one of which (other than the element) out-emphasises
      it. */
  predicate IsDeemphasized(page: Page, i: nat)
    requires WellFormed(page) && i < |page.nodes|
  {
    match page.nodes[i].parent
      case None => false
      case Some(p) =>
        var siblings := ButtonSiblings(page, p);
        |siblings| > 1
          && exists k :: 0 <= k < |siblings| && siblings[k] != i
               && LessEmphasis(page.nodes[siblings[k]].style, page.nodes[i].style)
  }

  /** `isElementAtBottom`: the element's bottom edge is below the top 80% of its
      parent's box. */
  predicate IsAtBottom(page: Page, i: nat)
    requires WellFormed(page) && i < |page.nodes|
  {
    match page.nodes[i].parent
      case None => false
      case Some(p) =>
        page.nodes[i].rect.bottom > page.nodes[p].rect.top + page.nodes[p].rect.height * (8 as real / 10 as real)
  }

  /** `checkForDeemphasizedButton` as written: the two early returns, then the
      sibling loop that skips the element itself and stops at the first sibling
      that out-emphasises it. */
  method CheckForDeemphasizedButton(page: Page, i: nat) returns (hasLessEmphasis: bool)
    requires WellFormed(page) && i < |page.nodes|
    ensures hasLessEmphasis <==> IsDeemphasized(page, i)
  {
    if page.nodes[i].parent.None? {
      return false;
    }
    var p := page.nodes[i].parent.value;
    var siblings := ButtonSiblings(page, p);
    if |siblings| <= 1 {
      return false;
    }
    var elementStyle := page.nodes[i].style;
    hasLessEmphasis := false;
    var k := 0;
    while k < |siblings|
      invariant 0 <= k <= |siblings|
      invariant !hasLessEmphasis ==> forall m :: 0 <= m < k && siblings[m] != i ==>
                  !LessEmphasis(page.nodes[siblings[m]].style, elementStyle)
      invariant hasLessEmphasis ==> IsDeemphasized(page, i)
    {
      if siblings[k] == i {
        k := k + 1;
        continue;
      }
      var siblingStyle := page.nodes[siblings[k]].style;
      if LessEmphasis(siblingStyle, elementStyle) {
        hasLessEmphasis := true;
        break;
      }
      k := k + 1;
    }
  }

  /** The early returns of both helpers: an element without a parent is neither
      at the bottom of its container nor de-emphasised, and one whose parent has
      at most one button-like child is never de-emphasised. */
  lemma EarlyReturns(page: Page, i: nat)
    requires WellFormed(page) && i < |page.nodes|
    ensures page.nodes[i].parent.None? ==> !IsAtBottom(page, i) && !IsDeemphasized(page, i)
    ensures (page.nodes[i].parent.Some? && |ButtonSiblings(page, page.nodes[i].parent.value)| <= 1)
              ==> !IsDeemphasized(page, i)
  {
  }

  /** A de-emphasised element has a button-like sibling other than itself under
      the same parent, and that sibling out-emphasises it; conversely any such
      sibling, next to at least one other button-like child, makes it
      de-emphasised. */
  lemma DeemphasizedIff(page: Page, i: nat)
    requires WellFormed(page) && i < |page.nodes|
    ensures IsDeemphasized(page, i) <==>
      page.nodes[i].parent.Some?
      && |ButtonSiblings(page, page.nodes[i].parent.value)| > 1
      && (exists x :: x in ElementChildren(page, page.nodes[i].parent.value) && x != i
            && x < |page.nodes| && IsButtonLike(page.nodes[x])
            && LessEmphasis(page.nodes[x].style, page.nodes[i].style))
  {
    if page.nodes[i].parent.Some? {
      var p := page.nodes[i].parent.value;
      var siblings := ButtonSiblings(page, p);
      if IsDeemphasized(page, i) {
        var k :| 0 <= k < |siblings| && siblings[k] != i
                 && LessEmphasis(page.nodes[siblings[k]].style, page.nodes[i].style);
        assert siblings[k] in siblings;
      }
      if |siblings| > 1 && (exists x :: x in ElementChildren(page, p) && x != i
                              && x < |page.nodes| && IsButtonLike(page.nodes[x])
                              && LessEmphasis(page.nodes[x].style, page.nodes[i].style))
      {
        var x :| x in ElementChildren(page, p) && x != i
           && x < |page.nodes| && IsButtonLike(page.nodes[x])
           && LessEmphasis(page.nodes[x].style, page.nodes[i].style);
        assert x in siblings;
        var k :| 0 <= k < |siblings| && siblings[k] == x;
      }
    }
  }

  /** An element that reaches past its parent's bottom edge is at the bottom of
      it, and one that ends above its parent's top edge is not (for a parent of
      non-negative height). */
  lemma AtBottomBounds(page: Page, i: nat)
    requires WellFormed(page) && i < |page.nodes| && page.nodes[i].parent.Some?
    requires page.nodes[page.nodes[i].parent.value].rect.height >= 0 as real
    ensures var pr := page.nodes[page.nodes[i].parent.value].rect;
            page.nodes[i].rect.bottom > pr.top + pr.height ==> IsAtBottom(page, i)
    ensures var pr := page.nodes[page.nodes[i].parent.value].rect;
            page.nodes[i].rect.bottom <= pr.top ==> !IsAtBottom(page, i)
  {
  }

  /** The eight visual signals of the hidden-button scan. */
  datatype Signals = Signals(
    tinyFont: bool,
    lowContrast: bool,
    semiHidden: bool,
    offPosition: bool,
    tinyElement: bool,
    lowZIndex: bool,
    atBottom: bool,
    deemphasized: bool)

  predicate AnySignal(s: Signals) {
    s.tinyFont || s.lowContrast || s.semiHidden || s.offPosition
      || s.tinyElement || s.lowZIndex || s.atBottom || s.deemphasized
  }

  /** `parseInt(style.zIndex) || 0`: NaN (and 0) read as 0. */
  function ZIndexOrZero(st: Style): int {
    match st.zIndex
      case None => 0
      case Some(z) => z
  }

  function SignalsOf(page: Page, i: nat): Signals
    requires WellFormed(page) && i < |page.nodes|
  {
    var n := page.nodes[i];
    var st := n.style;
    Signals(
      tinyFont := Below(st.fontSize, 12),
      lowContrast := IsLowContrast(st.color, st.backgroundColor),
      semiHidden := (st.opacity.Some? && st.opacity.value < 7 as real / 10 as real)
                    || st.visibility == "hidden" || st.display == "none",
      offPosition := st.position == "absolute"
                     && (Below(st.top, 0) || Below(st.left, 0) || Below(st.bottom, 0) || Below(st.right, 0)),
      tinyElement := n.offsetWidth < 30 || n.offsetHeight < 15,
      lowZIndex := ZIndexOrZero(st) < 0,
      atBottom := IsAtBottom(page, i),
      deemphasized := IsDeemphasized(page, i))
  }

  /** The containers the burial check counts as listed offers or benefits. */
  predicate IsBenefitContainer(n: Node) {
    || n.tag == "UL" || n.tag == "OL"
    || (n.tag == "DIV" && (Contains(n.className, "benefit") || Contains(n.className, "feature")
                           || Contains(n.className, "offer")))
  }

  /** The number of `form` elements on the page. */
  function FormCount(page: Page): nat {
    |IndicesWhere(|page.nodes|, (j: nat) => j < |page.nodes| && page.nodes[j].tag == "FORM")|
  }

  /** The element's top edge lies below 70% of the document height. */
  predicate IsLowOnPage(page: Page, i: nat)
    requires i < |page.nodes|
  {
    page.nodes[i].rect.top > DocumentHeight(page) as real * (7 as real / 10 as real)
  }

  /** Some benefit container sits higher in the document than element `i`. */
  predicate HasBenefitsAbove(page: Page, i: nat)
    requires WellFormed(page) && i < |page.nodes|
  {
    exists b :: 0 <= b < |page.nodes| && IsBenefitContainer(page.nodes[b])
      && ElementPosition(page, b) < ElementPosition(page, i)
  }

  /** `checkForBuriedCancelButton`: low on the page, and either several forms or
      listed benefits above it. */
  predicate IsBuried(page: Page, i: nat)
    requires WellFormed(page) && i < |page.nodes|
  {
    IsLowOnPage(page, i) && (FormCount(page) > 1 || HasBenefitsAbove(page, i))
  }

  /** `querySelectorAll('ul, ol, div[class*="benefit"], ...')`: the benefit
      containers in document order. */
  function BenefitContainers(page: Page): (r: seq<nat>)
    ensures forall m :: 0 <= m < |r| ==> r[m] < |page.nodes|
    ensures forall b: nat :: b in r <==> b < |page.nodes| && IsBenefitContainer(page.nodes[b])
  {
    var r := IndicesWhere(|page.nodes|, (b: nat) => b < |page.nodes| && IsBenefitContainer(page.nodes[b]));
    assert forall m :: 0 <= m < |r| ==> r[m] in r;
    r
  }

  /** `checkForBuriedCancelButton` as written: the element's position on the page
      and the number of forms, then a loop over the benefit containers. */
  method CheckForBuriedCancelButton(page: Page, i: nat) returns (buried: bool)
    requires WellFormed(page) && i < |page.nodes|
    ensures buried <==> IsLowOnPage(page, i) && (FormCount(page) > 1 || HasBenefitsAbove(page, i))
  {
    var isLowOnPage := page.nodes[i].rect.top > DocumentHeight(page) as real * (7 as real / 10 as real);
    var isMultiStep := FormCount(page) > 1;
    var hasBenefitsAbove := AnyBenefitAbove(page, i);
    buried := isLowOnPage && (isMultiStep || hasBenefitsAbove);
  }

  /** The loop of `checkForBuriedCancelButton` that stops at the first benefit
      container positioned above the element. */
  method AnyBenefitAbove(page: Page, i: nat) returns (hasBenefitsAbove: bool)
    requires WellFormed(page) && i < |page.nodes|
    ensures hasBenefitsAbove <==> HasBenefitsAbove(page, i)
  {
    var elementPosition := GetElementPosition(page, i);
    var benefits := BenefitContainers(page);
    hasBenefitsAbove := false;
    var k := 0;
    while k < |benefits|
      invariant 0 <= k <= |benefits|
      invariant !hasBenefitsAbove ==> forall m :: 0 <= m < k ==> ElementPosition(page, benefits[m]) >= elementPosition
    {
      var benefitPosition := GetElementPosition(page, benefits[k]);
      if benefitPosition < elementPosition {
        assert benefits[k] in benefits;
        assert HasBenefitsAbove(page, i);
        hasBenefitsAbove := true;
        break;
      }
      k := k + 1;
    }
    if !hasBenefitsAbove {
      forall b | 0 <= b < |page.nodes| && IsBenefitContainer(page.nodes[b])
        ensures ElementPosition(page, b) >= ElementPosition(page, i)
      {
        var m :| 0 <= m < |benefits| && benefits[m] == b;
      }
    }
  }

  /** The decision of the hidden-button scan for one element, as written: a cancel
      phrase together with a visual signal, or a cancel phrase on a buried
      button. */
  predicate IsHiddenButton(page: Page, i: nat)
    requires WellFormed(page) && i < |page.nodes|
  {
    var isCancelLink := IsCancelLink(page.nodes[i]);
    (AnySignal(SignalsOf(page, i)) && isCancelLink) || (isCancelLink && IsBuried(page, i))
  }

  /** The element is rendered with a non-zero size (the scan skips the rest). */
  predicate HasSize(n: Node) {
    n.offsetWidth != 0 && n.offsetHeight != 0
  }

  /** `scanForHiddenButtons`: the candidates, in document order, that get a
      "Hidden Button" alert. */
  function ScanForHiddenButtons(page: Page): (r: seq<nat>)
    requires WellFormed(page)
    ensures Increasing(r)
    ensures forall i: nat :: i in r <==>
      i < |page.nodes| && IsClickableCandidate(page.nodes[i]) && HasSize(page.nodes[i]) && IsHiddenButton(page, i)
  {
    IndicesWhere(|page.nodes|, (i: nat) =>
      i < |page.nodes| && IsClickableCandidate(page.nodes[i]) && HasSize(page.nodes[i]) && IsHiddenButton(page, i))
  }

  /** An element is flagged exactly when it has a cancel phrase and either a visual
      signal or a buried position; without a cancel phrase it never is. */
  lemma HiddenButtonIff(page: Page, i: nat)
    requires WellFormed(page) && i < |page.nodes|
    ensures IsHiddenButton(page, i) <==>
      IsCancelLink(page.nodes[i]) && (AnySignal(SignalsOf(page, i)) || IsBuried(page, i))
    ensures !IsCancelLink(page.nodes[i]) ==> i !in ScanForHiddenButtons(page)
  {
  }

  /** A sized candidate whose text holds a cancel phrase and whose font is below
      12px is flagged. */
  lemma TinyCancelLinkFlagged(page: Page, i: nat)
    requires WellFormed(page) && i < |page.nodes|
    requires IsClickableCandidate(page.nodes[i]) && HasSize(page.nodes[i])
    requires IsCancelLink(page.nodes[i]) && Below(page.nodes[i].style.fontSize, 12)
    ensures i in ScanForHiddenButtons(page)
  {
  }

  // ---------------------------------------------------------------------------
  // Cancellation flows

  /** The words that make a page look like account or subscription management. */
  const SubscriptionWords: seq<string> := ["subscription", "account", "membership", "billing", "payment"]

  predicate IsSubscriptionPage(page: Page) {
    ContainsAny(ToLower(page.bodyText), SubscriptionWords)
  }

  /** A visually emphasised button: a background that is not transparent and a
      width above 100px. */
  predicate IsPrimary(n: Node) {
    n.style.backgroundColor != "transparent" && n.style.backgroundColor != "rgba(0, 0, 0, 0)"
      && n.offsetWidth > 100
  }

  /** Text that expresses the intent to cancel. */
  predicate HasCancelIntent(text: string) {
    || Contains(text, "cancel") || Contains(text, "unsubscribe") || Contains(text, "end subscription")
    || Contains(text, "terminate") || Contains(text, "stop subscription")
    || (Contains(text, "no") && Contains(text, "thanks"))
    || Contains(text, "continue cancelling")
  }

  /** The button-like elements satisfying `f`, in document order. */
  function ButtonsWhere(page: Page, f: Node -> bool): (r: seq<nat>)
    ensures Increasing(r)
    ensures forall x: nat :: x in r <==> x < |page.nodes| && IsButtonLike(page.nodes[x]) && f(page.nodes[x])
  {
    IndicesWhere(|page.nodes|, (x: nat) => x < |page.nodes| && IsButtonLike(page.nodes[x]) && f(page.nodes[x]))
  }

  /** The first part of the flow scan: when the page has both emphasised buttons
      and cancel buttons, every cancel button that is not itself emphasised. */
  function UnemphasisedCancelButtons(page: Page): (r: seq<nat>)
    ensures Increasing(r)
    ensures forall x: nat :: x in r <==>
      && |ButtonsWhere(page, IsPrimary)| > 0
      && |ButtonsWhere(page, n => HasCancelIntent(ButtonText(n)))| > 0
      && x < |page.nodes| && IsButtonLike(page.nodes[x])
      && HasCancelIntent(ButtonText(page.nodes[x])) && !IsPrimary(page.nodes[x])
  {
    var primaryButtons := ButtonsWhere(page, IsPrimary);
    var cancelButtons := ButtonsWhere(page, n => HasCancelIntent(ButtonText(n)));
    if |primaryButtons| > 0 && |cancelButtons| > 0 then
      ButtonsWhere(page, n => HasCancelIntent(ButtonText(n)) && !IsPrimary(n))
    else []
  }

  /** The containers whose last button the flow scan inspects. */
  predicate IsFlowContainer(n: Node) {
    || n.tag == "FORM" || n.role == Some("form")
    || (n.tag == "DIV" && Contains(n.className, "form"))
    || n.tag == "SECTION" || n.tag == "ARTICLE"
  }

  /** Membership in the button list of container `c`. */
  function ButtonInside(page: Page, c: nat): nat -> bool
    requires WellFormed(page)
  {
    (j: nat) => j < |page.nodes| && IsButtonLike(page.nodes[j]) && Inside(page, j, c)
  }

  /** The last button-like element inside container `c`, in document order. */
  function LastButtonIn(page: Page, c: nat): (r: Option<nat>)
    requires WellFormed(page)
    ensures r.Some? ==> r.value < |page.nodes| && IsButtonLike(page.nodes[r.value]) && Inside(page, r.value, c)
    ensures r.Some? ==> forall j :: r.value < j < |page.nodes| ==> !(IsButtonLike(page.nodes[j]) && Inside(page, j, c))
    ensures r.None? ==> forall j :: 0 <= j < |page.nodes| ==> !(IsButtonLike(page.nodes[j]) && Inside(page, j, c))
  {
    var buttons := IndicesWhere(|page.nodes|, ButtonInside(page, c));
    if |buttons| == 0 then
      assert forall j: nat :: j < |page.nodes| ==> !(IsButtonLike(page.nodes[j]) && Inside(page, j, c)) by {
        forall j: nat | j < |page.nodes|
          ensures !(IsButtonLike(page.nodes[j]) && Inside(page, j, c))
        {
          assert ButtonInside(page, c)(j) == (IsButtonLike(page.nodes[j]) && Inside(page, j, c));
          assert j !in buttons;
        }
      }
      None
    else
      var last := buttons[|buttons| - 1];
      assert last in buttons;
      assert forall j: nat :: last < j < |page.nodes| ==> !(IsButtonLike(page.nodes[j]) && Inside(page, j, c)) by {
        forall j: nat | last < j < |page.nodes|
          ensures !(IsButtonLike(page.nodes[j]) && Inside(page, j, c))
        {
          assert ButtonInside(page, c)(j) == (IsButtonLike(page.nodes[j]) && Inside(page, j, c));
          assert j !in buttons;
        }
      }
      Some(last)
  }

  /** The alert raised for container `c`: its last button, when that button's text
      mentions cancelling or declining. */
  function ContainerAlert(page: Page, c: nat): Option<nat>
    requires WellFormed(page)
  {
    match LastButtonIn(page, c)
      case None => None
      case Some(b) =>
        var text := ButtonText(page.nodes[b]);
        if Contains(text, "cancel") || Contains(text, "no thanks") || Contains(text, "continue cancelling")
        then Some(b) else None
  }

  /** The values `f` yields for the elements of `s`, in order, skipping `None`. */
  function FilterMap(s: seq<nat>, f: nat -> Option<nat>): (r: seq<nat>)
    ensures |r| <= |s|
    ensures forall x :: x in r <==> exists k :: 0 <= k < |s| && f(s[k]) == Some(x)
  {
    if |s| == 0 then []
    else
      var rest := FilterMap(s[..|s| - 1], f);
      assert forall k :: 0 <= k < |s| - 1 ==> s[..|s| - 1][k] == s[k];
      match f(s[|s| - 1])
        case None => rest
        case Some(x) => rest + [x]
  }

  /** Mapping `f` over the positions below `n` that `keep` selects yields exactly
      the values `f` has at those positions. */
  lemma FilterMapOverIndices(n: nat, keep: nat -> bool, f: nat -> Option<nat>)
    ensures forall x :: x in FilterMap(IndicesWhere(n, keep), f) <==> exists i: nat :: i < n && keep(i) && f(i) == Some(x)
  {
    var s := IndicesWhere(n, keep);
    forall x | x in FilterMap(s, f)
      ensures exists i: nat :: i < n && keep(i) && f(i) == Some(x)
    {
      var k :| 0 <= k < |s| && f(s[k]) == Some(x);
      assert s[k] in s;
    }
    forall x | exists i: nat :: i < n && keep(i) && f(i) == Some(x)
      ensures x in FilterMap(s, f)
    {
      var i: nat :| i < n && keep(i) && f(i) == Some(x);
      assert i in s;
      var k :| 0 <= k < |s| && s[k] == i;
    }
  }

  /** `r` lists, in order, the values `f` yields at the positions `ps`. */
  predicate ValuesAt(r: seq<nat>, ps: seq<nat>, f: nat -> Option<nat>) {
    |r| == |ps| && forall m :: 0 <= m < |ps| ==> f(ps[m]) == Some(r[m])
  }

  /** The positions `keep` selects at which `f` yields a value. */
  function Yields(keep: nat -> bool, f: nat -> Option<nat>): nat -> bool {
    (i: nat) => keep(i) && f(i).Some?
  }

  /** The elements of `s` at which `f` yields a value, in order. */
  function Yielding(s: seq<nat>, f: nat -> Option<nat>): seq<nat> {
    if |s| == 0 then []
    else Yielding(s[..|s| - 1], f) + if f(s[|s| - 1]).Some? then [s[|s| - 1]] else []
  }

  /** Mapping `f` over `s` gives one value per element at which `f` yields one,
      in order. */
  lemma {:induction false} FilterMapValues(s: seq<nat>, f: nat -> Option<nat>)
    ensures ValuesAt(FilterMap(s, f), Yielding(s, f), f)
  {
    if |s| > 0 {
      var init := s[..|s| - 1];
      FilterMapValues(init, f);
      match f(s[|s| - 1])
        case None =>
        case Some(x) => ValuesAtSnoc(FilterMap(init, f), Yielding(init, f), f, s[|s| - 1], x);
    }
  }

  lemma ValuesAtSnoc(r: seq<nat>, ps: seq<nat>, f: nat -> Option<nat>, p: nat, x: nat)
    requires ValuesAt(r, ps, f) && f(p) == Some(x)
    ensures ValuesAt(r + [x], ps + [p], f)
  {
  }

  /** Of the positions `keep` selects, `f` yields a value at those `Yields` selects. */
  lemma {:induction false} YieldingIndices(n: nat, keep: nat -> bool, f: nat -> Option<nat>)
    ensures Yielding(IndicesWhere(n, keep), f) == IndicesWhere(n, Yields(keep, f))
  {
    if n > 0 {
      YieldingIndices(n - 1, keep, f);
      IndicesWhereNext(n - 1, keep);
      IndicesWhereNext(n - 1, Yields(keep, f));
      if keep(n - 1) {
        var t := IndicesWhere(n - 1, keep) + [n - 1];
        assert t[..|t| - 1] == IndicesWhere(n - 1, keep);
      }
    }
  }

  /** Mapping `f` over the positions `keep` selects gives one value per position
      at which `f` yields one, in position order. */
  lemma FilterMapAligned(n: nat, keep: nat -> bool, f: nat -> Option<nat>)
    ensures ValuesAt(FilterMap(IndicesWhere(n, keep), f), IndicesWhere(n, Yields(keep, f)), f)
  {
    FilterMapValues(IndicesWhere(n, keep), f);
    YieldingIndices(n, keep, f);
  }

  /** The flow containers whose last button raises an alert. */
  function AlertsAt(page: Page): nat -> bool
    requires WellFormed(page)
  {
    (c: nat) => c < |page.nodes| && IsFlowContainer(page.nodes[c]) && ContainerAlert(page, c).Some?
  }

  /** The alerting flow containers, in document order. */
  function AlertingContainers(page: Page): (cs: seq<nat>)
    requires WellFormed(page)
    ensures Increasing(cs)
    ensures forall c: nat :: c in cs <==> c < |page.nodes| && IsFlowContainer(page.nodes[c]) && ContainerAlert(page, c).Some?
  {
    IndicesWhere(|page.nodes|, AlertsAt(page))
  }

  /** The second part of the flow scan: the container alerts, in container order. */
  function LastButtonAlerts(page: Page): (r: seq<nat>)
    requires WellFormed(page)
    ensures forall x :: x in r <==>
      exists c :: 0 <= c < |page.nodes| && IsFlowContainer(page.nodes[c]) && ContainerAlert(page, c) == Some(x)
    ensures var cs := AlertingContainers(page);
      |r| == |cs| && forall m :: 0 <= m < |cs| ==> ContainerAlert(page, cs[m]) == Some(r[m])
  {
    var keep := (c: nat) => c < |page.nodes| && IsFlowContainer(page.nodes[c]);
    var f := (c: nat) => ContainerAlert(page, c);
    FilterMapOverIndices(|page.nodes|, keep, f);
    assert forall c: nat :: keep(c) == (c < |page.nodes| && IsFlowContainer(page.nodes[c]));
    assert forall c: nat :: f(c) == ContainerAlert(page, c);
    FilterMapAligned(|page.nodes|, keep, f);
    SameFilter(|page.nodes|, Yields(keep, f), AlertsAt(page));
    FilterMap(IndicesWhere(|page.nodes|, keep), f)
  }

  /** `scanForCancellationFlows`: nothing unless the page talks about accounts or
      payment; otherwise the unemphasised cancel buttons, then the container
      alerts. */
  function ScanForCancellationFlows(page: Page): (r: seq<nat>)
    requires WellFormed(page)
    ensures !IsSubscriptionPage(page) ==> r == []
    ensures IsSubscriptionPage(page) ==> r == UnemphasisedCancelButtons(page) + LastButtonAlerts(page)
  {
    if !IsSubscriptionPage(page) then []
    else UnemphasisedCancelButtons(page) + LastButtonAlerts(page)
  }

  /** An emphasised button is never flagged by the first part, and the last button
      of a container is flagged exactly when its text mentions cancelling. */
  lemma CancellationFlowFacts(page: Page, x: nat, c: nat)
    requires WellFormed(page)
    ensures x < |page.nodes| && IsPrimary(page.nodes[x]) ==> x !in UnemphasisedCancelButtons(page)
    ensures LastButtonIn(page, c).Some? ==>
      (ContainerAlert(page, c).Some? <==>
        var text := ButtonText(page.nodes[LastButtonIn(page, c).value]);
        Contains(text, "cancel") || Contains(text, "no thanks") || Contains(text, "continue cancelling"))
  {
  }

  // ---------------------------------------------------------------------------
  // Pre-checked options

  predicate IsCheckable(n: Node) {
    n.tag == "INPUT" && (n.inputType == "checkbox" || n.inputType == "radio")
  }

  /** The words that reveal a consent or subscription option. */
  const ConsentWords: seq<string> := ["subscribe", "newsletter", "renew", "auto", "month", "agree"]

  /** The alert for input `i`: when it is checked, the nearest of itself and its
      four closest ancestors that has text, if that text mentions consent. */
  function PrecheckedAlert(page: Page, i: nat): (r: Option<nat>)
    requires WellFormed(page) && i < |page.nodes|
    ensures r.Some? ==> r.value <= i && IsCheckable(page.nodes[i]) && page.nodes[i].checked
  {
    if !(IsCheckable(page.nodes[i]) && page.nodes[i].checked) then None
    else match FindParentWithText(page, i, 5)
      case None => None
      case Some(p) => if ContainsAny(ToLower(page.nodes[p].textContent), ConsentWords) then Some(p) else None
  }

  /** The alert for each index, as the filter the detector maps over its inputs. */
  function PrecheckedAt(page: Page): nat -> Option<nat>
    requires WellFormed(page)
  {
    (i: nat) => if i < |page.nodes| then PrecheckedAlert(page, i) else None
  }

  /** `detectPrecheckedOptions`: the alerted text holders, one per flagged input,
      in input order. */
  function DetectPrecheckedOptions(page: Page): (r: seq<nat>)
    requires WellFormed(page)
    ensures forall x :: x in r <==> exists i :: 0 <= i < |page.nodes| && PrecheckedAlert(page, i) == Some(x)
    ensures var inputs := AlertingInputs(page);
      |r| == |inputs| && forall m :: 0 <= m < |inputs| ==> PrecheckedAlert(page, inputs[m]) == Some(r[m])
  {
    var keep := CheckableAt(page);
    var alert := PrecheckedAt(page);
    FilterMapOverIndices(|page.nodes|, keep, alert);
    assert forall i: nat :: i < |page.nodes| ==> alert(i) == PrecheckedAlert(page, i);
    PrecheckedAligned(page);
    FilterMap(IndicesWhere(|page.nodes|, keep), alert)
  }

  /** The checkboxes and radio buttons. */
  function CheckableAt(page: Page): nat -> bool {
    (i: nat) => i < |page.nodes| && IsCheckable(page.nodes[i])
  }

  /** Mapping the alert over the checkable inputs gives one alert per alerting
      input, in input order. */
  lemma PrecheckedAligned(page: Page)
    requires WellFormed(page)
    ensures ValuesAt(FilterMap(IndicesWhere(|page.nodes|, CheckableAt(page)), PrecheckedAt(page)),
                     AlertingInputs(page), PrecheckedAt(page))
  {
    var keep := CheckableAt(page);
    var alert := PrecheckedAt(page);
    FilterMapAligned(|page.nodes|, keep, alert);
    forall i: nat | i < |page.nodes|
      ensures Yields(keep, alert)(i) == PrecheckedInputAt(page)(i)
    {
      if PrecheckedAlert(page, i).Some? {
        assert IsCheckable(page.nodes[i]);
      }
    }
    SameFilter(|page.nodes|, Yields(keep, alert), PrecheckedInputAt(page));
  }

  /** The inputs that raise a pre-checked alert. */
  function PrecheckedInputAt(page: Page): nat -> bool
    requires WellFormed(page)
  {
    (i: nat) => i < |page.nodes| && PrecheckedAlert(page, i).Some?
  }

  /** The inputs that raise a pre-checked alert, in document order. */
  function AlertingInputs(page: Page): (inputs: seq<nat>)
    requires WellFormed(page)
    ensures Increasing(inputs)
    ensures forall m :: 0 <= m < |inputs| ==> inputs[m] < |page.nodes|
    ensures forall i: nat :: i in inputs <==> i < |page.nodes| && PrecheckedAlert(page, i).Some?
  {
    var inputs := IndicesWhere(|page.nodes|, PrecheckedInputAt(page));
    assert forall m :: 0 <= m < |inputs| ==> inputs[m] in inputs;
    inputs
  }

  /** What a pre-checked alert points at: a checked checkbox or radio button has
      the alerted element among itself and its first four ancestors, it is the
      nearest of those with text, and that text mentions consent. */
  lemma PrecheckedAlertSpec(page: Page, i: nat)
    requires WellFormed(page) && i < |page.nodes|
    ensures PrecheckedAlert(page, i).Some? ==>
      && IsCheckable(page.nodes[i]) && page.nodes[i].checked
      && ContainsAny(ToLower(page.nodes[PrecheckedAlert(page, i).value].textContent), ConsentWords)
      && exists k :: 0 <= k < 5 && Ancestor(page, i, k) == PrecheckedAlert(page, i)
                     && forall k' :: 0 <= k' < k ==> BlankAt(page, i, k')
    ensures !page.nodes[i].checked ==> PrecheckedAlert(page, i).None?
  {
    FindParentWithTextSpec(page, i, 5);
  }

  // ---------------------------------------------------------------------------
  // Forced continuity

  predicate IsContinuityCandidate(n: Node) {
    n.tag == "P" || n.tag == "SPAN" || n.tag == "DIV" || n.tag == "SMALL" || n.tag == "FOOTER"
  }

  const TrialPhrases: seq<string> := ["free trial", "trial period", "trial ends"]
  const BillingTerms: seq<string> := ["auto", "renew", "charg", "bill", "subscription"]

  /** The lower-cased text mentions a trial and a charge. */
  predicate MentionsTrialBilling(n: Node) {
    var text := ToLower(n.textContent);
    ContainsAny(text, TrialPhrases) && ContainsAny(text, BillingTerms)
  }

  /** The footer test as written: the element is a footer, or has one at or above
      it, or its parent is one. Reading the parent's tag when there is no parent
      throws, which `None` stands for. */
  function FooterContext(page: Page, i: nat): Option<bool>
    requires WellFormed(page) && i < |page.nodes|
  {
    if page.nodes[i].tag == "FOOTER" then Some(true)
    else if ClosestWithTag(page, i, "FOOTER").Some? then Some(true)
    else match page.nodes[i].parent
      case None => None
      case Some(p) => Some(page.nodes[p].tag == "FOOTER")
  }

  /** The three clauses of the footer test say the same as `closest('footer')`;
      the test only throws for an element with no parent and no footer tag. */
  lemma FooterContextIsClosest(page: Page, i: nat)
    requires WellFormed(page) && i < |page.nodes|
    ensures FooterContext(page, i).Some? ==> FooterContext(page, i).value == ClosestWithTag(page, i, "FOOTER").Some?
    ensures FooterContext(page, i).None? <==> page.nodes[i].tag != "FOOTER" && page.nodes[i].parent.None?
  {
    if page.nodes[i].tag != "FOOTER" && page.nodes[i].parent.Some? {
      var p := page.nodes[i].parent.value;
      if page.nodes[p].tag == "FOOTER" {
        assert ClosestWithTag(page, p, "FOOTER") == Some(p);
      }
    }
  }

  /** The forced-continuity decision: a trial and a charge mentioned in small text
      (below 14px) or inside a footer. */
  predicate IsForcedContinuity(page: Page, i: nat)
    requires WellFormed(page) && i < |page.nodes|
  {
    && IsContinuityCandidate(page.nodes[i])
    && MentionsTrialBilling(page.nodes[i])
    && (Below(page.nodes[i].style.fontSize, 14) || ClosestWithTag(page, i, "FOOTER").Some?)
  }

  /** The forced-continuity decision as a filter over indices. */
  function ForcedContinuityAt(page: Page): nat -> bool
    requires WellFormed(page)
  {
    (j: nat) => j < |page.nodes| && IsForcedContinuity(page, j)
  }

  /** The element makes the scan throw: it is examined for the footer test and has
      neither a footer tag nor a parent. */
  predicate Throws(page: Page, i: nat)
    requires WellFormed(page) && i < |page.nodes|
  {
    IsContinuityCandidate(page.nodes[i]) && MentionsTrialBilling(page.nodes[i])
      && FooterContext(page, i).None?
  }

  /** `detectForcedContinuity` over the first `n` elements: the alerted elements,
      and whether the loop ran to the end (an exception stops it early). */
  function ScanForcedContinuity(page: Page, n: nat): (r: (seq<nat>, bool))
    requires WellFormed(page) && n <= |page.nodes|
    ensures r.1 <==> forall j :: 0 <= j < n ==> !Throws(page, j)
    ensures r.1 ==> r.0 == IndicesWhere(n, ForcedContinuityAt(page))
  {
    if n == 0 then ([], true)
    else
      var (alerts, completed) := ScanForcedContinuity(page, n - 1);
      var i := n - 1;
      if !completed then (alerts, false)
      else if !(IsContinuityCandidate(page.nodes[i]) && MentionsTrialBilling(page.nodes[i])) then (alerts, true)
      else
        FooterContextIsClosest(page, i);
        match FooterContext(page, i)
          case None =>
            assert Throws(page, i);
            (alerts, false)
          case Some(isFooter) =>
            if Below(page.nodes[i].style.fontSize, 14) || isFooter then (alerts + [i], true) else (alerts, true)
  }

  /** On a page where every element has a parent, except possibly footers (so on
      any element below `<body>`), the scan completes and alerts exactly the
      forced-continuity elements. */
  lemma ForcedContinuityComplete(page: Page)
    requires WellFormed(page)
    requires forall i :: 0 <= i < |page.nodes| ==> page.nodes[i].parent.Some? || page.nodes[i].tag == "FOOTER"
    ensures ScanForcedContinuity(page, |page.nodes|).1
    ensures forall i: nat :: i in ScanForcedContinuity(page, |page.nodes|).0 <==>
      i < |page.nodes| && IsForcedContinuity(page, i)
  {
    forall j | 0 <= j < |page.nodes|
      ensures !Throws(page, j)
    {
      FooterContextIsClosest(page, j);
    }
  }
}

=== FILE: dom.dfy ===
/** A snapshot of the page the content script inspects: every element with the
    attributes, computed style and layout values the detectors read, listed in
    document order, plus the tree walks the detectors perform on it. */
module Dom {
  import opened Common
  import opened Text

  /** A child of an element: a text node, or another element by its index. */
  datatype ChildNode = TextChild(text: string) | ElementChild(index: nat)

  /** The computed-style values the detectors read. Numeric properties hold what
      `parseInt`/`parseFloat` yields: `None` stands for NaN (for example `auto`),
      which makes every comparison false. */
  datatype Style = Style(
    fontSize: Option<int>,
    color: string,
    backgroundColor: string,
    fontWeight: string,
    opacity: Option<real>,
    visibility: string,
    display: string,
    position: string,
    top: Option<int>,
    left: Option<int>,
    bottom: Option<int>,
    right: Option<int>,
    zIndex: Option<int>)

  /** The part of `getBoundingClientRect()` the detectors read. */
  datatype Rect = Rect(top: real, bottom: real, height: real)

  /** One element. `tag` is the upper-case `tagName`; `role` is the `role`
      attribute, if any; `inputType` is the `type` of an `input`; `textContent`
      is all the text beneath the element. */
  datatype Node = Node(
    tag: string,
    id: string,
    className: string,
    role: Option<string>,
    inputType: string,
    hasOnclick: bool,
    checked: bool,
    parent: Option<nat>,
    children: seq<ChildNode>,
    textContent: string,
    style: Style,
    offsetWidth: int,
    offsetHeight: int,
    offsetTop: int,
    offsetParent: Option<nat>,
    rect: Rect)

  /** The page: its elements in document order, the text of `document.body`, and
      the four heights whose maximum is the document height. */
  datatype Page = Page(
    nodes: seq<Node>,
    bodyText: string,
    bodyScrollHeight: int,
    rootScrollHeight: int,
    bodyOffsetHeight: int,
    rootOffsetHeight: int)

  /** An element's parent and offset parent come before it in document order,
      and its element children after it: the tree has no cycles. */
  predicate WellFormed(page: Page) {
    forall i :: 0 <= i < |page.nodes| ==>
      && (page.nodes[i].parent.Some? ==> page.nodes[i].parent.value < i)
      && (page.nodes[i].offsetParent.Some? ==> page.nodes[i].offsetParent.value < i)
      && (forall c :: c in page.nodes[i].children && c.ElementChild? ==> i < c.index < |page.nodes|)
  }

  /** `Math.max` of the four heights. */
  function DocumentHeight(page: Page): (h: int)
    ensures h >= page.bodyScrollHeight && h >= page.rootScrollHeight
    ensures h >= page.bodyOffsetHeight && h >= page.rootOffsetHeight
    ensures h in {page.bodyScrollHeight, page.rootScrollHeight, page.bodyOffsetHeight, page.rootOffsetHeight}
  {
    var a := if page.bodyScrollHeight >= page.rootScrollHeight then page.bodyScrollHeight else page.rootScrollHeight;
    var b := if page.bodyOffsetHeight >= page.rootOffsetHeight then page.bodyOffsetHeight else page.rootOffsetHeight;
    if a >= b then a else b
  }

  /** The element `k` steps up from `i` through `parentElement` (0 steps is `i`
      itself); `None` once the walk has left the tree. */
  function Ancestor(page: Page, i: nat, k: nat): (a: Option<nat>)
    requires WellFormed(page) && i < |page.nodes|
    ensures a.Some? ==> a.value <= i
    ensures a.Some? && k > 0 ==> a.value < i
  {
    if k == 0 then Some(i)
    else match page.nodes[i].parent
      case None => None
      case Some(p) => Ancestor(page, p, k - 1)
  }

  /** The walk only climbs: what it finds comes no later than where it starts. */
  lemma {:induction false} WalkForTextBelow(page: Page, current: Option<nat>, depth: nat, maxDepth: nat)
    requires WellFormed(page)
    requires current.Some? ==> current.value < |page.nodes|
    ensures WalkForText(page, current, depth, maxDepth).Some? ==>
      current.Some? && WalkForText(page, current, depth, maxDepth).value <= current.value
    decreases maxDepth - depth
  {
    if current.Some? && depth < maxDepth && !HasText(page.nodes[current.value]) {
      WalkForTextBelow(page, page.nodes[current.value].parent, depth + 1, maxDepth);
    }
  }

  /** `textContent` is non-empty once trimmed. */
  predicate HasText(n: Node) {
    |Trim(n.textContent)| > 0
  }

  /** The loop of `findParentWithText` from `current`, having taken `depth`
      steps. */
  function WalkForText(page: Page, current: Option<nat>, depth: nat, maxDepth: nat): (r: Option<nat>)
    requires WellFormed(page)
    requires current.Some? ==> current.value < |page.nodes|
    ensures r.Some? ==> r.value < |page.nodes| && HasText(page.nodes[r.value])
    decreases maxDepth - depth
  {
    if current.None? || depth >= maxDepth then None
    else if HasText(page.nodes[current.value]) then current
    else WalkForText(page, page.nodes[current.value].parent, depth + 1, maxDepth)
  }

  /** `findParentWithText(element, maxDepth)`: the first of the element itself and
      its next `maxDepth - 1` ancestors whose trimmed text is non-empty. */
  function FindParentWithText(page: Page, i: nat, maxDepth: nat): (r: Option<nat>)
    requires WellFormed(page) && i < |page.nodes|
    ensures r.Some? ==> r.value <= i && HasText(page.nodes[r.value])
  {
    WalkForTextBelow(page, Some(i), 0, maxDepth);
    WalkForText(page, Some(i), 0, maxDepth)
  }

  /** The `k`-th ancestor of `i` exists and has text. */
  predicate TextAt(page: Page, i: nat, k: nat)
    requires WellFormed(page) && i < |page.nodes|
  {
    Ancestor(page, i, k).Some? && HasText(page.nodes[Ancestor(page, i, k).value])
  }

  /** The `k`-th ancestor of `i` exists and has no text. */
  predicate BlankAt(page: Page, i: nat, k: nat)
    requires WellFormed(page) && i < |page.nodes|
  {
    Ancestor(page, i, k).Some? && !HasText(page.nodes[Ancestor(page, i, k).value])
  }

  /** The `k`-th ancestor of `i` is the first with text from the `depth`-th on. */
  predicate NearestText(page: Page, i: nat, depth: nat, k: nat)
    requires WellFormed(page) && i < |page.nodes|
  {
    depth <= k && TextAt(page, i, k) && forall k' :: depth <= k' < k ==> BlankAt(page, i, k')
  }

  /** A blank ancestor in front of the nearest one with text leaves it the nearest. */
  lemma NearestTextExtend(page: Page, i: nat, depth: nat, k: nat)
    requires WellFormed(page) && i < |page.nodes|
    requires BlankAt(page, i, depth) && NearestText(page, i, depth + 1, k)
    ensures NearestText(page, i, depth, k)
  {
  }

  /** The walk from the `depth`-th ancestor of `i`, in terms of `Ancestor`. */
  lemma WalkForTextSpec(page: Page, i: nat, depth: nat, maxDepth: nat)
    requires WellFormed(page) && i < |page.nodes|
    ensures WalkForText(page, Ancestor(page, i, depth), depth, maxDepth).Some? ==>
      exists k: nat :: k < maxDepth && Ancestor(page, i, k) == WalkForText(page, Ancestor(page, i, depth), depth, maxDepth)
                  && NearestText(page, i, depth, k)
    ensures WalkForText(page, Ancestor(page, i, depth), depth, maxDepth).None? ==>
      forall k :: depth <= k < maxDepth ==> !TextAt(page, i, k)
  {
    if WalkForText(page, Ancestor(page, i, depth), depth, maxDepth).Some? {
      var k := WalkForTextFound(page, i, depth, maxDepth);
    } else {
      WalkForTextNotFound(page, i, depth, maxDepth);
    }
  }

  /** A walk that finds an element finds the nearest ancestor with text: the
      `k`-th one. */
  lemma {:induction false} WalkForTextFound(page: Page, i: nat, depth: nat, maxDepth: nat) returns (k: nat)
    requires WellFormed(page) && i < |page.nodes|
    requires WalkForText(page, Ancestor(page, i, depth), depth, maxDepth).Some?
    ensures k < maxDepth && Ancestor(page, i, k) == WalkForText(page, Ancestor(page, i, depth), depth, maxDepth)
    ensures NearestText(page, i, depth, k)
    decreases maxDepth - depth
  {
    var cur := Ancestor(page, i, depth);
    if HasText(page.nodes[cur.value]) {
      k := depth;
    } else {
      assert BlankAt(page, i, depth);
      WalkForTextStep(page, i, depth, maxDepth);
      k := WalkForTextFound(page, i, depth + 1, maxDepth);
      NearestTextExtend(page, i, depth, k);
    }
  }

  /** A walk that finds nothing passed no ancestor with text. */
  lemma {:induction false} WalkForTextNotFound(page: Page, i: nat, depth: nat, maxDepth: nat)
    requires WellFormed(page) && i < |page.nodes|
    requires WalkForText(page, Ancestor(page, i, depth), depth, maxDepth).None?
    ensures forall k :: depth <= k < maxDepth ==> !TextAt(page, i, k)
    decreases maxDepth - depth
  {
    var cur := Ancestor(page, i, depth);
    if depth < maxDepth {
      if cur.None? {
        NoTextAbove(page, i, depth, maxDepth);
      } else {
        assert !HasText(page.nodes[cur.value]);
        assert BlankAt(page, i, depth);
        WalkForTextStep(page, i, depth, maxDepth);
        WalkForTextNotFound(page, i, depth + 1, maxDepth);
        forall k | depth <= k < maxDepth
          ensures !TextAt(page, i, k)
        {
          if k == depth {
            assert BlankAt(page, i, k);
          }
        }
      }
    }
  }

  /** Past the root there is no text to find. */
  lemma NoTextAbove(page: Page, i: nat, depth: nat, maxDepth: nat)
    requires WellFormed(page) && i < |page.nodes|
    requires Ancestor(page, i, depth).None?
    ensures forall k :: depth <= k < maxDepth ==> !TextAt(page, i, k)
  {
    forall k | depth <= k < maxDepth
      ensures !TextAt(page, i, k)
    {
      AncestorGone(page, i, depth, k);
    }
  }

  /** A blank ancestor passes the walk on to its parent. */
  lemma WalkForTextStep(page: Page, i: nat, depth: nat, maxDepth: nat)
    requires WellFormed(page) && i < |page.nodes|
    requires depth < maxDepth && BlankAt(page, i, depth)
    ensures WalkForText(page, Ancestor(page, i, depth), depth, maxDepth)
         == WalkForText(page, Ancestor(page, i, depth + 1), depth + 1, maxDepth)
  {
    AncestorStep(page, i, depth);
  }

  /** One more step up is the parent of the current ancestor. */
  lemma {:induction false} AncestorStep(page: Page, i: nat, k: nat)
    requires WellFormed(page) && i < |page.nodes|
    requires Ancestor(page, i, k).Some?
    ensures Ancestor(page, i, k + 1) == page.nodes[Ancestor(page, i, k).value].parent
  {
    if k > 0 {
      AncestorStep(page, page.nodes[i].parent.value, k - 1);
    }
  }

  /** Once the walk has left the tree it stays out. */
  lemma {:induction false} AncestorGone(page: Page, i: nat, k: nat, m: nat)
    requires WellFormed(page) && i < |page.nodes|
    requires Ancestor(page, i, k).None? && k <= m
    ensures Ancestor(page, i, m).None?
  {
    if k > 0 && page.nodes[i].parent.Some? {
      AncestorGone(page, page.nodes[i].parent.value, k - 1, m - 1);
    }
  }

  /** `findParentWithText` returns the nearest of the element and its first
      `maxDepth - 1` ancestors with text, and `null` when none of them has any. */
  lemma FindParentWithTextSpec(page: Page, i: nat, maxDepth: nat)
    requires WellFormed(page) && i < |page.nodes|
    ensures FindParentWithText(page, i, maxDepth).Some? ==>
      exists k: nat :: k < maxDepth && Ancestor(page, i, k) == FindParentWithText(page, i, maxDepth)
                  && NearestText(page, i, 0, k)
    ensures FindParentWithText(page, i, maxDepth).None? ==> forall k :: 0 <= k < maxDepth ==> !TextAt(page, i, k)
  {
    WalkForTextSpec(page, i, 0, maxDepth);
  }

  /** The sum of `offsetTop` along the `offsetParent` chain from `i`. */
  function ElementPosition(page: Page, i: nat): int
    requires WellFormed(page) && i < |page.nodes|
    decreases i
  {
    page.nodes[i].offsetTop + match page.nodes[i].offsetParent
      case None => 0
      case Some(p) => ElementPosition(page, p)
  }

  /** `getElementPosition`: the loop that adds up `offsetTop` while following
      `offsetParent`. */
  method GetElementPosition(page: Page, i: nat) returns (position: int)
    requires WellFormed(page) && i < |page.nodes|
    ensures position == ElementPosition(page, i)
  {
    position := 0;
    var current: Option<nat> := Some(i);
    while current.Some?
      invariant current.Some? ==> current.value < |page.nodes|
      invariant position + (if current.Some? then ElementPosition(page, current.value) else 0) == ElementPosition(page, i)
      decreases if current.Some? then current.value + 1 else 0
    {
      position := position + page.nodes[current.value].offsetTop;
      current := page.nodes[current.value].offsetParent;
    }
  }

  /** `element.closest(selector)` for a tag name: the element itself or its nearest
      ancestor with that tag. */
  function ClosestWithTag(page: Page, i: nat, tag: string): (r: Option<nat>)
    requires WellFormed(page) && i < |page.nodes|
    ensures r.Some? ==> r.value <= i && page.nodes[r.value].tag == tag
    ensures page.nodes[i].tag == tag ==> r == Some(i)
    decreases i
  {
    if page.nodes[i].tag == tag then Some(i)
    else match page.nodes[i].parent
      case None => None
      case Some(p) => ClosestWithTag(page, p, tag)
  }

  /** The `k`-th ancestor of `i` (the element itself at 0) exists and has the tag. */
  predicate TagAbove(page: Page, i: nat, k: nat, tag: string)
    requires WellFormed(page) && i < |page.nodes|
  {
    Ancestor(page, i, k).Some? && page.nodes[Ancestor(page, i, k).value].tag == tag
  }

  /** `closest` finds an element exactly when the element itself or some ancestor
      carries the tag. */
  lemma ClosestWithTagIff(page: Page, i: nat, tag: string)
    requires WellFormed(page) && i < |page.nodes|
    ensures ClosestWithTag(page, i, tag).Some? <==> exists k: nat :: TagAbove(page, i, k, tag)
  {
    if ClosestWithTag(page, i, tag).Some? {
      ClosestFound(page, i, tag);
    } else {
      ClosestNotFound(page, i, tag);
    }
  }

  lemma {:induction false} ClosestFound(page: Page, i: nat, tag: string)
    requires WellFormed(page) && i < |page.nodes|
    requires ClosestWithTag(page, i, tag).Some?
    ensures exists k: nat :: TagAbove(page, i, k, tag)
    decreases i
  {
    if page.nodes[i].tag == tag {
      assert TagAbove(page, i, 0, tag);
    } else {
      var p := page.nodes[i].parent.value;
      ClosestFound(page, p, tag);
      var k: nat :| TagAbove(page, p, k, tag);
      assert Ancestor(page, i, k + 1) == Ancestor(page, p, k);
      assert TagAbove(page, i, k + 1, tag);
    }
  }

  lemma {:induction false} ClosestNotFound(page: Page, i: nat, tag: string)
    requires WellFormed(page) && i < |page.nodes|
    requires ClosestWithTag(page, i, tag).None?
    ensures forall k: nat :: !TagAbove(page, i, k, tag)
    decreases i
  {
    forall k: nat
      ensures !TagAbove(page, i, k, tag)
    {
      if k > 0 && page.nodes[i].parent.Some? {
        var p := page.nodes[i].parent.value;
        ClosestNotFound(page, p, tag);
        assert Ancestor(page, i, k) == Ancestor(page, p, k - 1);
        assert !TagAbove(page, p, k - 1, tag);
      }
    }
  }

  /** `i` lies strictly inside the element `c` (`c.querySelectorAll` sees it). */
  predicate Inside(page: Page, i: nat, c: nat)
    requires WellFormed(page) && i < |page.nodes|
    decreases i
  {
    match page.nodes[i].parent
      case None => false
      case Some(p) => p == c || Inside(page, p, c)
  }

  /** An element inside `c` comes after it in document order. */
  lemma {:induction false} InsideAfter(page: Page, i: nat, c: nat)
    requires WellFormed(page) && i < |page.nodes|
    requires Inside(page, i, c)
    ensures c < i
    decreases i
  {
    var p := page.nodes[i].parent.value;
    if p != c {
      InsideAfter(page, p, c);
    }
  }

  /** The element children of `i`, in order (`parentElement.children`). */
  function ElementChildren(page: Page, i: nat): (r: seq<nat>)
    requires WellFormed(page) && i < |page.nodes|
    ensures forall j :: 0 <= j < |r| ==> i < r[j] < |page.nodes|
    ensures forall x :: x in r <==> ElementChild(x) in page.nodes[i].children
  {
    var cs := page.nodes[i].children;
    ElementIndices(cs, |page.nodes|, i)
  }

  /** The indices of the element children in `cs`, all between `lo` and `n`. */
  function ElementIndices(cs: seq<ChildNode>, n: nat, lo: nat): (r: seq<nat>)
    requires forall c :: c in cs && c.ElementChild? ==> lo < c.index < n
    ensures forall j :: 0 <= j < |r| ==> lo < r[j] < n
    ensures forall x :: x in r <==> ElementChild(x) in cs
  {
    if |cs| == 0 then []
    else
      var rest := ElementIndices(cs[..|cs| - 1], n, lo);
      assert forall c :: c in cs[..|cs| - 1] ==> c in cs;
      assert cs == cs[..|cs| - 1] + [cs[|cs| - 1]];
      match cs[|cs| - 1]
        case TextChild(_) => rest
        case ElementChild(x) => rest + [x]
  }

  /** The element's own text: its direct text nodes, each trimmed, joined with
      single spaces (text inside child elements is left out). */
  function OwnText(n: Node): string {
    Join(TextParts(n.children), " ")
  }

  /** The trimmed contents of the text nodes among `cs`, in order. */
  function TextParts(cs: seq<ChildNode>): (r: seq<string>)
    ensures |r| <= |cs|
  {
    if |cs| == 0 then []
    else
      var rest := TextParts(cs[..|cs| - 1]);
      match cs[|cs| - 1]
        case TextChild(t) => rest + [Trim(t)]
        case ElementChild(_) => rest
  }
}

=== FILE: extraction.dfy ===
/** The text scrape: which elements' own text is sent for classification, and how
    the alert tooltips that the detectors append to the page end up in that list. */
module Extraction {
  import opened Common
  import opened Text
  import opened Dom

  /** The tags the scrape reads text from. */
  predicate IsTextTag(tag: string) {
    tag in ["P", "SPAN", "A", "LI", "H1", "H2", "H3", "H4", "H5", "H6", "STRONG", "EM", "BUTTON", "DIV"]
  }

  /** An element whose own text is longer than five characters is sent. */
  predicate Kept(n: Node) {
    IsTextTag(n.tag) && |OwnText(n)| > 5
  }

  /** The kept elements as a filter over indices. */
  function KeptAt(nodes: seq<Node>): nat -> bool {
    (i: nat) => i < |nodes| && Kept(nodes[i])
  }

  /** The own texts of the nodes `keep` selects, in document order. */
  function TextsWhere(nodes: seq<Node>, keep: Node -> bool): (r: seq<string>)
    ensures |r| <= |nodes|
  {
    if |nodes| == 0 then []
    else
      var rest := TextsWhere(nodes[..|nodes| - 1], keep);
      if keep(nodes[|nodes| - 1]) then rest + [OwnText(nodes[|nodes| - 1])] else rest
  }

  /** Selection works node by node: the texts of a concatenation are the
      concatenated texts. */
  lemma {:induction false} TextsWhereAppend(a: seq<Node>, b: seq<Node>, keep: Node -> bool)
    ensures TextsWhere(a + b, keep) == TextsWhere(a, keep) + TextsWhere(b, keep)
    decreases |b|
  {
    if |b| == 0 {
      assert a + b == a;
    } else {
      var init := b[..|b| - 1];
      var last := b[|b| - 1];
      var extra := if keep(last) then [OwnText(last)] else [];
      TextsWhereAppend(a, init, keep);
      assert (a + b)[..|a + b| - 1] == a + init;
      assert (a + b)[|a + b| - 1] == last;
      assert TextsWhere(a + b, keep) == TextsWhere(a + init, keep) + extra;
      assert TextsWhere(b, keep) == TextsWhere(init, keep) + extra;
      assert TextsWhere(a, keep) + TextsWhere(init, keep) + extra == TextsWhere(a, keep) + (TextsWhere(init, keep) + extra);
    }
  }

  /** Selecting only nodes with long texts yields only long texts. */
  lemma {:induction false} TextsWhereLong(nodes: seq<Node>, keep: Node -> bool, m: nat)
    requires forall n :: keep(n) ==> |OwnText(n)| > m
    ensures forall k :: 0 <= k < |TextsWhere(nodes, keep)| ==> |TextsWhere(nodes, keep)[k]| > m
  {
    if |nodes| > 0 {
      TextsWhereLong(nodes[..|nodes| - 1], keep, m);
    }
  }

  /** The texts sent for `nodes`, in document order. */
  function KeptTexts(nodes: seq<Node>): (r: seq<string>)
    ensures |r| <= |nodes|
  {
    TextsWhere(nodes, Kept)
  }

  /** Every text sent is longer than five characters. */
  lemma KeptTextsLong(nodes: seq<Node>)
    ensures forall k :: 0 <= k < |KeptTexts(nodes)| ==> |KeptTexts(nodes)[k]| > 5
  {
    TextsWhereLong(nodes, Kept, 5);
  }

  /** One more node adds its own text when it is kept. */
  lemma KeptTextsLast(nodes: seq<Node>)
    requires |nodes| > 0
    ensures var last := nodes[|nodes| - 1];
      KeptTexts(nodes) == KeptTexts(nodes[..|nodes| - 1]) + if Kept(last) then [OwnText(last)] else []
  {
  }

  /** Extraction works node by node: the texts of a concatenation are the
      concatenated texts. */
  lemma KeptTextsAppend(a: seq<Node>, b: seq<Node>)
    ensures KeptTexts(a + b) == KeptTexts(a) + KeptTexts(b)
  {
    TextsWhereAppend(a, b, Kept);
  }

  /** The kept positions and the texts sent line up: the `k`-th text is the own
      text of the `k`-th kept element. */
  lemma {:induction false} KeptTextsAtIndices(nodes: seq<Node>, n: nat)
    requires n <= |nodes|
    ensures var idx := IndicesWhere(n, KeptAt(nodes));
      var texts := KeptTexts(nodes[..n]);
      |idx| == |texts| && forall k :: 0 <= k < |idx| ==> idx[k] < n && texts[k] == OwnText(nodes[idx[k]])
  {
    if n > 0 {
      KeptTextsAtIndices(nodes, n - 1);
      IndicesWhereNext(n - 1, KeptAt(nodes));
      KeptTextsLast(nodes[..n]);
      assert nodes[..n][..n - 1] == nodes[..n - 1];
      assert KeptAt(nodes)(n - 1) == Kept(nodes[n - 1]);
    }
  }

  /** One more node extends the kept positions and the texts by itself and its
      own text when it has a text tag and more than five characters of own text. */
  lemma ExtractStep(nodes: seq<Node>, i: nat)
    requires i < |nodes|
    ensures var keep := IsTextTag(nodes[i].tag) && |OwnText(nodes[i])| > 5;
      && KeptTexts(nodes[..i + 1]) == KeptTexts(nodes[..i]) + (if keep then [OwnText(nodes[i])] else [])
      && IndicesWhere(i + 1, KeptAt(nodes)) == IndicesWhere(i, KeptAt(nodes)) + (if keep then [i] else [])
  {
    assert nodes[..i + 1][..i] == nodes[..i];
    KeptTextsLast(nodes[..i + 1]);
    IndicesWhereNext(i, KeptAt(nodes));
    assert KeptAt(nodes)(i) == Kept(nodes[i]);
  }

  /** The extraction loop of the scrape: the elements to highlight and their own
      texts, which line up position by position (`KeptTextsAtIndices`). */
  method Extract(page: Page) returns (elements: seq<nat>, texts: seq<string>)
    ensures elements == IndicesWhere(|page.nodes|, KeptAt(page.nodes))
    ensures texts == KeptTexts(page.nodes)
  {
    elements := [];
    texts := [];
    var i := 0;
    while i < |page.nodes|
      invariant 0 <= i <= |page.nodes|
      invariant elements == IndicesWhere(i, KeptAt(page.nodes))
      invariant texts == KeptTexts(page.nodes[..i])
    {
      elements, texts := ExtractOne(page, i, elements, texts);
      i := i + 1;
    }
    assert page.nodes[..i] == page.nodes;
  }

  /** One turn of the extraction loop: the element at `i` is kept when it has a
      text tag and more than five characters of its own text. */
  method ExtractOne(page: Page, i: nat, elements: seq<nat>, texts: seq<string>)
    returns (elements': seq<nat>, texts': seq<string>)
    requires i < |page.nodes|
    requires elements == IndicesWhere(i, KeptAt(page.nodes))
    requires texts == KeptTexts(page.nodes[..i])
    ensures elements' == IndicesWhere(i + 1, KeptAt(page.nodes))
    ensures texts' == KeptTexts(page.nodes[..i + 1])
  {
    elements', texts' := elements, texts;
    var element := page.nodes[i];
    ExtractStep(page.nodes, i);
    if IsTextTag(element.tag) {
      var ownText := OwnText(element);
      if |ownText| > 5 {
        elements' := elements + [i];
        texts' := texts + [ownText];
      }
    }
  }

  // ---------------------------------------------------------------------------
  // Alert tooltips

  /** The style of nodes whose appearance does not matter here. */
  const PlainStyle: Style := Style(None, "", "", "", None, "", "", "", None, None, None, None, None)

  /** An element appended by the extension: only its tag, class, parent, children
      and text matter to the scrape. */
  function AddedElement(tag: string, className: string, parent: Option<nat>, children: seq<ChildNode>, text: string): Node {
    Node(tag, "", className, None, "", false, false, parent, children, text, PlainStyle,
         0, 0, 0, None, Rect(0 as real, 0 as real, 0 as real))
  }

  const PrecheckedType: string := "Pre-checked Option"

  /** The caption of an alert tooltip: `<strong>{type} Detected</strong>`. */
  function Caption(patternType: string): string {
    patternType + " Detected"
  }

  /** What raising an alert of type `patternType` appends to the end of the body,
      the first node landing at index `base`: a tooltip `div` holding a `strong`
      caption and, for a pre-checked option, an empty overlay `div`. */
  function AlertNodes(patternType: string, base: nat): (r: seq<Node>)
    ensures |r| == if patternType == PrecheckedType then 3 else 2
  {
    var caption := Caption(patternType);
    var tooltip := AddedElement("DIV", "insite-alert-tooltip", None, [ElementChild(base + 1)], caption);
    var strong := AddedElement("STRONG", "", Some(base), [TextChild(caption)], caption);
    if patternType == PrecheckedType then
      [tooltip, strong, AddedElement("DIV", "insite-warning-overlay", None, [], "")]
    else [tooltip, strong]
  }

  /** The page's nodes after the detectors raised alerts of the given types, in
      order. */
  function WithAlerts(nodes: seq<Node>, types: seq<string>): (r: seq<Node>)
    ensures |r| >= |nodes| && r[..|nodes|] == nodes
  {
    if |types| == 0 then nodes
    else AppendAlert(WithAlerts(nodes, types[..|types| - 1]), types[|types| - 1])
  }

  /** The nodes after one more alert of type `t`. */
  function AppendAlert(nodes: seq<Node>, t: string): (r: seq<Node>)
    ensures |r| > |nodes| && r[..|nodes|] == nodes
  {
    nodes + AlertNodes(t, |nodes|)
  }

  /** One more alert adds its caption to the scraped texts. */
  lemma AppendAlertTexts(nodes: seq<Node>, t: string)
    requires IsAlertType(t)
    ensures KeptTexts(AppendAlert(nodes, t)) == KeptTexts(nodes) + [Caption(t)]
  {
    KeptTextsAppend(nodes, AlertNodes(t, |nodes|));
    AlertNodesTexts(t, |nodes|);
  }

  /** The captions of the given alert types. */
  function Captions(types: seq<string>): (r: seq<string>)
    ensures |r| == |types|
    ensures forall k :: 0 <= k < |types| ==> r[k] == Caption(types[k])
  {
    seq(|types|, k requires 0 <= k < |types| => Caption(types[k]))
  }

  /** The captions of a list are those of all but its last entry, then the last. */
  lemma CaptionsAppend(types: seq<string>)
    requires |types| > 0
    ensures Captions(types) == Captions(types[..|types| - 1]) + [Caption(types[|types| - 1])]
  {
  }

  /** An alert type names a pattern: it is not empty and does not start with white
      space (true of "Hidden Button", "Pre-checked Option" and "Forced Continuity"). */
  predicate IsAlertType(t: string) {
    |t| > 0 && !IsSpace(t[0])
  }

  /** The only text the scrape finds in one alert's nodes is the caption. */
  lemma AlertNodesTexts(t: string, base: nat)
    requires IsAlertType(t)
    ensures KeptTexts(AlertNodes(t, base)) == [Caption(t)]
  {
    var caption := Caption(t);
    assert caption[|caption| - 1] == 'd';
    TrimUnpadded(caption);
    var nodes := AlertNodes(t, base);
    assert OwnText(nodes[0]) == "";
    assert OwnText(nodes[1]) == caption;
    assert KeptTexts([nodes[0]]) == [] by {
      assert [nodes[0]][..0] == [];
    }
    assert KeptTexts([nodes[1]]) == [caption] by {
      assert IsTextTag("STRONG");
      assert [nodes[1]][..0] == [];
    }
    KeptTextsAppend([nodes[0]], [nodes[1]]);
    assert [nodes[0]] + [nodes[1]] == nodes[..2];
    if t == PrecheckedType {
      assert OwnText(nodes[2]) == "";
      assert KeptTexts([nodes[2]]) == [] by {
        assert [nodes[2]][..0] == [];
      }
      KeptTextsAppend(nodes[..2], [nodes[2]]);
      assert nodes[..2] + [nodes[2]] == nodes;
    } else {
      assert nodes[..2] == nodes;
    }
  }

  /** As written, the scrape sends the page's own texts followed by the caption of
      every alert the detectors just raised. */
  lemma {:induction false} AlertCaptionsAreSent(nodes: seq<Node>, types: seq<string>)
    requires forall k :: 0 <= k < |types| ==> IsAlertType(types[k])
    ensures KeptTexts(WithAlerts(nodes, types)) == KeptTexts(nodes) + Captions(types)
  {
    if |types| > 0 {
      var init := types[..|types| - 1];
      var t := types[|types| - 1];
      AlertCaptionsAreSent(nodes, init);
      assert WithAlerts(nodes, types) == AppendAlert(WithAlerts(nodes, init), t);
      AppendAlertTexts(WithAlerts(nodes, init), t);
      CaptionsAppend(types);
    }
  }

  // ---------------------------------------------------------------------------
  // The scrape restricted to the page's own content

  /** The element at `i` is one of the extension's alert nodes or lies inside one. */
  predicate InAlert(nodes: seq<Node>, i: nat)
    decreases i
  {
    && i < |nodes|
    && (|| nodes[i].className == "insite-alert-tooltip"
        || nodes[i].className == "insite-warning-overlay"
        || (nodes[i].parent.Some? && nodes[i].parent.value < i && InAlert(nodes, nodes[i].parent.value)))
  }

  /** Whether a node is inside an alert depends only on the nodes before it. */
  lemma {:induction false} InAlertPrefix(a: seq<Node>, b: seq<Node>, i: nat)
    requires i < |a|
    ensures InAlert(a + b, i) == InAlert(a, i)
    decreases i
  {
    assert (a + b)[i] == a[i];
    if a[i].parent.Some? && a[i].parent.value < i {
      InAlertPrefix(a, b, a[i].parent.value);
    }
  }

  /** The own texts of the first `n` nodes at the positions `sel` selects, in
      document order. */
  function TextsAt(nodes: seq<Node>, n: nat, sel: nat -> bool): (r: seq<string>)
    requires n <= |nodes|
    ensures |r| <= n
  {
    if n == 0 then []
    else
      var rest := TextsAt(nodes, n - 1, sel);
      if sel(n - 1) then rest + [OwnText(nodes[n - 1])] else rest
  }

  /** Same nodes and same selection below `n`, same texts. */
  lemma {:induction false} TextsAtAgree(a: seq<Node>, b: seq<Node>, n: nat, p: nat -> bool, q: nat -> bool)
    requires n <= |a| && n <= |b|
    requires forall i :: 0 <= i < n ==> a[i] == b[i]
    requires forall i: nat :: i < n ==> p(i) == q(i)
    ensures TextsAt(a, n, p) == TextsAt(b, n, q)
  {
    if n > 0 {
      TextsAtAgree(a, b, n - 1, p, q);
    }
  }

  /** Positions that are not selected add no text. */
  lemma {:induction false} TextsAtSkip(nodes: seq<Node>, lo: nat, n: nat, sel: nat -> bool)
    requires lo <= n <= |nodes|
    requires forall j: nat :: lo <= j < n ==> !sel(j)
    ensures TextsAt(nodes, n, sel) == TextsAt(nodes, lo, sel)
  {
    if n > lo {
      TextsAtSkip(nodes, lo, n - 1, sel);
    }
  }

  /** Selecting by position what `keep` selects by node is selecting by node. */
  lemma {:induction false} TextsAtByNode(nodes: seq<Node>, n: nat, sel: nat -> bool, keep: Node -> bool)
    requires n <= |nodes|
    requires forall i: nat :: i < n ==> sel(i) == keep(nodes[i])
    ensures TextsAt(nodes, n, sel) == TextsWhere(nodes[..n], keep)
  {
    if n > 0 {
      TextsAtByNode(nodes, n - 1, sel, keep);
      assert nodes[..n][..n - 1] == nodes[..n - 1];
    }
  }

  /** The positions of kept nodes that are not part of an alert. */
  function PageAt(nodes: seq<Node>): nat -> bool {
    (i: nat) => i < |nodes| && Kept(nodes[i]) && !InAlert(nodes, i)
  }

  /** The texts of the first `n` nodes that are kept and not part of an alert. */
  function PageTexts(nodes: seq<Node>, n: nat): (r: seq<string>)
    requires n <= |nodes|
    ensures |r| <= n
  {
    TextsAt(nodes, n, PageAt(nodes))
  }

  /** Texts of a prefix are unaffected by nodes appended after it. */
  lemma PageTextsPrefix(a: seq<Node>, b: seq<Node>, n: nat)
    requires n <= |a|
    ensures PageTexts(a + b, n) == PageTexts(a, n)
  {
    forall i: nat | i < n
      ensures PageAt(a + b)(i) == PageAt(a)(i)
    {
      InAlertPrefix(a, b, i);
      assert (a + b)[i] == a[i];
    }
    TextsAtAgree(a + b, a, n, PageAt(a + b), PageAt(a));
  }

  /** Nodes that all belong to alerts add no text. */
  lemma PageTextsSkipAlerts(nodes: seq<Node>, lo: nat, n: nat)
    requires lo <= n <= |nodes|
    requires forall j :: lo <= j < |nodes| ==> InAlert(nodes, j)
    ensures PageTexts(nodes, n) == PageTexts(nodes, lo)
  {
    TextsAtSkip(nodes, lo, n, PageAt(nodes));
  }

  /** On a page without alert nodes, the restricted scrape is the scrape. */
  lemma PageTextsWithoutAlerts(nodes: seq<Node>, n: nat)
    requires n <= |nodes|
    requires forall j :: 0 <= j < |nodes| ==> !InAlert(nodes, j)
    ensures PageTexts(nodes, n) == KeptTexts(nodes[..n])
  {
    TextsAtByNode(nodes, n, PageAt(nodes), Kept);
  }

  /** Every node an alert appends belongs to that alert. */
  lemma AlertNodesInAlert(before: seq<Node>, t: string)
    ensures forall j :: |before| <= j < |before + AlertNodes(t, |before|)| ==>
      InAlert(before + AlertNodes(t, |before|), j)
  {
    var all := before + AlertNodes(t, |before|);
    var base := |before|;
    assert InAlert(all, base);
    assert all[base + 1].parent == Some(base);
  }

  /** The corrected scrape sends the page's own texts and nothing of the alerts,
      however many alerts were raised. */
  lemma {:induction false} AlertsAddNoPageText(nodes: seq<Node>, types: seq<string>)
    requires forall j :: 0 <= j < |nodes| ==> !InAlert(nodes, j)
    ensures PageTexts(WithAlerts(nodes, types), |WithAlerts(nodes, types)|) == KeptTexts(nodes)
  {
    if |types| == 0 {
      PageTextsWithoutAlerts(nodes, |nodes|);
      assert nodes[..|nodes|] == nodes;
    } else {
      var init := types[..|types| - 1];
      var before := WithAlerts(nodes, init);
      var added := AlertNodes(types[|types| - 1], |before|);
      assert WithAlerts(nodes, types) == before + added;
      AlertsAddNoPageText(nodes, init);
      AlertNodesInAlert(before, types[|types| - 1]);
      PageTextsSkipAlerts(before + added, |before|, |before + added|);
      PageTextsPrefix(before, added, |before|);
    }
  }
}

=== FILE: gamification.dfy ===
/** The scorekeeper behind the extension's points, levels, achievements and
    day streaks (`GamificationSystem`), as pure state transitions. Storage
    (`loadData`/`saveData`) is left out: a state is a value. */
module Gamification {
  import opened Common

  /** Experience at which each level is reached: level `k + 1` needs
      `LevelThresholds[k]`. Its length is the highest level. */
  const LevelThresholds: seq<int> :=
    [0, 100, 250, 450, 700, 1000, 1350, 1750, 2200, 2700, 3250, 3850, 4500,
     5200, 5950, 6750, 7600, 8500, 9450, 10450]

  const MaxLevel: nat := 20

  /** The threshold table is strictly increasing and starts at 0. */
  lemma ThresholdsIncreasing()
    ensures |LevelThresholds| == MaxLevel
    ensures LevelThresholds[0] == 0
    ensures forall i, j :: 0 <= i < j < MaxLevel ==> LevelThresholds[i] < LevelThresholds[j]
  {
  }

  datatype Stat = SitesAnalyzed | PatternsFound | HighRiskSites | ScreenshotsTaken | StreakDays

  datatype AchievementId =
    | FirstAnalysis | PatternHunter | RiskDetector
    | Analyst | Investigator | Guardian
    | StreakStarter | Dedicated | Photographer

  /** The achievement table in declaration order, the order `checkAchievements` visits it. */
  const Catalogue: seq<AchievementId> :=
    [FirstAnalysis, PatternHunter, RiskDetector, Analyst, Investigator, Guardian,
     StreakStarter, Dedicated, Photographer]

  /** Position of an achievement in the table. */
  function Rank(a: AchievementId): (k: nat)
    ensures k < |Catalogue| && Catalogue[k] == a
  {
    match a
    case FirstAnalysis => 0
    case PatternHunter => 1
    case RiskDetector => 2
    case Analyst => 3
    case Investigator => 4
    case Guardian => 5
    case StreakStarter => 6
    case Dedicated => 7
    case Photographer => 8
  }

  lemma RankOfCatalogue()
    ensures forall k :: 0 <= k < |Catalogue| ==> Rank(Catalogue[k]) == k
  {
  }

  /** Each achievement requires one statistic to reach one amount. */
  function Requirement(a: AchievementId): (Stat, nat) {
    match a
    case FirstAnalysis => (SitesAnalyzed, 1)
    case PatternHunter => (PatternsFound, 1)
    case RiskDetector => (HighRiskSites, 1)
    case Analyst => (SitesAnalyzed, 10)
    case Investigator => (PatternsFound, 50)
    case Guardian => (HighRiskSites, 5)
    case StreakStarter => (StreakDays, 3)
    case Dedicated => (StreakDays, 7)
    case Photographer => (ScreenshotsTaken, 1)
  }

  /** The points an achievement advertises. Unlocking never credits them. */
  function Reward(a: AchievementId): nat {
    match a
    case FirstAnalysis => 10
    case PatternHunter => 25
    case RiskDetector => 50
    case Analyst => 100
    case Investigator => 200
    case Guardian => 150
    case StreakStarter => 75
    case Dedicated => 150
    case Photographer => 30
  }

  /** `lastActiveDate` is a day number rather than a date string. */
  datatype Stats = Stats(
    sitesAnalyzed: nat,
    patternsFound: nat,
    highRiskSites: nat,
    screenshotsTaken: nat,
    streakDays: nat,
    lastActiveDate: Option<int>,
    uniqueSites: set<string>)

  /** `unlocked` keeps the insertion order of the source's `Set`. */
  datatype State = State(points: int, level: nat, experience: int, stats: Stats, unlocked: seq<AchievementId>)

  const InitialStats := Stats(0, 0, 0, 0, 0, None, {})
  const Initial := State(0, 1, 0, InitialStats, [])

  function StatValue(stats: Stats, s: Stat): nat {
    match s
    case SitesAnalyzed => stats.sitesAnalyzed
    case PatternsFound => stats.patternsFound
    case HighRiskSites => stats.highRiskSites
    case ScreenshotsTaken => stats.screenshotsTaken
    case StreakDays => stats.streakDays
  }

  /** The achievement's required statistic has reached the required amount. */
  predicate Met(stats: Stats, a: AchievementId) {
    StatValue(stats, Requirement(a).0) >= Requirement(a).1
  }

  // ---------------------------------------------------------------- levels

  /** `checkLevelUp`: climb while the next level's threshold is reached. The level
      never drops, never passes the table's end, and stops at the first threshold
      not yet reached, every threshold it passes having been reached. */
  function CheckLevelUp(level: nat, experience: int): (r: nat)
    ensures level <= r
    ensures level <= MaxLevel ==> r <= MaxLevel
    ensures r > level ==> r <= MaxLevel
    ensures r < MaxLevel ==> experience < LevelThresholds[r]
    ensures forall k :: level <= k < r ==> LevelThresholds[k] <= experience
    decreases MaxLevel - level
  {
    if level < MaxLevel && experience >= LevelThresholds[level] then
      CheckLevelUp(level + 1, experience)
    else
      level
  }

  /** How many of the first `n` thresholds `experience` has reached. */
  function ReachedCount(experience: int, n: nat): (c: nat)
    requires n <= MaxLevel
    ensures c <= n
  {
    if n == 0 then 0
    else ReachedCount(experience, n - 1) + (if LevelThresholds[n - 1] <= experience then 1 else 0)
  }

  /** The level an amount of experience is worth: the number of thresholds reached. */
  function LevelFor(experience: int): nat {
    ReachedCount(experience, MaxLevel)
  }

  lemma {:induction false} ReachedCountPrefix(experience: int, m: nat, n: nat)
    requires m <= MaxLevel && n <= MaxLevel
    requires forall k :: 0 <= k < m ==> LevelThresholds[k] <= experience
    requires m == MaxLevel || experience < LevelThresholds[m]
    ensures ReachedCount(experience, n) == if n <= m then n else m
  {
    if n > 0 {
      ReachedCountPrefix(experience, m, n - 1);
      if n > m {
        ThresholdsIncreasing();
        assert LevelThresholds[m] <= LevelThresholds[n - 1];
      }
    }
  }

  /** When the reached thresholds are exactly the first `m`, the level is `m`. */
  lemma LevelForIs(experience: int, m: nat)
    requires m <= MaxLevel
    requires forall k :: 0 <= k < m ==> LevelThresholds[k] <= experience
    requires m == MaxLevel || experience < LevelThresholds[m]
    ensures LevelFor(experience) == m
  {
    ReachedCountPrefix(experience, m, MaxLevel);
  }

  /** Every threshold below `LevelFor(experience)` has been reached, the next one
      (if any) has not, and any non-negative experience is worth level 1 or more. */
  lemma LevelForCharacterised(experience: int)
    ensures LevelFor(experience) <= MaxLevel
    ensures forall k :: 0 <= k < LevelFor(experience) ==> LevelThresholds[k] <= experience
    ensures LevelFor(experience) == MaxLevel || experience < LevelThresholds[LevelFor(experience)]
    ensures experience >= 0 ==> LevelFor(experience) >= 1
  {
    var r := CheckLevelUp(0, experience);
    LevelForIs(experience, r);
    ThresholdsIncreasing();
  }

  /** Starting from the level its old experience was worth, `checkLevelUp` after a
      gain lands exactly on the level the new experience is worth. */
  lemma LevelUpMatchesLevelFor(level: nat, before: int, after: int)
    requires level == LevelFor(before)
    requires before <= after
    ensures CheckLevelUp(level, after) == LevelFor(after)
  {
    LevelForCharacterised(before);
    var r := CheckLevelUp(level, after);
    LevelForIs(after, r);
  }

  /** `getExperienceForNextLevel`; absent where the source reads `thresholds[-1]`. */
  function ExperienceForNextLevel(level: nat): Option<int> {
    if level >= MaxLevel then Some(LevelThresholds[MaxLevel - 1])
    else if level >= 1 then Some(LevelThresholds[level - 1])
    else None
  }

  function Clamp(x: real): real {
    if x < 0.0 then 0.0 else if x > 100.0 then 100.0 else x
  }

  /** `getLevelProgress` in exact arithmetic; absent where the source yields NaN. */
  function LevelProgress(level: nat, experience: int): Option<real> {
    var current := if 1 <= level <= MaxLevel then LevelThresholds[level - 1] else 0;
    match ExperienceForNextLevel(level)
    case None => None
    case Some(next) =>
      var needed := next - current;
      if needed == 0 then Some(100.0)
      else Some(Clamp((experience - current) as real / needed as real * 100.0))
  }

  /** `getExperienceForNextLevel` names the current level's own threshold, so the
      progress bar is full at every level 1..20 whatever the experience. */
  lemma ProgressAlwaysFull(level: nat, experience: int)
    requires 1 <= level <= MaxLevel
    ensures ExperienceForNextLevel(level) == Some(LevelThresholds[level - 1]) || level == MaxLevel
    ensures LevelProgress(level, experience) == Some(100.0)
  {
  }

  /** The threshold of the level after `level`, the last one at the top. */
  function NextLevelThreshold(level: nat): (t: int)
    requires 1 <= level <= MaxLevel
    ensures level < MaxLevel ==> t == LevelThresholds[level]
  {
    if level >= MaxLevel then LevelThresholds[MaxLevel - 1] else LevelThresholds[level]
  }

  /** Level progress as evidently intended: the share of the way from the current
      level's threshold to the next one. It stays within 0..100, is below 100
      while the next threshold is unreached, and is full only at the top level. */
  function IntendedLevelProgress(level: nat, experience: int): (p: real)
    requires 1 <= level <= MaxLevel
    ensures 0.0 <= p <= 100.0
    ensures level == MaxLevel ==> p == 100.0
    ensures level < MaxLevel && experience < LevelThresholds[level] ==> p < 100.0
    ensures level < MaxLevel && experience <= LevelThresholds[level - 1] ==> p == 0.0
  {
    ThresholdsIncreasing();
    var current := LevelThresholds[level - 1];
    var needed := NextLevelThreshold(level) - current;
    if needed == 0 then 100.0
    else
      var share := (experience - current) as real / needed as real;
      assert experience < NextLevelThreshold(level) ==> share < 1.0;
      Clamp(share * 100.0)
  }

  /** Half way from level 1 to level 2 reads as 50, where the source shows 100. */
  lemma IntendedProgressExample()
    ensures IntendedLevelProgress(1, 50) == 50.0
    ensures LevelProgress(1, 50) == Some(100.0)
  {
  }

  // ---------------------------------------------------------------- points

  /** `addPoints`: points and experience both rise by exactly `p`, then the level
      climbs through the thresholds the new experience has reached and stops at
      the first it has not; statistics and achievements are untouched. A level
      that matched the old experience matches the new one after a gain. */
  function AddPoints(s: State, p: int): (r: State)
    ensures r.points == s.points + p
    ensures r.experience == s.experience + p
    ensures r.stats == s.stats && r.unlocked == s.unlocked
    ensures s.level <= r.level
    ensures s.level <= MaxLevel ==> r.level <= MaxLevel
    ensures r.level < MaxLevel ==> r.experience < LevelThresholds[r.level]
    ensures forall k :: s.level <= k < r.level ==> k < MaxLevel && LevelThresholds[k] <= r.experience
    ensures s.level == LevelFor(s.experience) && p >= 0 ==> r.level == LevelFor(r.experience)
  {
    var e := s.experience + p;
    if s.level == LevelFor(s.experience) && p >= 0 then
      LevelUpMatchesLevelFor(s.level, s.experience, e);
      s.(points := s.points + p, experience := e, level := CheckLevelUp(s.level, e))
    else
      s.(points := s.points + p, experience := e, level := CheckLevelUp(s.level, e))
  }

  // ---------------------------------------------------------------- achievements

  /** The achievements among the first `n` of the table that are not unlocked yet
      and whose requirement is met, in table order. */
  function NewlyMet(stats: Stats, unlocked: seq<AchievementId>, n: nat): (r: seq<AchievementId>)
    requires n <= |Catalogue|
    ensures forall a :: a in r <==> Rank(a) < n && a !in unlocked && Met(stats, a)
    ensures forall i, j :: 0 <= i < j < |r| ==> Rank(r[i]) < Rank(r[j])
    ensures forall i :: 0 <= i < |r| ==> Rank(r[i]) < n
    ensures (forall a :: a in unlocked || !Met(stats, a)) ==> r == []
  {
    if n == 0 then []
    else
      RankOfCatalogue();
      var rest := NewlyMet(stats, unlocked, n - 1);
      var a := Catalogue[n - 1];
      if a !in unlocked && Met(stats, a) then rest + [a] else rest
  }

  lemma RankOrderedHasNoDuplicates(s: seq<AchievementId>)
    requires forall i, j :: 0 <= i < j < |s| ==> Rank(s[i]) < Rank(s[j])
    ensures NoDuplicates(s)
  {
  }

  /** `checkAchievements`: unlocks exactly the locked achievements whose requirement
      is met, appending them in table order without repeats, and changes nothing
      else (in particular, no reward points are credited). */
  function CheckAchievements(s: State): (r: (State, seq<AchievementId>))
    ensures r.0 == s.(unlocked := s.unlocked + r.1)
    ensures forall a :: a in r.1 <==> a !in s.unlocked && Met(s.stats, a)
    ensures forall i, j :: 0 <= i < j < |r.1| ==> Rank(r.1[i]) < Rank(r.1[j])
    ensures NoDuplicates(r.1)
    ensures (forall a :: a in s.unlocked || !Met(s.stats, a)) ==> r.1 == []
  {
    var newly := NewlyMet(s.stats, s.unlocked, |Catalogue|);
    RankOrderedHasNoDuplicates(newly);
    (s.(unlocked := s.unlocked + newly), newly)
  }

  /** With no change to the statistics, a second check unlocks nothing. */
  lemma CheckAchievementsTwice(s: State)
    ensures CheckAchievements(CheckAchievements(s).0).1 == []
    ensures CheckAchievements(CheckAchievements(s).0).0 == CheckAchievements(s).0
  {
  }

  /** `getAvailableAchievements`: the locked achievements, in table order. */
  function AvailableAchievements(s: State): (r: seq<AchievementId>)
    ensures forall a :: a in r <==> a !in s.unlocked
    ensures forall i, j :: 0 <= i < j < |r| ==> Rank(r[i]) < Rank(r[j])
  {
    Available(s.unlocked, |Catalogue|)
  }

  function Available(unlocked: seq<AchievementId>, n: nat): (r: seq<AchievementId>)
    requires n <= |Catalogue|
    ensures forall a :: a in r <==> Rank(a) < n && a !in unlocked
    ensures forall i, j :: 0 <= i < j < |r| ==> Rank(r[i]) < Rank(r[j])
    ensures forall i :: 0 <= i < |r| ==> Rank(r[i]) < n
  {
    if n == 0 then []
    else
      RankOfCatalogue();
      var rest := Available(unlocked, n - 1);
      var a := Catalogue[n - 1];
      if a !in unlocked then rest + [a] else rest
  }

  // ---------------------------------------------------------------- streak

  /** `updateStreak` with day numbers: a first visit starts a streak of 1, a second
      visit on the same day changes nothing, a visit the day after extends the
      streak, and any other gap restarts it at 1. Afterwards today is always the
      last active day. */
  function UpdateStreak(stats: Stats, today: int): (r: Stats)
    ensures r.lastActiveDate == Some(today)
    ensures r == stats.(streakDays := r.streakDays, lastActiveDate := Some(today))
    ensures stats.lastActiveDate == Some(today) ==> r == stats
    ensures stats.lastActiveDate == Some(today - 1) ==> r.streakDays == stats.streakDays + 1
    ensures stats.lastActiveDate != Some(today) && stats.lastActiveDate != Some(today - 1) ==> r.streakDays == 1
  {
    match stats.lastActiveDate
    case None => stats.(streakDays := 1, lastActiveDate := Some(today))
    case Some(last) =>
      if last == today then stats
      else if last == today - 1 then stats.(streakDays := stats.streakDays + 1, lastActiveDate := Some(today))
      else stats.(streakDays := 1, lastActiveDate := Some(today))
  }

  /** The days `first`, `first + 1`, ..., `first + n - 1`. */
  function ConsecutiveDays(first: int, n: nat): (days: seq<int>)
    ensures |days| == n
  {
    if n == 0 then [] else ConsecutiveDays(first, n - 1) + [first + n - 1]
  }

  /** The statistics after being active on each of `days`, in order. */
  function ActiveOn(stats: Stats, days: seq<int>): Stats {
    if |days| == 0 then stats else UpdateStreak(ActiveOn(stats, days[..|days| - 1]), days[|days| - 1])
  }

  /** Being active on `n` consecutive days from a fresh start gives a streak of `n`. */
  lemma {:induction false} StreakCountsConsecutiveDays(stats: Stats, first: int, n: nat)
    requires stats.lastActiveDate == None
    requires n >= 1
    ensures ActiveOn(stats, ConsecutiveDays(first, n)).streakDays == n
    ensures ActiveOn(stats, ConsecutiveDays(first, n)).lastActiveDate == Some(first + n - 1)
  {
    var days := ConsecutiveDays(first, n);
    assert days[..|days| - 1] == ConsecutiveDays(first, n - 1);
    if n > 1 {
      StreakCountsConsecutiveDays(stats, first, n - 1);
    }
  }

  // ---------------------------------------------------------------- events

  /** What `onSiteAnalyzed` reports back. */
  datatype SiteResult = SiteResult(pointsEarned: nat, newAchievements: seq<AchievementId>, newLevel: nat, isNewSite: bool)

  /** `onSiteAnalyzed` with the URL's lower-cased host name (empty when there is no
      URL or it does not parse) and today's day number. */
  function OnSiteAnalyzed(s: State, patternCount: nat, riskLevel: string, domain: string, today: int): (r: (State, SiteResult))
    ensures r.1.pointsEarned == 5 + 2 * patternCount
    ensures r.0.points == s.points + 5 + 2 * patternCount
    ensures r.0.experience == s.experience + 5 + 2 * patternCount
    ensures r.1.isNewSite <==> domain != "" && domain !in s.stats.uniqueSites
    ensures r.0.stats.uniqueSites == if r.1.isNewSite then s.stats.uniqueSites + {domain} else s.stats.uniqueSites
    ensures r.0.stats.sitesAnalyzed == s.stats.sitesAnalyzed + if r.1.isNewSite then 1 else 0
    ensures r.0.stats.patternsFound == s.stats.patternsFound + patternCount
    ensures r.0.stats.highRiskSites == s.stats.highRiskSites + if riskLevel == "High" then 1 else 0
    ensures r.0.stats.screenshotsTaken == s.stats.screenshotsTaken
    ensures r.0.stats.lastActiveDate == Some(today)
    ensures r.0.stats.streakDays == UpdateStreak(s.stats, today).streakDays
    ensures r.0.unlocked == s.unlocked + r.1.newAchievements
    ensures forall a :: a in r.1.newAchievements <==> a !in s.unlocked && Met(r.0.stats, a)
    ensures s.level <= r.0.level && r.1.newLevel == r.0.level
  {
    var s1 := s.(stats := UpdateStreak(s.stats, today));
    var isNewSite := domain != "" && domain !in s1.stats.uniqueSites;
    var s2 :=
      if isNewSite then
        s1.(stats := s1.stats.(uniqueSites := s1.stats.uniqueSites + {domain},
                               sitesAnalyzed := s1.stats.sitesAnalyzed + 1))
      else s1;
    var earned := 5 + 2 * patternCount;
    var s3 := AddPoints(s2, earned);
    var s4 := s3.(stats := s3.stats.(
      patternsFound := s3.stats.patternsFound + patternCount,
      highRiskSites := s3.stats.highRiskSites + if riskLevel == "High" then 1 else 0));
    var (s5, newly) := CheckAchievements(s4);
    (s5, SiteResult(earned, newly, s5.level, isNewSite))
  }

  /** What `onScreenshotTaken` reports back. */
  datatype ScreenshotResult = ScreenshotResult(pointsEarned: nat, newAchievements: seq<AchievementId>)

  /** `onScreenshotTaken`: one more screenshot and exactly 10 points. */
  function OnScreenshotTaken(s: State): (r: (State, ScreenshotResult))
    ensures r.1.pointsEarned == 10
    ensures r.0.points == s.points + 10 && r.0.experience == s.experience + 10
    ensures r.0.stats == s.stats.(screenshotsTaken := s.stats.screenshotsTaken + 1)
    ensures r.0.unlocked == s.unlocked + r.1.newAchievements
    ensures forall a :: a in r.1.newAchievements <==> a !in s.unlocked && Met(r.0.stats, a)
    ensures s.level <= r.0.level
  {
    var s1 := s.(stats := s.stats.(screenshotsTaken := s.stats.screenshotsTaken + 1));
    var s2 := AddPoints(s1, 10);
    var (s3, newly) := CheckAchievements(s2);
    (s3, ScreenshotResult(10, newly))
  }

  // ---------------------------------------------------------------- invariant

  /** The bookkeeping every reachable state keeps: experience and points move
      together, the level is what the experience is worth, no achievement is
      unlocked twice, and every unique site was counted once. */
  predicate Valid(s: State) {
    && s.experience >= 0
    && s.points == s.experience
    && s.level == LevelFor(s.experience)
    && NoDuplicates(s.unlocked)
    && s.stats.sitesAnalyzed == |s.stats.uniqueSites|
  }

  lemma ValidLevelBounds(s: State)
    requires Valid(s)
    ensures 1 <= s.level <= MaxLevel
    ensures s.level < MaxLevel ==> s.experience < LevelThresholds[s.level]
  {
    LevelForCharacterised(s.experience);
  }

  lemma InitialValid()
    ensures Valid(Initial)
  {
    LevelForIs(0, 1);
  }

  lemma AppendKeepsNoDuplicates(old_: seq<AchievementId>, newly: seq<AchievementId>)
    requires NoDuplicates(old_) && NoDuplicates(newly)
    requires forall a :: a in newly ==> a !in old_
    ensures NoDuplicates(old_ + newly)
  {
    var s := old_ + newly;
    forall i, j | 0 <= i < j < |s|
      ensures s[i] != s[j]
    {
      if i < |old_| && j >= |old_| {
        assert s[j] in newly;
      }
    }
  }

  /** Analysing a site keeps a valid state valid. */
  lemma OnSiteAnalyzedPreservesValid(s: State, patternCount: nat, riskLevel: string, domain: string, today: int)
    requires Valid(s)
    ensures Valid(OnSiteAnalyzed(s, patternCount, riskLevel, domain, today).0)
  {
    var r := OnSiteAnalyzed(s, patternCount, riskLevel, domain, today);
    LevelUpMatchesLevelFor(s.level, s.experience, r.0.experience);
    AppendKeepsNoDuplicates(s.unlocked, r.1.newAchievements);
    assert r.1.isNewSite ==> |s.stats.uniqueSites + {domain}| == |s.stats.uniqueSites| + 1;
  }

  /** Taking a screenshot keeps a valid state valid. */
  lemma OnScreenshotTakenPreservesValid(s: State)
    requires Valid(s)
    ensures Valid(OnScreenshotTaken(s).0)
  {
    var r := OnScreenshotTaken(s);
    LevelUpMatchesLevelFor(s.level, s.experience, r.0.experience);
    AppendKeepsNoDuplicates(s.unlocked, r.1.newAchievements);
  }

  /** Re-analysing keeps the gap between the site counter and the number of unique
      sites, whatever state the counters started in. */
  lemma SiteCounterTracksUniqueSites(s: State, patternCount: nat, riskLevel: string, domain: string, today: int)
    ensures var r := OnSiteAnalyzed(s, patternCount, riskLevel, domain, today).0;
      r.stats.sitesAnalyzed - |r.stats.uniqueSites| == s.stats.sitesAnalyzed - |s.stats.uniqueSites|
  {
    var r := OnSiteAnalyzed(s, patternCount, riskLevel, domain, today);
    assert r.1.isNewSite ==> |s.stats.uniqueSites + {domain}| == |s.stats.uniqueSites| + 1;
  }

  /** Unlocked achievements are never lost: both events only append. */
  lemma UnlockedOnlyGrows(s: State, patternCount: nat, riskLevel: string, domain: string, today: int)
    ensures forall a :: a in s.unlocked ==> a in OnSiteAnalyzed(s, patternCount, riskLevel, domain, today).0.unlocked
    ensures forall a :: a in s.unlocked ==> a in OnScreenshotTaken(s).0.unlocked
  {
  }
}

=== FILE: popup.dfy ===
/** The popup's presentation decisions: the suggested-actions panel, the pattern
    breakdown, the recent-achievements strip and the check that a tab can be
    analysed. */
module Popup {
  import opened Common
  import opened Text
  import opened Decimal
  import opened Labels
  import Report

  // ---------------------------------------------------------------------------
  // Suggested actions

  /** A score as the popup holds it: `undefined`, a string (the placeholders
      "..." and "n/a", or a value read back from a data attribute), or a number. */
  datatype Score = Undefined | Str(s: string) | Num(n: int)

  /** The number JavaScript compares when it evaluates `score >= 80`: a number as it
      is; a string of decimal digits, surrounding white space allowed, by its value;
      a blank string as 0; anything else as NaN. */
  function NumericValue(score: Score): (v: Option<int>)
    ensures score.Num? ==> v == Some(score.n)
    ensures score.Str? && AllDigits(Trim(score.s)) && |Trim(score.s)| > 0 ==> v == Some(DigitsValue(Trim(score.s)))
    ensures score.Str? && |Trim(score.s)| == 0 ==> v == Some(0)
    ensures score.Str? && !AllDigits(Trim(score.s)) ==> v.None?
    ensures score.Undefined? ==> v.None?
  {
    match score
      case Undefined => None
      case Num(n) => Some(n)
      case Str(s) =>
        var t := Trim(s);
        if |t| == 0 then Some(0)
        else if AllDigits(t) then Some(DigitsValue(t))
        else None
  }

  /** The score reads as a number of at least 80. */
  predicate IsHighScore(score: Score) {
    NumericValue(score).Some? && NumericValue(score).value >= 80
  }

  /** The placeholders for which no suggestion is built. */
  predicate IsPlaceholder(score: Score) {
    score == Str("...") || score == Str("n/a") || score == Undefined
  }

  /** One block of the suggestions panel: positive feedback (the perfect-score text
      or the high-score text), the tip for one pattern, or the ethical alternatives
      to one service. Every block renders to non-empty HTML, so the panel's HTML is
      empty exactly when there is no block. */
  datatype Block = PositiveFeedback(perfect: bool) | Fix(pattern: string) | Alternatives(service: string)

  /** The patterns that have a tip, in the order of the tips table. */
  const FixPatterns: seq<string> :=
    ["Obstruction", "Urgency", "Scarcity", "Misdirection", "Social Proof", "Sneaking", "Forced Action"]

  /** The keys of the ethical-alternatives table, in table order. */
  const AlternativeKeys: seq<string> := ["netflix", "amazon"]

  /** A pattern-count entry as the popup receives it: a name and its count. */
  type Entry = (string, int)

  /** The tip blocks: one per entry whose name has a tip, in entry order, whatever
      the count. */
  function FixBlocks(entries: seq<Entry>): (r: seq<Block>)
    ensures |r| <= |entries|
    ensures forall k :: 0 <= k < |r| ==> r[k].Fix?
  {
    TipsFor(entries, FixPatterns)
  }

  /** One tip block per entry whose name is in `table`, in entry order. */
  function TipsFor(entries: seq<Entry>, table: seq<string>): (r: seq<Block>)
    ensures |r| <= |entries|
    ensures forall k :: 0 <= k < |r| ==> r[k].Fix?
  {
    if |entries| == 0 then []
    else
      var rest := TipsFor(entries[..|entries| - 1], table);
      var name := entries[|entries| - 1].0;
      if name in table then rest + [Fix(name)] else rest
  }

  /** The first table key the host name contains, if any. */
  function FirstAlternative(hostname: string, keys: seq<string>): (r: Option<string>)
    ensures r.Some? ==> r.value in keys && Contains(hostname, r.value)
    ensures r.None? <==> forall k :: 0 <= k < |keys| ==> !Contains(hostname, keys[k])
    ensures r.Some? ==>
      exists j :: 0 <= j < |keys| && keys[j] == r.value && forall i :: 0 <= i < j ==> !Contains(hostname, keys[i])
  {
    if |keys| == 0 then None
    else if Contains(hostname, keys[0]) then Some(keys[0])
    else
      var r := FirstAlternative(hostname, keys[1..]);
      assert forall k :: 0 < k < |keys| ==> keys[k] == keys[1..][k - 1];
      if r.Some? then
        var j :| 0 <= j < |keys[1..]| && keys[1..][j] == r.value
          && forall i :: 0 <= i < j ==> !Contains(hostname, keys[1..][i]);
        assert keys[j + 1] == r.value;
        r
      else r
  }

  /** The lower-cased host name of the URL, or "" without a URL. The URL parser is
      a parameter. */
  function Hostname(currentUrl: string, host: string -> string): string {
    if currentUrl == "" then "" else ToLower(host(currentUrl))
  }

  /** `generateSuggestedActions`: nothing for a placeholder score; otherwise the
      positive feedback for a high score, a tip per entry that has one, and the
      alternatives to the first service the host name mentions. */
  function SuggestedActions(entries: seq<Entry>, score: Score, currentUrl: string, host: string -> string): (r: seq<Block>)
  {
    if IsPlaceholder(score) then []
    else Feedback(score) + FixBlocks(entries) + AlternativesFor(Hostname(currentUrl, host))
  }

  /** The positive-feedback block, for a score of at least 80. */
  function Feedback(score: Score): (r: seq<Block>)
    ensures |r| <= 1 && forall k :: 0 <= k < |r| ==> r[k].PositiveFeedback?
  {
    if IsHighScore(score) then [PositiveFeedback(score == Num(100))] else []
  }

  /** The ethical-alternatives section for the first service the host name
      mentions. */
  function AlternativesFor(hostname: string): (r: seq<Block>)
    ensures |r| <= 1 && forall k :: 0 <= k < |r| ==> r[k].Alternatives?
  {
    match FirstAlternative(hostname, AlternativeKeys)
      case None => []
      case Some(key) => [Alternatives(key)]
  }

  /** The layout of a panel made of a feedback part, tips and an alternatives
      part. */
  lemma PanelShape(feedback: seq<Block>, fixes: seq<Block>, alternatives: seq<Block>)
    requires |feedback| <= 1 && forall k :: 0 <= k < |feedback| ==> feedback[k].PositiveFeedback?
    requires forall k :: 0 <= k < |fixes| ==> fixes[k].Fix?
    requires |alternatives| <= 1 && forall k :: 0 <= k < |alternatives| ==> alternatives[k].Alternatives?
    ensures var r := feedback + fixes + alternatives;
      && (|r| > 0 && r[0].PositiveFeedback? <==> |feedback| == 1)
      && (|feedback| == 1 ==> r[0] == feedback[0])
      && (forall k, k' :: 0 <= k < |r| && 0 <= k' < |r| && r[k].Alternatives? && r[k'].Alternatives? ==> k == k')
      && (|r| == 0 <==> |feedback| == 0 && |fixes| == 0 && |alternatives| == 0)
  {
    var r := feedback + fixes + alternatives;
    assert forall k :: |feedback| <= k < |feedback| + |fixes| ==> r[k] == fixes[k - |feedback|];
    assert forall k :: |feedback| + |fixes| <= k < |r| ==> r[k] == alternatives[k - |feedback| - |fixes|];
    if |feedback| == 0 && |fixes| > 0 {
      assert r[0] == fixes[0];
    }
  }

  /** The entries whose name is in `table`, as a filter over positions. */
  function HasTipAt(entries: seq<Entry>, table: seq<string>): nat -> bool {
    (i: nat) => i < |entries| && entries[i].0 in table
  }

  /** The tip blocks are the tips of the entries with a tip, taken in entry order. */
  lemma {:induction false} TipsForSpec(entries: seq<Entry>, table: seq<string>)
    ensures var idx := IndicesWhere(|entries|, HasTipAt(entries, table));
      |TipsFor(entries, table)| == |idx|
      && forall k :: 0 <= k < |idx| ==> idx[k] < |entries| && TipsFor(entries, table)[k] == Fix(entries[idx[k]].0)
  {
    var idx := IndicesWhere(|entries|, HasTipAt(entries, table));
    var tips := TipsFor(entries, table);
    if |entries| > 0 {
      var init := entries[..|entries| - 1];
      var last := entries[|entries| - 1];
      var initIdx := IndicesWhere(|init|, HasTipAt(init, table));
      var initTips := TipsFor(init, table);
      assert TipsAligned(entries, initIdx, initTips) by {
        TipsForSpec(init, table);
        assert TipsAligned(init, initIdx, initTips);
        TipsAlignedWiden(init, entries, initIdx, initTips);
      }
      assert IndicesWhere(|init|, HasTipAt(entries, table)) == initIdx by {
        SameFilter(|init|, HasTipAt(entries, table), HasTipAt(init, table));
      }
      IndicesWhereNext(|init|, HasTipAt(entries, table));
      if last.0 in table {
        assert HasTipAt(entries, table)(|init|);
        assert idx == initIdx + [|init|];
        assert tips == initTips + [Fix(last.0)];
        TipsAlignedSnoc(entries, initIdx, initTips, |init|);
      } else {
        assert !HasTipAt(entries, table)(|init|);
        assert idx == initIdx && tips == initTips;
      }
    }
    assert TipsAligned(entries, idx, tips);
  }

  /** The `k`-th tip block is the tip of the entry at position `idx[k]`. */
  predicate TipsAligned(entries: seq<Entry>, idx: seq<nat>, tips: seq<Block>) {
    |tips| == |idx| && forall k :: 0 <= k < |idx| ==> idx[k] < |entries| && tips[k] == Fix(entries[idx[k]].0)
  }

  lemma TipsAlignedWiden(init: seq<Entry>, entries: seq<Entry>, idx: seq<nat>, tips: seq<Block>)
    requires init <= entries && TipsAligned(init, idx, tips)
    ensures TipsAligned(entries, idx, tips)
  {
    forall k | 0 <= k < |idx|
      ensures idx[k] < |entries| && tips[k] == Fix(entries[idx[k]].0)
    {
      assert entries[idx[k]] == init[idx[k]];
    }
  }

  lemma TipsAlignedSnoc(entries: seq<Entry>, idx: seq<nat>, tips: seq<Block>, n: nat)
    requires n < |entries| && TipsAligned(entries, idx, tips)
    ensures TipsAligned(entries, idx + [n], tips + [Fix(entries[n].0)])
  {
  }


  /** The panel is empty exactly for a placeholder score or when there is nothing
      to say; the positive feedback comes first, exactly for a score of at least
      80, and the perfect-score text exactly for the number 100; at most one
      alternatives section closes it. */
  lemma SuggestedActionsSpec(entries: seq<Entry>, score: Score, currentUrl: string, host: string -> string)
    ensures IsPlaceholder(score) ==> SuggestedActions(entries, score, currentUrl, host) == []
    ensures !IsPlaceholder(score) ==>
      var r := SuggestedActions(entries, score, currentUrl, host);
      && (|r| > 0 && r[0].PositiveFeedback? <==> IsHighScore(score))
      && (|r| > 0 && r[0] == PositiveFeedback(true) <==> IsHighScore(score) && score == Num(100))
      && (forall k, k' :: 0 <= k < |r| && 0 <= k' < |r| && r[k].Alternatives? && r[k'].Alternatives? ==> k == k')
      && (|r| == 0 <==> !IsHighScore(score) && |FixBlocks(entries)| == 0
                        && FirstAlternative(Hostname(currentUrl, host), AlternativeKeys).None?)
  {
    if !IsPlaceholder(score) {
      var hostname := Hostname(currentUrl, host);
      assert SuggestedActions(entries, score, currentUrl, host) == Feedback(score) + FixBlocks(entries) + AlternativesFor(hostname);
      PanelShape(Feedback(score), FixBlocks(entries), AlternativesFor(hostname));
    }
  }

  /** A tip is emitted for a pattern exactly when some entry names it and it has a
      tip, regardless of its count. */
  lemma FixEmittedIff(entries: seq<Entry>, name: string)
    ensures Fix(name) in FixBlocks(entries) <==> name in FixPatterns && exists i :: 0 <= i < |entries| && entries[i].0 == name
  {
    TipEmittedIff(entries, FixPatterns, name);
  }

  /** `TipsFor` emits a tip for a name exactly when the table has it and some
      entry names it. */
  lemma TipEmittedIff(entries: seq<Entry>, table: seq<string>, name: string)
    ensures Fix(name) in TipsFor(entries, table) <==> name in table && exists i :: 0 <= i < |entries| && entries[i].0 == name
  {
    TipsForSpec(entries, table);
    var tips := TipsFor(entries, table);
    var idx := IndicesWhere(|entries|, HasTipAt(entries, table));
    if Fix(name) in tips {
      var k :| 0 <= k < |tips| && tips[k] == Fix(name);
      assert idx[k] in idx;
    }
    if name in table && exists i :: 0 <= i < |entries| && entries[i].0 == name {
      var i :| 0 <= i < |entries| && entries[i].0 == name;
      assert HasTipAt(entries, table)(i);
      assert i in idx;
      var k :| 0 <= k < |idx| && idx[k] == i;
      assert tips[k] == Fix(name);
    }
  }

  /** The tips table covers exactly the seven categories of the service. */
  lemma FixPatternsAreCategories()
    ensures forall p :: p in FixPatterns ==> exists j :: 0 <= j < |Report.CategoryKeys| && Report.CategoryKeys[j] == p
  {
    assert Report.CategoryKeys[5] == FixPatterns[0];
    assert Report.CategoryKeys[0] == FixPatterns[1];
    assert Report.CategoryKeys[4] == FixPatterns[2];
    assert Report.CategoryKeys[2] == FixPatterns[3];
    assert Report.CategoryKeys[3] == FixPatterns[4];
    assert Report.CategoryKeys[1] == FixPatterns[5];
    assert Report.CategoryKeys[6] == FixPatterns[6];
  }

  /** As written: every response of the classification service lists the seven
      categories, so the panel carries all seven tips for every analysed page,
      including one where nothing was found and every count is zero. */
  lemma EveryTipForEveryPage(tokens: seq<string>, output: seq<string>)
    requires |output| == |tokens|
    ensures var r := Report.BuildResponse(tokens, output);
      forall p :: p in FixPatterns ==> Fix(p) in FixBlocks(Report.Entries(r.patternCounts))
    ensures var r := Report.BuildResponse(tokens, output);
      r.totalPatterns == 0 ==> forall i :: 0 <= i < |Report.Entries(r.patternCounts)| ==> Report.Entries(r.patternCounts)[i].1 == 0
  {
    var r := Report.BuildResponse(tokens, output);
    CategoryTips(r.patternCounts);
    if r.totalPatterns == 0 {
      ZeroTotalZeroEntries(r.patternCounts);
    }
  }

  /** A dict that lists the seven categories first yields every tip. */
  lemma CategoryTips(c: Report.Counts)
    requires |c.keys| >= 7 && forall i :: 0 <= i < 7 ==> c.keys[i] == Report.CategoryKeys[i]
    ensures forall p :: p in FixPatterns ==> Fix(p) in FixBlocks(Report.Entries(c))
  {
    var entries := Report.Entries(c);
    FixPatternsAreCategories();
    forall p | p in FixPatterns
      ensures Fix(p) in FixBlocks(entries)
    {
      var j :| 0 <= j < |Report.CategoryKeys| && Report.CategoryKeys[j] == p;
      assert c.keys[j] == p;
      assert (p, Report.Get(c, p)) in entries;
      var i :| 0 <= i < |entries| && entries[i] == (p, Report.Get(c, p));
      assert entries[i].0 == p;
      FixEmittedIff(entries, p);
    }
  }

  /** A dict whose total is zero has only zero counts. */
  lemma ZeroTotalZeroEntries(c: Report.Counts)
    requires Report.Total(c) == 0
    ensures forall i :: 0 <= i < |Report.Entries(c)| ==> Report.Entries(c)[i].1 == 0
  {
    var entries := Report.Entries(c);
    Report.SumOverZeroEach(c.keys, c.count);
    forall i | 0 <= i < |entries|
      ensures entries[i].1 == 0
    {
      assert entries[i] in entries;
    }
  }

  /** The tips of the patterns actually found: an entry with a tip and a count
      above zero. */
  function FoundFixBlocks(entries: seq<Entry>): (r: seq<Block>)
    ensures forall b :: b in r <==>
      exists i :: 0 <= i < |entries| && entries[i].0 in FixPatterns && entries[i].1 > 0 && b == Fix(entries[i].0)
  {
    if |entries| == 0 then []
    else
      var init := entries[..|entries| - 1];
      var rest := FoundFixBlocks(init);
      var e := entries[|entries| - 1];
      assert forall i :: 0 <= i < |init| ==> init[i] == entries[i];
      if e.0 in FixPatterns && e.1 > 0 then rest + [Fix(e.0)] else rest
  }

  /** `generateSuggestedActions` with tips only for the patterns found. */
  function IntendedSuggestedActions(entries: seq<Entry>, score: Score, currentUrl: string, host: string -> string): (r: seq<Block>)
    ensures IsPlaceholder(score) ==> r == []
    ensures forall p :: Fix(p) in r <==>
      (!IsPlaceholder(score) && p in FixPatterns && exists i :: 0 <= i < |entries| && entries[i].0 == p && entries[i].1 > 0)
  {
    if IsPlaceholder(score) then []
    else Feedback(score) + FoundFixBlocks(entries) + AlternativesFor(Hostname(currentUrl, host))
  }

  /** With the corrected panel a page where nothing was found gets no tip at all. */
  lemma NoTipForCleanPage(tokens: seq<string>, output: seq<string>, score: Score, currentUrl: string, host: string -> string)
    requires |output| == |tokens|
    requires Report.BuildResponse(tokens, output).totalPatterns == 0
    ensures var entries := Report.Entries(Report.BuildResponse(tokens, output).patternCounts);
      forall b :: b in IntendedSuggestedActions(entries, score, currentUrl, host) ==> !b.Fix?
  {
    EveryTipForEveryPage(tokens, output);
  }

  // ---------------------------------------------------------------------------
  // Pattern breakdown

  /** The entries with a count above zero, as a filter over positions. */
  function PositiveAt(entries: seq<Entry>): nat -> bool {
    (i: nat) => i < |entries| && entries[i].1 > 0
  }

  /** The filter of `updatePatternBreakdown`: the entries with a count above zero,
      in order. */
  function Breakdown(entries: seq<Entry>): (r: seq<Entry>)
    ensures |r| <= |entries|
  {
    if |entries| == 0 then []
    else
      var rest := Breakdown(entries[..|entries| - 1]);
      if entries[|entries| - 1].1 > 0 then rest + [entries[|entries| - 1]] else rest
  }

  /** The breakdown lists the entries at the positions with a count above zero,
      in order. */
  lemma {:induction false} BreakdownSpec(entries: seq<Entry>)
    ensures var idx := IndicesWhere(|entries|, PositiveAt(entries));
      |Breakdown(entries)| == |idx|
      && forall k :: 0 <= k < |idx| ==> idx[k] < |entries| && Breakdown(entries)[k] == entries[idx[k]]
  {
    if |entries| > 0 {
      var init := entries[..|entries| - 1];
      var last := entries[|entries| - 1];
      BreakdownSpec(init);
      var initIdx := IndicesWhere(|init|, PositiveAt(init));
      assert IndicesWhere(|init|, PositiveAt(entries)) == initIdx by {
        SameFilter(|init|, PositiveAt(entries), PositiveAt(init));
      }
      assert forall k :: 0 <= k < |initIdx| ==> initIdx[k] < |init|;
      if last.1 > 0 {
        assert PositiveAt(entries)(|init|);
        var idx := initIdx + [|init|];
        assert IndicesWhere(|entries|, PositiveAt(entries)) == idx;
        assert Breakdown(entries) == Breakdown(init) + [last];
        forall k | 0 <= k < |idx|
          ensures idx[k] < |entries| && Breakdown(entries)[k] == entries[idx[k]]
        {
          if k < |initIdx| {
            assert idx[k] == initIdx[k] && init[initIdx[k]] == entries[initIdx[k]];
          }
        }
      } else {
        assert !PositiveAt(entries)(|init|);
        assert IndicesWhere(|entries|, PositiveAt(entries)) == initIdx;
        assert Breakdown(entries) == Breakdown(init);
        forall k | 0 <= k < |initIdx|
          ensures Breakdown(entries)[k] == entries[initIdx[k]]
        {
          assert init[initIdx[k]] == entries[initIdx[k]];
        }
      }
    }
  }

  /** The breakdown section is shown exactly when some entry counts above zero. */
  predicate BreakdownShown(entries: seq<Entry>) {
    |Breakdown(entries)| > 0
  }

  lemma BreakdownShownIff(entries: seq<Entry>)
    ensures BreakdownShown(entries) <==> exists i :: 0 <= i < |entries| && entries[i].1 > 0
  {
    var idx := IndicesWhere(|entries|, PositiveAt(entries));
    BreakdownSpec(entries);
    if exists i :: 0 <= i < |entries| && entries[i].1 > 0 {
      var i :| 0 <= i < |entries| && entries[i].1 > 0;
      assert i in idx;
    }
    if |idx| > 0 {
      assert idx[0] in idx;
    }
  }

  /** The sum of the counts. */
  function SumCounts(entries: seq<Entry>): int {
    if |entries| == 0 then 0 else SumCounts(entries[..|entries| - 1]) + entries[|entries| - 1].1
  }

  /** Dropping the zero and negative counts keeps the sum when no count is
      negative. */
  lemma {:induction false} BreakdownSum(entries: seq<Entry>)
    requires forall i :: 0 <= i < |entries| ==> entries[i].1 >= 0
    ensures SumCounts(Breakdown(entries)) == SumCounts(entries)
  {
    if |entries| > 0 {
      var init := entries[..|entries| - 1];
      BreakdownSum(init);
      var last := entries[|entries| - 1];
      if last.1 > 0 {
        var b := Breakdown(init) + [last];
        assert Breakdown(entries) == b;
        assert b[..|b| - 1] == Breakdown(init);
        assert SumCounts(b) == SumCounts(Breakdown(init)) + last.1;
      } else {
        assert Breakdown(entries) == Breakdown(init);
      }
    }
  }

  /** The first `n` items of a count dict add up to the sum of its first `n` counts. */
  lemma {:induction false} ItemsSum(c: Report.Counts, n: nat)
    requires n <= |c.keys|
    ensures SumCounts(Report.Items(c)[..n]) == Report.SumOver(c.keys[..n], c.count)
  {
    if n > 0 {
      ItemsSum(c, n - 1);
      var e := Report.Items(c);
      assert e[..n][..n - 1] == e[..n - 1];
      assert c.keys[..n][..n - 1] == c.keys[..n - 1];
    }
  }

  /** A pair in front adds its count. */
  lemma {:induction false} SumCountsCons(x: Entry, s: seq<Entry>)
    ensures SumCounts([x] + s) == x.1 + SumCounts(s)
  {
    if |s| > 0 {
      var t := [x] + s;
      assert t[..|t| - 1] == [x] + s[..|s| - 1];
      SumCountsCons(x, s[..|s| - 1]);
    }
  }

  /** Inserting a pair adds its count. */
  lemma {:induction false} SumCountsInsert(x: (string, nat), s: seq<(string, nat)>)
    ensures SumCounts(Report.InsertByKey(x, s)) == x.1 + SumCounts(s)
  {
    if |s| == 0 {
      assert Report.InsertByKey(x, s) == [x] + s;
      SumCountsCons(x, s);
    } else if Report.KeyBefore(x.0, s[0].0) {
      SumCountsCons(x, s);
    } else {
      SumCountsInsert(x, s[1..]);
      SumCountsCons(s[0], Report.InsertByKey(x, s[1..]));
      SumCountsCons(s[0], s[1..]);
      assert s == [s[0]] + s[1..];
    }
  }

  /** Sorting keeps the sum. */
  lemma {:induction false} SumCountsSorted(s: seq<(string, nat)>)
    ensures SumCounts(Report.SortByKey(s)) == SumCounts(s)
  {
    if |s| > 0 {
      SumCountsSorted(s[..|s| - 1]);
      SumCountsInsert(s[|s| - 1], Report.SortByKey(s[..|s| - 1]));
    }
  }

  /** The counts the client reads add up to the dict's total. */
  lemma EntriesSum(c: Report.Counts)
    ensures SumCounts(Report.Entries(c)) == Report.Total(c)
  {
    var items := Report.Items(c);
    ItemsSum(c, |c.keys|);
    assert items[..|items|] == items;
    assert c.keys[..|c.keys|] == c.keys;
    SumCountsSorted(items);
  }

  /** For a response of the classification service, the breakdown lists counts
      that add up to `total_patterns`, and it is shown exactly when a pattern was
      found. */
  lemma BreakdownOfResponse(tokens: seq<string>, output: seq<string>)
    requires |output| == |tokens|
    ensures var r := Report.BuildResponse(tokens, output);
      && SumCounts(Breakdown(Report.Entries(r.patternCounts))) == r.totalPatterns
      && (BreakdownShown(Report.Entries(r.patternCounts)) <==> r.totalPatterns > 0)
  {
    var r := Report.BuildResponse(tokens, output);
    BreakdownOfCounts(r.patternCounts);
  }

  /** The breakdown of a dict adds up to its total and is shown exactly when the
      total is positive. */
  lemma BreakdownOfCounts(c: Report.Counts)
    ensures SumCounts(Breakdown(Report.Entries(c))) == Report.Total(c)
    ensures BreakdownShown(Report.Entries(c)) <==> Report.Total(c) > 0
  {
    var entries := Report.Entries(c);
    EntriesSum(c);
    BreakdownSum(entries);
    BreakdownShownIff(entries);
    if Report.Total(c) == 0 {
      ZeroTotalZeroEntries(c);
    } else {
      PositiveSumHasPositive(entries);
    }
  }

  /** A positive sum of counts has a positive count. */
  lemma {:induction false} PositiveSumHasPositive(entries: seq<Entry>)
    requires SumCounts(entries) > 0
    ensures exists i :: 0 <= i < |entries| && entries[i].1 > 0
  {
    var init := entries[..|entries| - 1];
    if entries[|entries| - 1].1 <= 0 {
      PositiveSumHasPositive(init);
      var i :| 0 <= i < |init| && init[i].1 > 0;
      assert entries[i] == init[i];
    }
  }

  // ---------------------------------------------------------------------------
  // Recent achievements

  /** `achievements.slice(-3).reverse()`: the last three (or fewer), most recent
      first. */
  function RecentAchievements<T>(achievements: seq<T>): (r: seq<T>)
    ensures |r| == if |achievements| < 3 then |achievements| else 3
    ensures forall k :: 0 <= k < |r| ==> r[k] == achievements[|achievements| - 1 - k]
  {
    var start := if |achievements| < 3 then 0 else |achievements| - 3;
    Reverse(achievements[start..])
  }

  function Reverse<T>(s: seq<T>): (r: seq<T>)
    ensures |r| == |s|
    ensures forall k :: 0 <= k < |s| ==> r[k] == s[|s| - 1 - k]
  {
    if |s| == 0 then [] else [s[|s| - 1]] + Reverse(s[..|s| - 1])
  }

  /** Unlocking one more achievement puts it first and keeps the previous two
      after it. */
  lemma RecentAfterUnlock<T>(achievements: seq<T>, a: T)
    ensures RecentAchievements(achievements + [a])[0] == a
    ensures |achievements| >= 2 ==> RecentAchievements(achievements + [a])[1..] == RecentAchievements(achievements)[..2]
  {
  }

  // ---------------------------------------------------------------------------
  // Analysable tabs

  /** The fields of the active tab the popup reads. */
  datatype Tab = Tab(id: Option<int>, url: Option<string>)

  /** The popup asks the page for its status only for a tab with an id and an
      http or https URL; any other tab gets the protected-page notice. */
  predicate IsAnalyzable(tab: Option<Tab>) {
    && tab.Some? && tab.value.id.Some? && tab.value.id.value != 0
    && tab.value.url.Some? && tab.value.url.value != ""
    && (StartsWith(tab.value.url.value, "http://") || StartsWith(tab.value.url.value, "https://"))
  }

  /** Only web pages are analysed: the URL must begin with "http", so internal
      pages such as `chrome://extensions` or `about:blank` never are. */
  lemma AnalyzableIff(id: int, url: string)
    ensures IsAnalyzable(Some(Tab(Some(id), Some(url)))) <==>
      id != 0 && (StartsWith(url, "http://") || StartsWith(url, "https://"))
    ensures !StartsWith(url, "http") ==> !IsAnalyzable(Some(Tab(Some(id), Some(url))))
  {
    if StartsWith(url, "http://") || StartsWith(url, "https://") {
      assert url[..4] == "http";
    }
  }
}

=== FILE: report.dfy ===
/** Pattern names as the classification service and the page annotator use them. */
module Labels {

  /** The name the presence classifier gives text that is not manipulative. */
  const NotDark := "Not Dark"

  predicate IsDark(name: string) {
    name != NotDark
  }

  /** Number of entries of `names` that are not `NotDark`. */
  function CountDark(names: seq<string>): (n: nat)
    ensures n <= |names|
  {
    if |names| == 0 then 0
    else CountDark(names[..|names| - 1]) + if IsDark(names[|names| - 1]) then 1 else 0
  }

  /** Number of entries of `names` equal to `name`. */
  function Occurrences(names: seq<string>, name: string): nat {
    if |names| == 0 then 0
    else Occurrences(names[..|names| - 1], name) + if names[|names| - 1] == name then 1 else 0
  }
}

/** The classification endpoint (`main` in the service): per-token labelling and
    the report built around it. The two trained classifiers are parameters. */
module Report {
  import opened Common
  import opened Labels

  /** The label for one token: its category when the presence classifier says
      "Dark", otherwise the presence classifier's own label. */
  function Label(presence: string -> string, category: string -> string, token: string): string {
    if presence(token) == "Dark" then category(token) else presence(token)
  }

  /** The labelling loop: one label per token, in token order. */
  method Classify(tokens: seq<string>, presence: string -> string, category: string -> string)
    returns (output: seq<string>)
    ensures |output| == |tokens|
    ensures forall i :: 0 <= i < |tokens| ==>
      output[i] == if presence(tokens[i]) == "Dark" then category(tokens[i]) else presence(tokens[i])
  {
    output := [];
    var i := 0;
    while i < |tokens|
      invariant 0 <= i <= |tokens|
      invariant |output| == i
      invariant forall k :: 0 <= k < i ==> output[k] == Label(presence, category, tokens[k])
    {
      var result := presence(tokens[i]);
      if result == "Dark" {
        output := output + [category(tokens[i])];
      } else {
        output := output + [result];
      }
      i := i + 1;
    }
  }

  /** One entry of `dark_patterns`. */
  datatype DarkPattern = DarkPattern(text: string, pattern: string, index: nat)

  /** The `dark_patterns` entries for the first `n` tokens: every token whose name
      is not "Not Dark", in token order, with its text, name and position. */
  function DarkPrefix(data: seq<string>, output: seq<string>, n: nat): (r: seq<DarkPattern>)
    requires |data| == |output| && n <= |output|
    ensures |r| == CountDark(output[..n])
    ensures forall k :: 0 <= k < |r| ==>
      && r[k].index < n && IsDark(output[r[k].index])
      && r[k].text == data[r[k].index] && r[k].pattern == output[r[k].index]
    ensures forall i, j :: 0 <= i < j < |r| ==> r[i].index < r[j].index
  {
    if n == 0 then []
    else
      var rest := DarkPrefix(data, output, n - 1);
      assert output[..n][..n - 1] == output[..n - 1];
      if IsDark(output[n - 1]) then rest + [DarkPattern(data[n - 1], output[n - 1], n - 1)]
      else rest
  }

  /** Some entry of `r` is for token `i`. */
  predicate HasEntryFor(r: seq<DarkPattern>, i: nat) {
    exists k :: 0 <= k < |r| && r[k].index == i
  }

  /** Every dark token among the first `n` has its entry. */
  lemma {:induction false} DarkPrefixCovers(data: seq<string>, output: seq<string>, n: nat)
    requires |data| == |output| && n <= |output|
    ensures forall i :: 0 <= i < n && IsDark(output[i]) ==> HasEntryFor(DarkPrefix(data, output, n), i)
  {
    if n > 0 {
      DarkPrefixCovers(data, output, n - 1);
      var rest := DarkPrefix(data, output, n - 1);
      if IsDark(output[n - 1]) {
        var d := DarkPattern(data[n - 1], output[n - 1], n - 1);
        assert DarkPrefix(data, output, n) == rest + [d];
        forall i | 0 <= i < n && IsDark(output[i])
          ensures HasEntryFor(rest + [d], i)
        {
          if i == n - 1 {
            assert (rest + [d])[|rest|].index == i;
          } else {
            assert HasEntryFor(rest, i);
            var k :| 0 <= k < |rest| && rest[k].index == i;
            assert (rest + [d])[k] == rest[k];
          }
        }
      } else {
        assert DarkPrefix(data, output, n) == rest;
      }
    }
  }

  /** `dark_patterns` for the whole request. */
  function DarkPatterns(data: seq<string>, output: seq<string>): (r: seq<DarkPattern>)
    requires |data| == |output|
    ensures |r| == CountDark(output)
    ensures forall k :: 0 <= k < |r| ==>
      && r[k].index < |output| && IsDark(output[r[k].index])
      && r[k].text == data[r[k].index] && r[k].pattern == output[r[k].index]
    ensures forall i, j :: 0 <= i < j < |r| ==> r[i].index < r[j].index
    ensures forall i :: 0 <= i < |output| && IsDark(output[i]) ==> exists k :: 0 <= k < |r| && r[k].index == i
  {
    assert output[..|output|] == output;
    DarkPrefixCovers(data, output, |output|);
    var r := DarkPrefix(data, output, |output|);
    assert forall i :: 0 <= i < |output| && IsDark(output[i]) ==> HasEntryFor(r, i);
    r
  }

  /** `pattern_counts`: a Python dict, that is, its keys in insertion order and the
      count stored under each. */
  datatype Counts = Counts(keys: seq<string>, count: map<string, nat>)

  /** The keys are listed once each and are exactly the stored ones. */
  predicate CountsValid(c: Counts) {
    NoDuplicates(c.keys) && c.count.Keys == set k | k in c.keys
  }

  /** The seven keys the count map starts with, all at zero. */
  const CategoryKeys: seq<string> :=
    ["Urgency", "Sneaking", "Misdirection", "Social Proof", "Scarcity", "Obstruction", "Forced Action"]

  const InitialCounts: Counts := Counts(CategoryKeys, map k | k in CategoryKeys :: 0)

  lemma InitialCountsValid()
    ensures CountsValid(InitialCounts)
    ensures Total(InitialCounts) == 0
    ensures forall k :: Get(InitialCounts, k) == 0
  {
    SumOverZero(InitialCounts.keys, InitialCounts.count);
  }

  /** Keys whose counts are all zero sum to zero. */
  lemma {:induction false} SumOverZero(keys: seq<string>, count: map<string, nat>)
    requires forall k :: k in keys ==> CountOf(count, k) == 0
    ensures SumOver(keys, count) == 0
  {
    if |keys| > 0 {
      assert forall k :: k in keys[..|keys| - 1] ==> k in keys;
      SumOverZero(keys[..|keys| - 1], count);
    }
  }

  /** `dict.get(key, 0)` on the stored counts. */
  function CountOf(count: map<string, nat>, key: string): nat {
    if key in count then count[key] else 0
  }

  /** `pattern_counts.get(key, 0)`. */
  function Get(c: Counts, key: string): nat {
    CountOf(c.count, key)
  }

  /** The sum of the counts stored under `keys`. */
  function SumOver(keys: seq<string>, count: map<string, nat>): nat {
    if |keys| == 0 then 0
    else SumOver(keys[..|keys| - 1], count) + CountOf(count, keys[|keys| - 1])
  }

  /** The sum of all counts. */
  function Total(c: Counts): nat {
    SumOver(c.keys, c.count)
  }

  /** A zero sum means every listed key counts zero. */
  lemma {:induction false} SumOverZeroEach(keys: seq<string>, count: map<string, nat>)
    requires SumOver(keys, count) == 0
    ensures forall k :: k in keys ==> CountOf(count, k) == 0
  {
    if |keys| > 0 {
      SumOverZeroEach(keys[..|keys| - 1], count);
      assert forall k :: k in keys ==> k in keys[..|keys| - 1] || k == keys[|keys| - 1];
    }
  }

  /** Changing the count of a key that is not listed leaves the sum alone. */
  lemma {:induction false} SumOverOther(keys: seq<string>, count: map<string, nat>, key: string, v: nat)
    requires key !in keys
    ensures SumOver(keys, count[key := v]) == SumOver(keys, count)
  {
    if |keys| > 0 {
      assert key !in keys[..|keys| - 1];
      SumOverOther(keys[..|keys| - 1], count, key, v);
    }
  }

  /** Changing the count of a key listed once moves the sum by the same amount. */
  lemma {:induction false} SumOverUpdate(keys: seq<string>, count: map<string, nat>, key: string, v: nat)
    requires NoDuplicates(keys) && key in keys
    ensures SumOver(keys, count[key := v]) == SumOver(keys, count) - CountOf(count, key) + v
  {
    var n := |keys| - 1;
    if keys[n] == key {
      assert key !in keys[..n];
      SumOverOther(keys[..n], count, key, v);
    } else {
      assert key in keys[..n];
      SumOverUpdate(keys[..n], count, key, v);
    }
  }

  /** `pattern_counts[key] = pattern_counts.get(key, 0) + 1`: an existing key keeps
      its place and gains one; a new key is appended with count 1; the other
      counts and the key order are untouched. */
  function Bump(c: Counts, key: string): (r: Counts)
    requires CountsValid(c)
    ensures CountsValid(r)
    ensures Get(r, key) == Get(c, key) + 1
    ensures forall k :: k != key ==> Get(r, k) == Get(c, k)
    ensures key in c.keys ==> r.keys == c.keys
    ensures key !in c.keys ==> r.keys == c.keys + [key]
    ensures Total(r) == Total(c) + 1
  {
    if key in c.count then
      BumpExisting(c, key);
      Counts(c.keys, c.count[key := Get(c, key) + 1])
    else
      BumpNew(c, key);
      Counts(c.keys + [key], c.count[key := Get(c, key) + 1])
  }

  /** Counting a key already present keeps the dict valid and adds one. */
  lemma BumpExisting(c: Counts, key: string)
    requires CountsValid(c) && key in c.count
    ensures var r := Counts(c.keys, c.count[key := Get(c, key) + 1]);
      CountsValid(r) && key in c.keys && Total(r) == Total(c) + 1
  {
    assert key in c.keys;
    SumOverUpdate(c.keys, c.count, key, Get(c, key) + 1);
  }

  /** Counting a new key appends it, keeps the dict valid and adds one. */
  lemma BumpNew(c: Counts, key: string)
    requires CountsValid(c) && key !in c.count
    ensures var r := Counts(c.keys + [key], c.count[key := Get(c, key) + 1]);
      CountsValid(r) && key !in c.keys && Total(r) == Total(c) + 1
  {
    var keys := c.keys + [key];
    var count := c.count[key := 1];
    assert Get(c, key) + 1 == 1;
    assert key !in c.keys;
    assert NoDuplicates(keys) by {
      assert forall i :: 0 <= i < |c.keys| ==> keys[i] == c.keys[i];
    }
    assert count.Keys == set k | k in keys by {
      assert (set k | k in keys) == (set k | k in c.keys) + {key};
    }
    AppendedKeySum(c.keys, c.count, key);
  }

  /** Appending a new key with count one adds one to the sum. */
  lemma AppendedKeySum(keys: seq<string>, count: map<string, nat>, key: string)
    requires key !in keys && key !in count
    ensures SumOver(keys + [key], count[key := 1]) == SumOver(keys, count) + 1
  {
    SumOverOther(keys, count, key, 1);
    assert (keys + [key])[..|keys|] == keys;
  }

  /** The counts after the counting loop has seen `output`. */
  function Tally(c: Counts, output: seq<string>): (r: Counts)
    requires CountsValid(c)
    ensures CountsValid(r)
  {
    if |output| == 0 then c
    else
      var before := Tally(c, output[..|output| - 1]);
      var name := output[|output| - 1];
      if IsDark(name) then Bump(before, name) else before
  }

  /** The counts grow by exactly the number of dark names, each name by its own
      number of occurrences, "Not Dark" is never counted, and the starting keys
      keep their places at the front. */
  lemma {:induction false} TallyCounts(c: Counts, output: seq<string>)
    requires CountsValid(c)
    ensures Total(Tally(c, output)) == Total(c) + CountDark(output)
    ensures forall k :: IsDark(k) ==> Get(Tally(c, output), k) == Get(c, k) + Occurrences(output, k)
    ensures Get(Tally(c, output), NotDark) == Get(c, NotDark)
    ensures |Tally(c, output).keys| >= |c.keys|
    ensures forall i :: 0 <= i < |c.keys| ==> Tally(c, output).keys[i] == c.keys[i]
  {
    if |output| > 0 {
      TallyCounts(c, output[..|output| - 1]);
    }
  }

  /** Every key of the tally is a starting key or a dark name that occurred. */
  lemma {:induction false} TallyKeys(c: Counts, output: seq<string>)
    requires CountsValid(c)
    ensures forall k :: k in Tally(c, output).keys ==> k in c.keys || (IsDark(k) && k in output)
  {
    if |output| > 0 {
      var n := |output| - 1;
      TallyKeys(c, output[..n]);
      assert forall k :: k in output[..n] ==> k in output;
    }
  }

  /** The dict's (name, count) pairs in insertion order. */
  function Items(c: Counts): (r: seq<(string, nat)>)
    ensures |r| == |c.keys|
    ensures forall i :: 0 <= i < |r| ==> r[i] == (c.keys[i], Get(c, c.keys[i]))
  {
    seq(|c.keys|, i requires 0 <= i < |c.keys| => (c.keys[i], Get(c, c.keys[i])))
  }

  /** Python's `<` on `str`: lexicographic by code point, a proper prefix first. */
  predicate KeyBefore(a: string, b: string)
    decreases |a|
  {
    |b| > 0 && (|a| == 0 || a[0] < b[0] || (a[0] == b[0] && KeyBefore(a[1..], b[1..])))
  }

  /** No two keys each come before the other. */
  lemma {:induction false} KeyBeforeAsymmetric(a: string, b: string)
    ensures KeyBefore(a, b) ==> !KeyBefore(b, a)
    decreases |a|
  {
    if |a| > 0 && |b| > 0 && a[0] == b[0] {
      KeyBeforeAsymmetric(a[1..], b[1..]);
    }
  }

  /** No pair's key comes before the key of the pair ahead of it. */
  predicate SortedByKey(s: seq<(string, nat)>) {
    forall k :: 0 < k < |s| ==> !KeyBefore(s[k].0, s[k - 1].0)
  }

  /** One insertion step of the sort. */
  function InsertByKey(x: (string, nat), s: seq<(string, nat)>): (r: seq<(string, nat)>)
    ensures |r| == |s| + 1
    ensures multiset(r) == multiset(s) + multiset{x}
    ensures r[0] == x || (|s| > 0 && r[0] == s[0])
    ensures SortedByKey(s) ==> SortedByKey(r)
  {
    if |s| == 0 then [x]
    else if KeyBefore(x.0, s[0].0) then
      KeyBeforeAsymmetric(x.0, s[0].0);
      [x] + s
    else
      var t := InsertByKey(x, s[1..]);
      assert s == [s[0]] + s[1..];
      assert SortedByKey(s) ==> SortedByKey(s[1..]) by {
        if SortedByKey(s) {
          forall k | 0 < k < |s[1..]|
            ensures !KeyBefore(s[1..][k].0, s[1..][k - 1].0)
          {
            assert s[1..][k] == s[k + 1] && s[1..][k - 1] == s[k];
          }
        }
      }
      assert SortedByKey(s) ==> SortedByKey([s[0]] + t) by {
        if SortedByKey(s) {
          var r := [s[0]] + t;
          forall k | 0 < k < |r|
            ensures !KeyBefore(r[k].0, r[k - 1].0)
          {
            if k == 1 {
              assert r[1] == t[0];
              if t[0] != x {
                assert t[0] == s[1];
              }
            } else {
              assert r[k] == t[k - 1] && r[k - 1] == t[k - 2];
            }
          }
        }
      }
      [s[0]] + t
  }

  /** The pairs sorted by key, as `jsonify` writes a dict: insertion sort. */
  function SortByKey(s: seq<(string, nat)>): (r: seq<(string, nat)>)
    ensures |r| == |s|
    ensures multiset(r) == multiset(s)
    ensures SortedByKey(r)
  {
    if |s| == 0 then []
    else
      assert s == s[..|s| - 1] + [s[|s| - 1]];
      InsertByKey(s[|s| - 1], SortByKey(s[..|s| - 1]))
  }

  /** The dict as the (name, count) pairs a JSON client reads back: `jsonify`
      writes the keys in sorted order, and the client's `Object.entries` keeps
      the order it parsed. The pairs are the dict's own, each once, sorted by
      key. */
  function Entries(c: Counts): (r: seq<(string, nat)>)
    ensures |r| == |c.keys|
    ensures multiset(r) == multiset(Items(c))
    ensures forall e :: e in r <==> e.0 in c.keys && e.1 == Get(c, e.0)
    ensures SortedByKey(r)
  {
    var items := Items(c);
    var r := SortByKey(items);
    forall e
      ensures e in r <==> e.0 in c.keys && e.1 == Get(c, e.0)
    {
      assert e in r <==> e in multiset(items);
      if e.0 in c.keys && e.1 == Get(c, e.0) {
        var i :| 0 <= i < |c.keys| && c.keys[i] == e.0;
        assert items[i] == e;
      }
    }
    r
  }

  /** `transparency_score`: 100 less 5 per pattern, never below 0. */
  function TransparencyScore(total: nat): (score: int)
    ensures 0 <= score <= 100
    ensures score == 100 - 5 * total || (score == 0 && total >= 20)
  {
    if 100 - 5 * total > 0 then 100 - 5 * total else 0
  }

  /** More patterns never raise the score. */
  lemma ScoreNonIncreasing(m: nat, n: nat)
    requires m <= n
    ensures TransparencyScore(n) <= TransparencyScore(m)
  {
  }

  datatype Risk = Risk(level: string, color: string)

  /** The three risk bands by score. */
  function RiskFor(score: int): Risk {
    if score >= 80 then Risk("Low", "#4BE680")
    else if score >= 50 then Risk("Medium", "#FFA500")
    else Risk("High", "#FF4444")
  }

  /** In terms of the pattern count: Low for at most 4, Medium for 5 to 10, High
      from 11 on. */
  lemma RiskBandsByTotal(total: nat)
    ensures RiskFor(TransparencyScore(total)) == Risk("Low", "#4BE680") <==> total <= 4
    ensures RiskFor(TransparencyScore(total)) == Risk("Medium", "#FFA500") <==> 5 <= total <= 10
    ensures RiskFor(TransparencyScore(total)) == Risk("High", "#FF4444") <==> total >= 11
  {
  }

  /** The service's JSON response. */
  datatype Response = Response(
    result: seq<string>,
    darkPatterns: seq<DarkPattern>,
    transparencyScore: int,
    riskLevel: string,
    riskColor: string,
    patternCounts: Counts,
    totalPatterns: nat)

  /** The response for the tokens `data` and their labels `output`. */
  function BuildResponse(data: seq<string>, output: seq<string>): (r: Response)
    requires |data| == |output|
    ensures r.result == output
    ensures r.totalPatterns == CountDark(output) == |r.darkPatterns|
    ensures CountsValid(r.patternCounts)
    ensures Total(r.patternCounts) == r.totalPatterns
    ensures |r.patternCounts.keys| >= 7
    ensures forall i :: 0 <= i < 7 ==> r.patternCounts.keys[i] == CategoryKeys[i]
    ensures forall k :: IsDark(k) ==> Get(r.patternCounts, k) == Occurrences(output, k)
    ensures r.darkPatterns == DarkPatterns(data, output)
    ensures r.transparencyScore == TransparencyScore(r.totalPatterns)
    ensures 0 <= r.transparencyScore <= 100
    ensures Risk(r.riskLevel, r.riskColor) == RiskFor(r.transparencyScore)
  {
    var dark := DarkPatterns(data, output);
    InitialCountsValid();
    TallyCounts(InitialCounts, output);
    var counts := Tally(InitialCounts, output);
    var total := CountDark(output);
    var score := TransparencyScore(total);
    var risk := RiskFor(score);
    Response(output, dark, score, risk.level, risk.color, counts, total)
  }

  /** The whole request: label every token, then build the response. */
  method HandleRequest(tokens: seq<string>, presence: string -> string, category: string -> string)
    returns (r: Response)
    ensures |r.result| == |tokens|
    ensures forall i :: 0 <= i < |tokens| ==> r.result[i] == Label(presence, category, tokens[i])
    ensures r.totalPatterns == CountDark(r.result)
    ensures forall k :: 0 <= k < |r.darkPatterns| ==>
      r.darkPatterns[k].index < |tokens| && r.darkPatterns[k].text == tokens[r.darkPatterns[k].index]
    ensures r == BuildResponse(tokens, r.result)
  {
    var output := Classify(tokens, presence, category);
    r := BuildResponse(tokens, output);
  }
}

=== FILE: text.dfy ===
/** The string operations the extension relies on: `trim`, `toLowerCase`,
    `includes`, `startsWith` and `Array.prototype.join`. */
module Text {

  /** ECMAScript WhiteSpace and LineTerminator code points: what `trim` strips and
      what the regular-expression class `\s` matches. */
  predicate IsSpace(c: char) {
    || c == ' ' || c == '\t' || c == '\n' || c == '\r' || c == '\U{000B}' || c == '\U{000C}'
    || c == '\U{00A0}' || c == '\U{1680}' || ('\U{2000}' <= c <= '\U{200A}')
    || c == '\U{2028}' || c == '\U{2029}' || c == '\U{202F}' || c == '\U{205F}'
    || c == '\U{3000}' || c == '\U{FEFF}'
  }

  predicate AllSpaces(s: string) {
    forall i :: 0 <= i < |s| ==> IsSpace(s[i])
  }

  /** Length of the white-space run that starts `s`. */
  function LeadingSpaces(s: string): (k: nat)
    ensures k <= |s|
    ensures forall i :: 0 <= i < k ==> IsSpace(s[i])
    ensures k == |s| || !IsSpace(s[k])
  {
    if |s| == 0 || !IsSpace(s[0]) then 0 else 1 + LeadingSpaces(s[1..])
  }

  /** Length of the white-space run that ends `s`. */
  function TrailingSpaces(s: string): (k: nat)
    ensures k <= |s|
    ensures forall i :: |s| - k <= i < |s| ==> IsSpace(s[i])
    ensures k == |s| || !IsSpace(s[|s| - 1 - k])
  {
    if |s| == 0 || !IsSpace(s[|s| - 1]) then 0 else 1 + TrailingSpaces(s[..|s| - 1])
  }

  /** `String.prototype.trim`: empty exactly when `s` is blank, and otherwise
      neither starts nor ends with white space. */
  function Trim(s: string): (r: string)
    ensures |r| <= |s|
    ensures r == [] <==> AllSpaces(s)
    ensures r != [] ==> !IsSpace(r[0]) && !IsSpace(r[|r| - 1])
  {
    var a := LeadingSpaces(s);
    var b := TrailingSpaces(s);
    if a == |s| then [] else s[a..|s| - b]
  }

  /** `r` is `s` without its first `a` and last `b` characters, all of them white
      space. */
  predicate Unpadding(s: string, r: string, a: nat, b: nat) {
    && a + b <= |s| && r == s[a..|s| - b]
    && (forall i :: 0 <= i < a ==> IsSpace(s[i]))
    && (forall i :: |s| - b <= i < |s| ==> IsSpace(s[i]))
  }

  /** `Trim` cuts off a white-space prefix and a white-space suffix and keeps
      everything between them. */
  lemma TrimUnpads(s: string)
    ensures exists a: nat, b: nat :: Unpadding(s, Trim(s), a, b)
  {
    var a := LeadingSpaces(s);
    if a == |s| {
      assert Unpadding(s, Trim(s), |s|, 0);
    } else {
      assert Unpadding(s, Trim(s), a, TrailingSpaces(s));
    }
  }

  /** A string that neither starts nor ends with white space is its own trim. */
  lemma TrimUnpadded(s: string)
    requires s == [] || (!IsSpace(s[0]) && !IsSpace(s[|s| - 1]))
    ensures Trim(s) == s
  {
  }

  /** Trimming twice is trimming once. */
  lemma TrimIdempotent(s: string)
    ensures Trim(Trim(s)) == Trim(s)
  {
    TrimUnpadded(Trim(s));
  }

  /** ASCII upper-case letters map to lower case; every other character is kept. */
  function LowerChar(c: char): char {
    if 'A' <= c <= 'Z' then (c as int + 32) as char else c
  }

  /** `String.prototype.toLowerCase`, restricted to the ASCII letters. */
  function ToLower(s: string): (r: string)
    ensures |r| == |s|
    ensures forall i :: 0 <= i < |s| ==> r[i] == LowerChar(s[i])
  {
    seq(|s|, i requires 0 <= i < |s| => LowerChar(s[i]))
  }

  predicate StartsWith(s: string, prefix: string) {
    |prefix| <= |s| && s[..|prefix|] == prefix
  }

  /** `sub` occurs in `s` starting at position `i`. */
  predicate OccursAt(s: string, sub: string, i: nat) {
    i + |sub| <= |s| && s[i..i + |sub|] == sub
  }

  /** `String.prototype.includes`: `sub` occurs somewhere in `s`. */
  predicate Contains(s: string, sub: string)
    decreases |s|
  {
    StartsWith(s, sub) || (|s| > 0 && Contains(s[1..], sub))
  }

  /** `Contains` holds exactly when `sub` occurs at some position of `s`. */
  lemma {:induction false} ContainsIff(s: string, sub: string)
    ensures Contains(s, sub) <==> exists i: nat :: OccursAt(s, sub, i)
    decreases |s|
  {
    if StartsWith(s, sub) {
      assert OccursAt(s, sub, 0);
    } else if |s| > 0 {
      ContainsIff(s[1..], sub);
      if Contains(s[1..], sub) {
        var i: nat :| OccursAt(s[1..], sub, i);
        assert s[1..][i..i + |sub|] == s[i + 1..i + 1 + |sub|];
        assert OccursAt(s, sub, i + 1);
      }
      if exists i: nat :: OccursAt(s, sub, i) {
        var i: nat :| OccursAt(s, sub, i);
        assert i != 0;
        assert s[1..][i - 1..i - 1 + |sub|] == s[i..i + |sub|];
        assert OccursAt(s[1..], sub, i - 1);
      }
    }
  }

  /** A witnessed occurrence establishes `Contains`. */
  lemma ContainsAt(s: string, sub: string, i: nat)
    requires OccursAt(s, sub, i)
    ensures Contains(s, sub)
  {
    ContainsIff(s, sub);
  }

  /** `words.some(w => s.includes(w))`. */
  predicate ContainsAny(s: string, words: seq<string>) {
    exists k :: 0 <= k < |words| && Contains(s, words[k])
  }

  /** `Array.prototype.join(sep)`. */
  function Join(parts: seq<string>, sep: string): string {
    if |parts| == 0 then ""
    else if |parts| == 1 then parts[0]
    else Join(parts[..|parts| - 1], sep) + sep + parts[|parts| - 1]
  }

  /** JavaScript's `a > b` on strings: lexicographic order on characters, a proper
      prefix ordering before the longer string. */
  predicate StringGreater(a: string, b: string) {
    if |b| == 0 then |a| > 0
    else if |a| == 0 then false
    else if a[0] != b[0] then a[0] > b[0]
    else StringGreater(a[1..], b[1..])
  }

  /** `>` on strings is irreflexive and asymmetric. */
  lemma {:induction false} StringGreaterAsymmetric(a: string, b: string)
    ensures !StringGreater(a, a)
    ensures StringGreater(a, b) ==> !StringGreater(b, a)
  {
    if |a| > 0 && |b| > 0 {
      StringGreaterAsymmetric(a[1..], b[1..]);
    }
    if |a| > 0 {
      StringGreaterAsymmetric(a[1..], a[1..]);
    }
  }
}
